=== FILE: README.md ===
# Link-Mágico sales chatbot: the decision layer in Dafny

This project models the deterministic decision layer of the Link-Mágico sales chatbot (version 5.0.1) and proves properties of that model. The language-model calls at its centre are treated as oracles. The layer has five parts.

- **Adaptive conversation engine** (`EnhancedAIConversationEngine`):
  - the conversation stage and emotional state enumerations;
  - the user profile and conversation context records;
  - how an intent analysis updates the profile;
  - persona choice and the response-strategy tables;
  - the append-only reply enricher, which adds persuasion techniques, a tiered call to action and a strategic question;
  - the 50-entry history window and the session store;
  - the keyword-driven fallback reply;
  - the control flow of one turn. Every failure in a turn ends in the fallback reply, and only a successful turn is recorded in the history.
- **Knowledge store** (`EnhancedKnowledgeBase`):
  - add, update and delete, over an insertion-ordered dictionary;
  - usage feedback on an item's effectiveness score;
  - statistics;
  - search: category and context-tag filters, exact keyword matching, text similarity, an optional semantic score, de-duplication by item id keeping the best score, the weighted ranking, and the cut to `max_results`.
- **Helpers of the enhanced chat route**:
  - the stage-to-tag table and the relevance filter of the knowledge lookup;
  - the include-knowledge decision;
  - the knowledge enrichment of a reply;
  - the sales-insight extractors over an extracted page.
- **First-generation engine** (`AIConversationEngine`):
  - prompt-strategy precedence;
  - fixed fallback replies;
  - the append-only persuasion pass;
  - the 20-entry per-session history and its 10-entry context view.
- **Web extractor control** (`UniversalWebExtractor`):
  - method choice from the domain;
  - `extract_data` dispatch;
  - the requests → cloudscraper → selenium → playwright escalation;
  - the error response.

Modules:

- `PyText` covers the Python string and list behaviour the code relies on:
  - `str.lower` for ASCII and Latin-1;
  - `str.split()`, `in` on strings, `xs[:n]` and `xs[-n:]`;
  - `hash(...) % n`.
- `ConversationModel`, `ProfileUpdate`, `Strategy`, `Enricher` and `ConversationEngine` follow `src/services/ai_engine_enhanced.py`.
- `KnowledgeBase` and `KnowledgeSearch` follow `src/services/knowledge_base_enhanced.py`.
- `KnowledgeUsage` and `SalesInsights` follow `src/routes/chatbot_enhanced.py`.
- `LegacyEngine` follows `src/services/ai_engine.py`.
- `WebExtractor` follows `src/services/web_extractor.py`.

Parameters stand in for the system's external effects:

- **Intent analysis call:** an `Option<Analysis>`. `None` is a failed call or an unparsable reply.
- **Main generation call:** a function from the assembled prompt and the message to `Option<string>`.
- **Python's `hash`:** a function `string -> int`.
- **Clock readings:** integers.
- **Id generator:** a function.
- **TF-IDF cosine similarity:** an optional function of the item.
- **Page fetch and parse:** an oracle with three outcomes per method: fetched and parsed, fetch failed, or parse failed.

A Python exception that the caller catches is modelled as `None`. Examples are the `KeyError` on the stage table and the `ZeroDivisionError` of text similarity for a query with no words.

## Model

| member | source | states |
|---|---|---|
| ConversationModel.ParseStage | src/services/ai_engine_enhanced.py:20-28 | `ConversationStage(value)` succeeds exactly on the seven stage values and yields the stage with that value |
| ConversationModel.ParseStageValue | src/services/ai_engine_enhanced.py:20-28 | parsing a stage's value gives back that stage |
| ConversationModel.ParseEmotion | src/services/ai_engine_enhanced.py:30-39 | `EmotionalState(value)` succeeds exactly on the eight emotion values |
| ConversationModel.ParseEmotionValue | src/services/ai_engine_enhanced.py:30-39 | parsing an emotion's value gives back that emotion |
| ConversationModel.NewProfileValid | src/services/ai_engine_enhanced.py:42-62 | a fresh profile keeps its session id, starts with engagement 0.5, trust 0.5 and readiness 0.0 and empty interest, pain-point and objection lists, and so satisfies the score and duplicate-free invariant |
| ConversationModel.StagePromptsDomain | src/services/ai_engine_enhanced.py:123-186 | the stage prompt table has entries for awareness, interest, consideration and intent only |
| ProfileUpdate.AppendNewProperties | src/services/ai_engine_enhanced.py:556-566 | appending pain points or value drivers keeps the old list as a prefix, adds every mentioned tag, adds nothing else, and keeps a duplicate-free list duplicate-free even when the batch repeats |
| ProfileUpdate.UpdateProfile | src/services/ai_engine_enhanced.py:553-586 | scores starting in [0,1] stay there; engagement and readiness never fall and rise by 0.1 per buying signal, and a raise past 1 gives exactly 1; trust moves 0.05 per surplus signal toward the larger side and not on a tie, and a move past 1 or below 0 gives exactly that bound; tag lists grow by prefix; identity fields are untouched |
| ProfileUpdate.UpdateManyValid | src/services/ai_engine_enhanced.py:553-586 | over any number of analysed turns the profile stays valid and readiness never decreases |
| Strategy.SelectPersona | src/services/ai_engine_enhanced.py:375-390 | trust below 0.4 gives the trusted advisor and only then; otherwise awareness or interest gives the consultative seller; otherwise an analytical style or the evaluation stage gives the solution expert, and nothing else does |
| Strategy.ToneTellsEmotion | src/services/ai_engine_enhanced.py:634-642 | the tone of each of the five keyed emotions is used for no other emotion, so the tone identifies it |
| Strategy.ToneDefaultExactly | src/services/ai_engine_enhanced.py:634-642 | the default tone is used exactly for curious, confident and hesitant |
| Strategy.FocusTellsStage | src/services/ai_engine_enhanced.py:654-661 | the focus of each of the four keyed stages is used for no other stage, so the focus identifies it |
| Strategy.FocusDefaultExactly | src/services/ai_engine_enhanced.py:654-661 | the default persuasion focus is used exactly for the stages without a prompt guide |
| Strategy.StructureClosingExactly | src/services/ai_engine_enhanced.py:644-652 | the closing structure is shared by exactly intent, evaluation, purchase and retention |
| Strategy.BuildPrompt | src/services/ai_engine_enhanced.py:407-420 | the prompt can be built exactly when the stage has a prompt guide; it carries the chosen persona and strategy, the page data and the last three interactions |
| Enricher.ApplyTechnique | src/services/ai_engine_enhanced.py:518-536 | the reply is only extended; social proof fires only below trust 0.6, scarcity only at intent or evaluation, reciprocity only at awareness, each only when its keyword detector finds nothing, and then appends exactly one canned paragraph |
| Enricher.ApplyTechniquesAppends | src/services/ai_engine_enhanced.py:505-516 | applying any list of techniques keeps the draft as a prefix |
| Enricher.InactiveTechniquesAreNoOps | src/services/ai_engine_enhanced.py:505-536 | technique names other than the three active ones never change the reply |
| Enricher.CannedTextDeterministic | src/services/ai_engine_enhanced.py:681-703 | the canned statement depends only on the session id, through `hash(session_id) % n`, and is one of the list |
| Enricher.SocialProofIdempotent | src/services/ai_engine_enhanced.py:664-666 | every social-proof statement is recognised by the social-proof detector, so applying the technique twice adds it once |
| Enricher.ReciprocityIdempotent | src/services/ai_engine_enhanced.py:672-674 | every value offer is recognised by the value-offer detector, so reciprocity is idempotent |
| Enricher.ScarcityIdempotentForFirstTwo | src/services/ai_engine_enhanced.py:668-670 | the first two urgency statements are recognised by the urgency detector, so for them applying scarcity twice adds the statement once |
| Enricher.ScarcityRepeatsForThird | src/services/ai_engine_enhanced.py:668-695 | the third statement ("momentum") contains none of the detector's words, so applying scarcity twice appends it twice |
| Enricher.ContextualCta | src/services/ai_engine_enhanced.py:705-711 | readiness above 0.7 gives the next-step CTA, else trust above 0.6 the conversation CTA, else the information offer |
| Enricher.AddCallToAction | src/services/ai_engine_enhanced.py:541-544 | a CTA is appended only at intent or evaluation and only when the reply has no CTA keyword; a reply that already has one is returned unchanged |
| Enricher.CallToActionIdempotentWhenReady | src/services/ai_engine_enhanced.py:676-678 | for a ready buyer the appended next-step CTA is itself detected, so no second CTA is added |
| Enricher.StrategicQuestion | src/services/ai_engine_enhanced.py:713-717 | the question exists exactly when the stage has a prompt guide and is that guide's question at `hash(session_id) % 4` |
| Enricher.AddContextualElements | src/services/ai_engine_enhanced.py:538-551 | fails exactly when a question is asked for at a stage without a guide; otherwise only appends, the CTA step first and then the question |
| Enricher.FallbackAnalysisLeavesDraft | src/services/ai_engine_enhanced.py:719-735 | at consideration, the fallback analysis (technique "liking", action "provide_info") leaves the generated draft unchanged |
| ConversationEngine.AppendHistory | src/services/ai_engine_enhanced.py:588-605 | after recording, the new interaction is last, there are at most 50, a short history is only extended and a full one loses exactly its oldest entry |
| ConversationEngine.AppendAllWindow | src/services/ai_engine_enhanced.py:599-603 | after any number of turns the history is the last 50 interactions of the whole conversation, in order |
| ConversationEngine.GetOrCreate | src/services/ai_engine_enhanced.py:617-631 | an existing session is returned unchanged; a new one starts at awareness and curious with an empty history and the stored or a fresh profile; other sessions are untouched |
| ConversationEngine.GetOrCreateIdempotent | src/services/ai_engine_enhanced.py:617-631 | looking a session up twice is the same as looking it up once |
| ConversationEngine.ClassifyMessage | src/services/ai_engine_enhanced.py:746-754 | a greeting word wins over "?", which wins over an objection word, which wins over everything else |
| ConversationEngine.FallbackTextInjective | src/services/ai_engine_enhanced.py:739-744 | the four fallback replies are pairwise different |
| ConversationEngine.GreetingTakesPrecedence | src/services/ai_engine_enhanced.py:747-748 | a message with a greeting word gets the greeting reply whatever else it contains |
| ConversationEngine.Absorb | src/services/ai_engine_enhanced.py:260-318 | a well-typed analysis updates the profile, and a failed call or unparsable reply leaves it alone; intent and confidence (default 0.5) come from the analysis in effect |
| ConversationEngine.Turn | src/services/ai_engine_enhanced.py:320-373 | on the fallback path the history is unchanged and the reply is the message's fallback; on success exactly this interaction is appended and the stage has a guide; on every path the profile, intent and confidence are those after `Absorb`, which runs before anything can fail; session id, page data and profile validity are kept |
| ConversationEngine.TurnAssignsStates | src/services/ai_engine_enhanced.py:327-330 | the analysed stage and emotion are assigned before any later step can fail |
| ConversationEngine.UnknownEmotionFallsBack | src/services/ai_engine_enhanced.py:329 | an emotion value outside the enumeration ends on the fallback path |
| ConversationEngine.ParseFailureContext | src/services/ai_engine_enhanced.py:312-330 | an emotion outside the enumeration falls back with exactly the context after the profile update and the intent and confidence assignments; a stage outside it falls back with that context plus the already assigned emotion; a parsed emotion is kept whatever follows |
| ConversationEngine.LateStagesAlwaysFallBack | src/services/ai_engine_enhanced.py:330 | an analysis naming evaluation, purchase or retention always ends on the fallback path, because the stage table lookup fails |
| ConversationEngine.AnalysisFailureTurn | src/services/ai_engine_enhanced.py:324 | when the analysis fails the turn runs at consideration with confidence 0.3, leaves the profile alone and records the generated draft unchanged |
| ConversationEngine.TurnSucceeds | src/services/ai_engine_enhanced.py:320-373 | when the emotion and stage parse, the stage has a guide and generation returns a draft, the turn does not fall back and its reply is the draft after the persuasion techniques and the contextual elements, so the draft is a prefix of the reply |
| ConversationEngine.TurnSuccessNeeds | src/services/ai_engine_enhanced.py:320-373 | conversely, a turn that does not fall back had a parsed emotion and stage, a stage with a guide and a generated draft |
| ConversationEngine.Respond | src/services/ai_engine_enhanced.py:617-631 | a turn through the store registers exactly the one session beside the existing ones, leaves every other session's profile unchanged, stores the turn's context and returns the turn's reply, which is the route's get-or-create then generate sequence at src/routes/chatbot_enhanced.py lines 42 and 63 |
| ConversationEngine.RespondKeepsCoherent | src/services/ai_engine_enhanced.py:617-631 | across any turn every context stays registered under its own id with its profile, and every profile stays valid |
| ConversationEngine.StoreKeepsCoherent | src/services/ai_engine_enhanced.py:621-629 | writing back a context with a valid profile keeps the store coherent |
| KnowledgeBase.Lookup | src/services/knowledge_base_enhanced.py:303 | a key is found exactly when some entry carries it |
| KnowledgeBase.PutEntryInPlace | src/services/knowledge_base_enhanced.py:303 | assigning an existing key replaces its entry in place and keeps keys distinct |
| KnowledgeBase.RemoveEntryDistinct | src/services/knowledge_base_enhanced.py:334 | removing a key keeps the remaining keys distinct |
| KnowledgeBase.AddItem | src/services/knowledge_base_enhanced.py:297-310 | the item is stored under its id, or under a generated id when empty, with `updated_at` set; other keys are unchanged |
| KnowledgeBase.UpdateItem | src/services/knowledge_base_enhanced.py:312-327 | a missing id returns false and leaves the store unchanged; otherwise the patched item with the new `updated_at` replaces it in place |
| KnowledgeBase.DeleteItem | src/services/knowledge_base_enhanced.py:329-339 | returns true exactly for a present id; a missing id leaves the store unchanged; a present one removes only that key |
| KnowledgeBase.DeleteUndoesAdd | src/services/knowledge_base_enhanced.py:297-339 | deleting an item just added under a fresh id restores the store exactly |
| KnowledgeBase.Feedback | src/services/knowledge_base_enhanced.py:521-526 | helpful use adds 0.1 capped at 1, unhelpful use subtracts 0.05 floored at 0, so the score stays in [0,1] |
| KnowledgeBase.UpdateUsageStats | src/services/knowledge_base_enhanced.py:516-530 | an unknown id changes nothing; a known one gets one more use and the feedback rule; effectiveness stays in [0,1] for every item |
| KnowledgeBase.CategoryCount | src/services/knowledge_base_enhanced.py:540-543 | a category's count is positive exactly when some item has it |
| KnowledgeBase.GetStats | src/services/knowledge_base_enhanced.py:532-555 | an empty store gives only `total_items = 0`; otherwise the categories listed are exactly those present, with their counts, the total usage is the sum of the items' usage counts and the average effectiveness is the mean effectiveness, in [0,1]; the vectorizer flag is reported as passed |
| KnowledgeBase.UsageStatsCountOneUse | src/services/knowledge_base_enhanced.py:516-555 | recording one use of a stored item raises the reported total usage by exactly one and keeps the item count; an unknown id leaves the statistics unchanged |
| KnowledgeBase.StatsCountsSumToTotal | src/services/knowledge_base_enhanced.py:532-555 | the category counts add up to the number of items |
| KnowledgeSearch.Candidates | src/services/knowledge_base_enhanced.py:349-358 | the candidates are exactly the stored items with the requested category and at least one requested context tag, with no tag filter for an empty tag list |
| KnowledgeSearch.KeywordMatch | src/services/knowledge_base_enhanced.py:393-411 | an item matches exactly when query words and keywords intersect; the relevance is the number of matched query words over the number of query words, so in (0,1], and is 1 exactly when every query word is a keyword |
| KnowledgeSearch.KeywordMatches | src/services/knowledge_base_enhanced.py:398-409 | the exact matches are exactly the matches of the candidate items |
| KnowledgeSearch.WordHits | src/services/knowledge_base_enhanced.py:463-466 | the hit count is at most the number of query words and equals it exactly when every word occurs |
| KnowledgeSearch.TextScore | src/services/knowledge_base_enhanced.py:445-482 | the score lies in [0, 1.6]; it is exactly 1.6 with the query in both title and content, 1.1 in the title only, 0.8 in the content only, and at most 0.3 otherwise |
| KnowledgeSearch.TextScoreTop | src/services/knowledge_base_enhanced.py:445-482 | with the whole query in both title and content the score is 1.6, and it is 1.6 exactly when, in addition, every query word occurs in "title content" |
| KnowledgeSearch.QueryInFieldHitsAllWords | src/services/knowledge_base_enhanced.py:451-469 | a query occurring in the title or in the content has every one of its words occurring in "title content", so the word share is full |
| KnowledgeSearch.TextScoreWordsOnly | src/services/knowledge_base_enhanced.py:445-482 | with the whole query in neither field the score is 0.3 times the share of query words that occur |
| KnowledgeSearch.TextMatches | src/services/knowledge_base_enhanced.py:445-482 | fails (division by zero) exactly for candidates and a query without words; otherwise every result is the text match of its item, and every candidate scoring above 0.1 is among them |
| KnowledgeSearch.SemanticMatches | src/services/knowledge_base_enhanced.py:413-443 | the semantic matches are exactly the candidates whose supplied similarity exceeds 0.1, each scored by that similarity |
| KnowledgeSearch.Merge | src/services/knowledge_base_enhanced.py:379-382 | after de-duplication each item id appears once, every matched id is kept, and it carries the highest relevance among its matches |
| KnowledgeSearch.SortByRank | src/services/knowledge_base_enhanced.py:385-389 | the ranking is a permutation of its input, non-increasing in 0.7·relevance + 0.1·priority + 0.2·effectiveness |
| KnowledgeSearch.DistinctIdsOfPermutation | src/services/knowledge_base_enhanced.py:385-389 | sorting cannot bring back a duplicate id |
| KnowledgeSearch.Ranked | src/services/knowledge_base_enhanced.py:379-391 | after merging, sorting and cutting, the results are ordered by rank with distinct ids and number `min(max_results, merged)`; they are the best-ranked merged results, each carries the best score of its id, and every match is returned under its id or outranked by all of a full list |
| KnowledgeSearch.Search | src/services/knowledge_base_enhanced.py:341-391 | an empty store gives []; only a wordless query over candidates fails; the result is ranked, has distinct ids and at most `max_results` entries, each a stored item passing both filters and each a real keyword, semantic or text match of its item, scored at least as high as any match of a candidate with the same id; every keyword, semantic or text match of a candidate is returned under its id with at least its score, or the list is full of results ranking at least as high |
| KnowledgeUsage.StageTags | src/routes/chatbot_enhanced.py:436-445 | each stage searches with three tags or with none |
| KnowledgeUsage.StageTagsExactly | src/routes/chatbot_enhanced.py:436-445 | exactly the awareness, interest, consideration and intent stages search with tags |
| KnowledgeUsage.StageTagsDisjoint | src/routes/chatbot_enhanced.py:436-445 | no tag is searched in two different stages |
| KnowledgeUsage.KeepRelevant | src/routes/chatbot_enhanced.py:454 | the kept items are exactly those of results scoring above 0.3 |
| KnowledgeUsage.RelevantKnowledge | src/routes/chatbot_enhanced.py:433-461 | at most three items, all stored and carrying one of the stage's tags; an item is kept exactly when a search result for it scores above 0.3, and there are no items when the search fails |
| KnowledgeUsage.ShouldIncludeKnowledge | src/routes/chatbot_enhanced.py:464-481 | knowledge is included exactly at awareness or interest, below trust 0.6, or when some item is objection handling or a testimonial |
| KnowledgeUsage.ShouldIncludeMonotone | src/routes/chatbot_enhanced.py:476-478 | more knowledge items never turn inclusion off |
| KnowledgeUsage.Snippet | src/routes/chatbot_enhanced.py:491-497 | customer stories add their lead, the content cut to 200 characters and "..."; testimonials the content cut to 150; FAQs the title, ": " and the content cut to 200; any other category adds nothing |
| KnowledgeUsage.EnrichResponse | src/routes/chatbot_enhanced.py:483-499 | an empty list returns the reply unchanged and one item appends exactly its snippet; otherwise it only appends, starting with the first item's snippet, and items of other categories add nothing |
| KnowledgeUsage.EnrichIgnoresTail | src/routes/chatbot_enhanced.py:490 | items after the second are never looked at |
| KnowledgeUsage.EnrichTwo | src/routes/chatbot_enhanced.py:490-497 | two items extend the reply by exactly their two snippets, in order |
| SalesInsights.ValueCandidates | src/routes/chatbot_enhanced.py:551-554 | the candidates are the heading texts with a value keyword, in heading order (a subsequence of all heading texts), and every such text is one of them |
| SalesInsights.ValueCandidatesCounts | src/routes/chatbot_enhanced.py:551-554 | each text with a value keyword occurs among the candidates exactly as often as among all heading texts, repeats included, and no other text occurs |
| SalesInsights.ValuePropositions | src/routes/chatbot_enhanced.py:545-556 | the value propositions are the first `min(5, candidates)` candidates, in heading order, so, by `ValueCandidatesCounts`, a repeated qualifying heading takes up more than one of the five places |
| SalesInsights.Summarize | src/routes/chatbot_enhanced.py:558-578 | the flag is set exactly when the count is positive, the count is the list length and the sample is the first `min(n, len)` entries |
| SalesInsights.PricingInfo | src/routes/chatbot_enhanced.py:558-567 | `has_pricing` exactly when prices exist, and the sample is the first `min(3, len)` prices |
| SalesInsights.SocialProof | src/routes/chatbot_enhanced.py:569-578 | `has_reviews` exactly when reviews exist, and the sample is the first `min(2, len)` reviews |
| SalesInsights.Found | src/routes/chatbot_enhanced.py:594-598 | the found keywords are a subsequence of the keyword list, are exactly those the text contains, and have no duplicates when the list has none |
| SalesInsights.UrgencyIndicators | src/routes/chatbot_enhanced.py:590-600 | the urgency indicators are a duplicate-free subsequence of the urgency words, in list order, holding exactly the words the lower-cased text contains |
| SalesInsights.ClassifyPageType | src/routes/chatbot_enhanced.py:602-616 | first match wins in the order product, about, contact, content, and otherwise landing page, each as an if-and-only-if |
| SalesInsights.ProductPageStable | src/routes/chatbot_enhanced.py:607-608 | appending text to a product page keeps it a product page |
| SalesInsights.ElementList | src/routes/chatbot_enhanced.py:618-641 | each of the four markers is present exactly under its condition, at most once |
| SalesInsights.ConversionElements | src/routes/chatbot_enhanced.py:618-643 | the elements are a subset of the four markers, each present exactly under its condition |
| LegacyEngine.SelectPromptStrategy | src/services/ai_engine.py:138-150 | greeting wins, then objection, then ready-to-buy or the decision stage give closing, and everything else is follow-up, each as an if-and-only-if |
| LegacyEngine.PromptStrategyExamples | src/services/ai_engine.py:138-150 | the four strategy cases of the unit tests hold, and a missing intent counts as "other" |
| LegacyEngine.FallbackDistinct | src/services/ai_engine.py:231-236 | the four keyed intents get four different replies |
| LegacyEngine.FallbackOtherExactly | src/services/ai_engine.py:237 | an intent gets the "other" reply exactly when it is not greeting, objection or question |
| LegacyEngine.GenerateCta | src/services/ai_engine.py:202-209 | the call to action is always one of the fixed CTA texts |
| LegacyEngine.AddSocialProof | src/services/ai_engine.py:211-218 | the reply is kept as a prefix and one of the three social-proof lines follows it |
| LegacyEngine.AddUrgency | src/services/ai_engine.py:220-227 | the reply is kept as a prefix and one of the three urgency lines follows it |
| LegacyEngine.AdditionsCycle | src/services/ai_engine.py:211-227 | the appended social-proof and urgency lines depend only on the reply length mod 3, and different residues give different lines |
| LegacyEngine.AdditionsFor | src/services/ai_engine.py:174-227 | a CTA is added exactly at the decision stage without a CTA keyword; social proof exactly for a skeptical user, chosen by length mod 3; urgency exactly for low urgency at consideration or decision |
| LegacyEngine.EnhanceResponse | src/services/ai_engine.py:174-192 | the generated reply is a prefix, followed by the CTA, then the social proof, then the urgency line, each only when its rule fires |
| LegacyEngine.NoSecondCta | src/services/ai_engine.py:179-181 | a reply that already has a CTA keyword gets no CTA |
| LegacyEngine.EnhanceQuiet | src/services/ai_engine.py:174-192 | when no rule fires the generated reply is returned unchanged |
| LegacyEngine.EnhanceChangesIffRuleFires | src/services/ai_engine.py:174-192 | the reply changes exactly when at least one of the three rules fires |
| LegacyEngine.Record | src/services/ai_engine.py:244-253 | the new exchange is last, there are at most 20, and a full history loses exactly its oldest entry |
| LegacyEngine.UpdateHistory | src/services/ai_engine.py:239-253 | the session is created on first use and no other session changes |
| LegacyEngine.RecordAllWindow | src/services/ai_engine.py:251-253 | after any number of exchanges a session keeps the last 20 of them, in order |
| LegacyEngine.ConversationContext | src/services/ai_engine.py:255-265 | the view lists the message pairs of at most the 10 most recent exchanges, oldest first, with the full count; an unknown session gives no messages and count 0 |
| WebExtractor.ParseMethod | src/services/web_extractor.py:54-63 | exactly the four method names are supported |
| WebExtractor.ParseMethodName | src/services/web_extractor.py:54-63 | every method is dispatched under its own name |
| WebExtractor.DetectBestMethod | src/services/web_extractor.py:69-89 | a JavaScript-heavy site name gives playwright, otherwise a protected-site marker gives cloudscraper, otherwise requests; selenium is never chosen |
| WebExtractor.DetectExample | src/services/web_extractor.py:84-85 | the facebook.com domain of the unit tests selects playwright |
| WebExtractor.ErrorResponse | src/services/web_extractor.py:469-478 | the error response is unsuccessful, has method "error", the same url, the given error and no data |
| WebExtractor.Next | src/services/web_extractor.py:100-117 | every method but playwright escalates to the next one in the chain |
| WebExtractor.ExtractWith | src/services/web_extractor.py:91-184 | a success names the first method that parsed the page, only after all earlier methods failed to fetch; if every fetch fails the result is playwright's error response |
| WebExtractor.FirstParseAnswers | src/services/web_extractor.py:91-98 | once a method parses the page no later method is tried |
| WebExtractor.FirstFetchDecides | src/services/web_extractor.py:91-184 | the first method in the chain whose fetch does not fail decides the result: its parsed data as a success under its name, or its parse error as the error response |
| WebExtractor.ExtractData | src/services/web_extractor.py:46-67 | "auto" runs the detected method's chain, a supported name runs its own chain, and any other name gives the unsupported-method error response |
| PyText.Words | src/services/knowledge_base_enhanced.py:396 | `split()` yields non-empty whitespace-free words and nothing exactly for an all-whitespace string |
| PyText.WordsOfWord | src/services/knowledge_base_enhanced.py:396 | a whitespace-free non-empty string splits into itself |
| PyText.WordsSplitAtSpace | src/services/knowledge_base_enhanced.py:396 | splitting at a whitespace character gives the words of the left part followed by those of the right part |
| PyText.WordsOccur | src/services/knowledge_base_enhanced.py:396 | every word `split()` returns is a substring of the string it came from |
| PyText.SliceTo | src/services/knowledge_base_enhanced.py:391 | `xs[:n]` is a prefix of length `min(n, len)`, counting from the end for negative `n` |

## Left out

- Language-model calls: `_call_llm_async`, the OpenAI client and JSON parsing of the replies. They are oracles, so the analysis and the generated text are whatever the oracle returns.
- Prompt wording: the text of `_build_dynamic_prompt`, the prompt templates and `_build_conversation_context`. Only which parts go into a prompt, and whether the stage lookup succeeds, are modelled.
- Persuasion technique descriptions (`_load_persuasion_techniques`): only which six names are known matters to the enricher.
- Python's `hash`: it is randomised per process, so it is a parameter. Determinism is stated for a fixed hash function.
- Flask routes, request validation, the database models, caching and analytics: these are I/O and persistence.
- The helpers `calculate_conversation_metrics`, `enrich_data_for_sales`, `extract_sales_insights` and `extract_contact_methods`: they only copy fields into dictionaries.
- ConversationEngine.Absorb: analysis replies are assumed well-typed. Each key is absent or has a value of the expected type, and never JSON `null`. So the source's behaviour on a `null` value is not modelled:
  - `"buying_signals": null` makes `len(None)` raise after the pain points and interests were already appended. The source then keeps that partial profile update under the fallback analysis; the model updates all or nothing.
  - A `null` emotion or stage, or `null` techniques, raise and give the fallback reply. The model reads them as the missing-key defaults.
- LegacyEngine.AdditionsFor: `buying_stage: null` is read as the default "consideration". The source compares `None` and so adds no urgency line.
- Profile overrides through `setattr` in the profile route: they can put scores outside [0,1]. The score invariant is therefore a precondition (`ValidProfile`), not a global invariant.
- KnowledgeBase.UpdateItem: the patch is typed. `setattr` with an ill-typed value, or with an attribute the item lacks (ignored by `hasattr`), is not modelled.
- TF-IDF vectorising, `_search_semantic`'s cosine similarity and `_update_vectors`: the similarity is a parameter.
- Pickle and JSON persistence, import and export.
- The md5-based `_generate_id`: it is a parameter.
- KnowledgeSearch.SortByRank: states order and permutation. It is a stable insertion sort, like Python's `sorted`, but stability itself is not stated as a property.
- HTML fetching and parsing (requests, cloudscraper, Selenium, Playwright, BeautifulSoup) and the `_extract_*` helpers: they are the attempt oracle.
- `web_extractor_simple.py` is not part of this model.
- `urlparse`: the domain is passed in beside the url.
- Timestamps (`datetime.now`, `time.time`): opaque integers.
- Concurrency on the global session dictionaries: the model is sequential.
- Shared mutable objects: the context and the profile dictionary share one profile object in the source. The model keeps two equal copies and proves they stay equal (`ConversationEngine.Coherent`).
- IEEE floating point: scores are exact reals.
- PyText.Lower: lower-cases ASCII and Latin-1 letters only, not the full Unicode case mapping of `str.lower`.
- PyText.Words: splits on ASCII and Latin-1 whitespace only.
- The history entries of the first-generation engine keep their context dictionary as string pairs.
- `get_conversation_context` reads the clock for a session without history; the clock reading is a parameter.
- WebExtractor.DetectExample: covers only the JavaScript-heavy example of the unit tests. The protected-site and plain examples would need character-level reasoning about literal strings.

=== FILE: conversation_engine.dfy ===
/** The conversation engine proper: the 50-entry history window, the session store behind
    `get_or_create_context`, the keyword-driven fallback reply and the control flow of
    `generate_adaptive_response`. The two language-model calls are oracles: the analysis
    call yields `None` where the call or its JSON parsing fails, and the main call is a
    function of the assembled prompt and the message that may also fail. */
module ConversationEngine {
  import opened PyText
  import opened ConversationModel
  import opened ProfileUpdate
  import opened Strategy
  import opened Enricher

  // ---------------------------------------------------------------------------
  // History window
  // ---------------------------------------------------------------------------

  /** `_update_conversation_history`: append, then keep the last 50 entries. */
  function AppendHistory(h: seq<Interaction>, e: Interaction): (r: seq<Interaction>)
    ensures |r| > 0 && r[|r| - 1] == e
    ensures |r| <= MaxHistory
    // short histories are only extended
    ensures |h| < MaxHistory ==> r == h + [e]
    // a full history loses exactly its oldest entry, order is kept
    ensures |h| >= MaxHistory ==> r == h[|h| - MaxHistory + 1..] + [e]
  {
    LastN(h + [e], MaxHistory)
  }

  function AppendAll(h: seq<Interaction>, es: seq<Interaction>): seq<Interaction>
    decreases |es|
  {
    if |es| == 0 then h else AppendAll(AppendHistory(h, es[0]), es[1..])
  }

  /** After any number of turns the history is the last 50 interactions of the whole
      conversation, in order. */
  lemma {:induction false} AppendAllWindow(h: seq<Interaction>, es: seq<Interaction>)
    requires |h| <= MaxHistory
    ensures AppendAll(h, es) == LastN(h + es, MaxHistory)
    decreases |es|
  {
    if |es| > 0 {
      var h1 := AppendHistory(h, es[0]);
      assert AppendAll(h, es) == AppendAll(h1, es[1..]);
      AppendAllWindow(h1, es[1..]);
      AppendAllStep(h, es[0], es[1..]);
      assert [es[0]] + es[1..] == es;
    }
  }

  lemma AppendAllStep(h: seq<Interaction>, e: Interaction, rest: seq<Interaction>)
    requires |h| <= MaxHistory
    ensures LastN(AppendHistory(h, e) + rest, MaxHistory) == LastN(h + ([e] + rest), MaxHistory)
  {
    var whole := h + [e] + rest;
    assert h + ([e] + rest) == whole;
    var w := LastN(h + [e], MaxHistory);
    assert w == whole[|h| + 1 - |w|..|h| + 1];
    assert w + rest == whole[|h| + 1 - |w|..];
  }

  // ---------------------------------------------------------------------------
  // Sessions
  // ---------------------------------------------------------------------------

  /** The engine's two dictionaries. In the source the context holds the very profile object
      stored in `user_profiles`; here the two copies are kept equal instead (see `Coherent`). */
  datatype Engine = Engine(contexts: map<string, Context>, profiles: map<string, UserProfile>)

  /** Every context belongs to its key, has its profile registered, and every stored profile
      satisfies the profile invariant. */
  predicate Coherent(e: Engine) {
    (forall s :: s in e.contexts ==> s in e.profiles && e.profiles[s] == e.contexts[s].profile
                                      && e.contexts[s].sessionId == s)
    && (forall s :: s in e.profiles ==> ValidProfile(e.profiles[s]))
  }

  datatype Lookup = Lookup(engine: Engine, ctx: Context)

  /** `get_or_create_context`. */
  function GetOrCreate(e: Engine, sid: string): (r: Lookup)
    ensures sid in r.engine.contexts && r.engine.contexts[sid] == r.ctx
    // an existing session is returned as it is and nothing changes
    ensures sid in e.contexts ==> r.engine == e && r.ctx == e.contexts[sid]
    // a new session starts at awareness, curious, with an empty history and the stored
    // profile when there is one
    ensures sid !in e.contexts ==>
              r.ctx.sessionId == sid && r.ctx.stage == Awareness && r.ctx.emotion == Curious
              && r.ctx.history == [] && r.ctx.lastInteraction.None?
              && r.ctx.profile == (if sid in e.profiles then e.profiles[sid] else NewProfile(sid))
    // other sessions are untouched
    ensures forall s :: s != sid ==> (s in r.engine.contexts <==> s in e.contexts)
    ensures forall s :: s != sid && s in e.contexts ==> r.engine.contexts[s] == e.contexts[s]
    ensures forall s :: s != sid ==> (s in r.engine.profiles <==> s in e.profiles)
    ensures forall s :: s != sid && s in e.profiles ==> r.engine.profiles[s] == e.profiles[s]
    ensures Coherent(e) ==> Coherent(r.engine)
  {
    if sid in e.contexts then Lookup(e, e.contexts[sid])
    else
      var profile := if sid in e.profiles then e.profiles[sid] else NewProfile(sid);
      NewProfileValid(sid);
      var ctx := NewContext(sid, profile);
      Lookup(Engine(e.contexts[sid := ctx], e.profiles[sid := profile]), ctx)
  }

  lemma GetOrCreateIdempotent(e: Engine, sid: string)
    ensures var first := GetOrCreate(e, sid);
            GetOrCreate(first.engine, sid) == first
  {
  }

  // ---------------------------------------------------------------------------
  // Intelligent fallback
  // ---------------------------------------------------------------------------

  const GreetingWords: seq<string> := ["olá", "oi", "bom dia", "boa tarde", "boa noite"]
  const ObjectionWords: seq<string> := ["mas", "porém", "não sei", "dúvida", "preocupação"]

  datatype MessageKind = Greeting | Question | Objection | OtherMessage

  /** The detection in `_get_intelligent_fallback`, first match wins. */
  function ClassifyMessage(message: string): (k: MessageKind)
    ensures k == Greeting <==> HasKeyword(message, GreetingWords)
    ensures k == Question <==> !HasKeyword(message, GreetingWords) && Contains(message, "?")
    ensures k == Objection <==>
              !HasKeyword(message, GreetingWords) && !Contains(message, "?")
              && HasKeyword(message, ObjectionWords)
    ensures k == OtherMessage <==>
              !HasKeyword(message, GreetingWords) && !Contains(message, "?")
              && !HasKeyword(message, ObjectionWords)
  {
    if HasKeyword(message, GreetingWords) then Greeting
    else if Contains(message, "?") then Question
    else if HasKeyword(message, ObjectionWords) then Objection
    else OtherMessage
  }

  const GreetingReply: string := "Olá! É um prazer falar com você! Como posso te ajudar hoje? 😊"
  const QuestionReply: string := "Excelente pergunta! Deixe-me te dar uma resposta completa e útil..."
  const ObjectionReply: string :=
    "Entendo sua preocupação, e é completamente normal ter essas dúvidas. Vou esclarecer isso para você..."
  const OtherReply: string :=
    "Que interessante! Conte-me mais sobre isso para que eu possa te ajudar da melhor forma possível!"

  function FallbackText(k: MessageKind): string {
    match k
    case Greeting => GreetingReply
    case Question => QuestionReply
    case Objection => ObjectionReply
    case OtherMessage => OtherReply
  }

  /** `_get_intelligent_fallback`: a function of the message alone. */
  function IntelligentFallback(message: string): string {
    FallbackText(ClassifyMessage(message))
  }

  function ReplyLength(k: MessageKind): nat {
    match k
    case Greeting => 61
    case Question => 67
    case Objection => 101
    case OtherMessage => 96
  }

  /** The four fallback texts are distinct, so the reply tells which rule fired. */
  lemma FallbackTextInjective(k1: MessageKind, k2: MessageKind)
    ensures FallbackText(k1) == FallbackText(k2) <==> k1 == k2
  {
    assert |GreetingReply| == 61;
    assert |QuestionReply| == 67;
    assert |ObjectionReply| == 101;
    assert |OtherReply| == 96;
    assert |FallbackText(k1)| == ReplyLength(k1) && |FallbackText(k2)| == ReplyLength(k2);
  }

  /** A greeting word wins over a question mark and over objection words. */
  lemma GreetingTakesPrecedence(message: string, k: nat)
    requires k < |GreetingWords| && Contains(Lower(message), GreetingWords[k])
    ensures IntelligentFallback(message) == FallbackText(Greeting)
  {
  }

  // ---------------------------------------------------------------------------
  // The turn pipeline
  // ---------------------------------------------------------------------------

  /** The result of one turn: the updated context, the reply, and whether the reply came
      from the fallback path. */
  datatype TurnResult = TurnResult(ctx: Context, reply: string, fellBack: bool)

  /** The report used for the turn: the oracle's, or the fixed fallback analysis. */
  function EffectiveAnalysis(oracle: Option<Analysis>): Analysis {
    oracle.GetOr(FallbackAnalysis())
  }

  /** `analyze_user_intent_enhanced` followed by the intent and confidence assignments: the
      profile absorbs a successful analysis only. */
  function Absorb(ctx: Context, oracle: Option<Analysis>): (c: Context)
    ensures c.stage == ctx.stage && c.emotion == ctx.emotion && c.history == ctx.history
    ensures oracle.None? ==> c.profile == ctx.profile
    ensures oracle.Some? ==> c.profile == UpdateProfile(ctx.profile, oracle.value)
    ensures c.currentIntent == EffectiveAnalysis(oracle).primaryIntent
    ensures c.confidence == EffectiveAnalysis(oracle).confidenceScore.GetOr(0.5)
  {
    var a := EffectiveAnalysis(oracle);
    var profile := if oracle.Some? then UpdateProfile(ctx.profile, oracle.value) else ctx.profile;
    ctx.(profile := profile, currentIntent := a.primaryIntent, confidence := a.confidenceScore.GetOr(0.5))
  }

  function FallbackResult(ctx: Context, message: string): TurnResult {
    TurnResult(ctx, IntelligentFallback(message), true)
  }

  /** `generate_adaptive_response`. Each step that can raise in the source returns the
      fallback reply with the context as far as it had been updated. */
  function Turn(ctx: Context, message: string, analysisOracle: Option<Analysis>,
                generate: (PromptSpec, string) -> Option<string>, web: Option<PageData>,
                hash: string -> int, now: Timestamp): (r: TurnResult)
    // the fallback path leaves the history alone and answers from the message only
    ensures r.fellBack ==> r.ctx.history == ctx.history && r.reply == IntelligentFallback(message)
    // the success path records exactly this exchange as the newest entry
    ensures !r.fellBack ==>
              r.ctx.history == AppendHistory(ctx.history, Interaction(now, message, r.reply,
                EffectiveAnalysis(analysisOracle), StageValue(r.ctx.stage), EmotionValue(r.ctx.emotion)))
              && r.ctx.lastInteraction == Some(now)
    ensures !r.fellBack ==> HasStagePrompt(r.ctx.stage)
    // session identity, page data and the last interaction time survive a failure
    ensures r.ctx.sessionId == ctx.sessionId && r.ctx.webData == ctx.webData
    ensures r.fellBack ==> r.ctx.lastInteraction == ctx.lastInteraction
    ensures ValidProfile(ctx.profile) ==> ValidProfile(r.ctx.profile)
    // the analysis is absorbed before anything can fail: profile, intent and confidence
    // are those after `Absorb` on every path
    ensures r.ctx.profile == Absorb(ctx, analysisOracle).profile
    ensures r.ctx.currentIntent == EffectiveAnalysis(analysisOracle).primaryIntent
    ensures r.ctx.confidence == EffectiveAnalysis(analysisOracle).confidenceScore.GetOr(0.5)
  {
    var a := EffectiveAnalysis(analysisOracle);
    var c1 := Absorb(ctx, analysisOracle);
    match ParseEmotion(a.emotionalState.GetOr("curious"))
    case None => FallbackResult(c1, message)
    case Some(emotion) =>
      var c2 := c1.(emotion := emotion);
      match ParseStage(a.conversationStage.GetOr("consideration"))
      case None => FallbackResult(c2, message)
      case Some(stage) => Answer(c2.(stage := stage), message, a, generate, web, hash, now)
  }

  /** The part of `generate_adaptive_response` after the emotion and the stage are assigned:
      prompt, main call, enrichment and recording. */
  function Answer(c: Context, message: string, a: Analysis,
                       generate: (PromptSpec, string) -> Option<string>, web: Option<PageData>,
                       hash: string -> int, now: Timestamp): (r: TurnResult)
    ensures r.fellBack ==> r == FallbackResult(c, message)
    ensures !r.fellBack ==>
              HasStagePrompt(c.stage)
              && r.ctx == c.(history := AppendHistory(c.history, Interaction(now, message, r.reply, a,
                               StageValue(c.stage), EmotionValue(c.emotion))),
                             lastInteraction := Some(now))
  {
    match BuildPrompt(SelectPersona(c, a), SelectStrategy(c, a), c, a, web)
    case None => FallbackResult(c, message)
    case Some(prompt) =>
      match generate(prompt, message)
      case None => FallbackResult(c, message)
      case Some(draft) =>
        var enhanced := ApplyTechniques(draft, a.techniques.GetOr([]), c, hash);
        match AddContextualElements(enhanced, c, a, hash)
        case None => FallbackResult(c, message)
        case Some(reply) =>
          var entry := Interaction(now, message, reply, a, StageValue(c.stage), EmotionValue(c.emotion));
          TurnResult(c.(history := AppendHistory(c.history, entry), lastInteraction := Some(now)), reply, false)
  }

  /** The stage and emotion the analysis names are assigned before any later step can fail:
      they are kept even when the turn falls back. */
  lemma TurnAssignsStates(ctx: Context, message: string, analysisOracle: Option<Analysis>,
                          generate: (PromptSpec, string) -> Option<string>, web: Option<PageData>,
                          hash: string -> int, now: Timestamp, e: Emotion, s: Stage)
    requires ParseEmotion(EffectiveAnalysis(analysisOracle).emotionalState.GetOr("curious")) == Some(e)
    requires ParseStage(EffectiveAnalysis(analysisOracle).conversationStage.GetOr("consideration")) == Some(s)
    ensures var r := Turn(ctx, message, analysisOracle, generate, web, hash, now);
            r.ctx.emotion == e && r.ctx.stage == s
            && r.ctx.currentIntent == EffectiveAnalysis(analysisOracle).primaryIntent
  {
  }

  /** The context a parse failure leaves behind: an unknown emotion falls back with the
      absorbed context as it is; an unknown stage falls back with the absorbed context and the
      emotion already assigned. A parsed emotion is kept whatever follows. */
  lemma ParseFailureContext(ctx: Context, message: string, analysisOracle: Option<Analysis>,
                            generate: (PromptSpec, string) -> Option<string>, web: Option<PageData>,
                            hash: string -> int, now: Timestamp)
    ensures var r := Turn(ctx, message, analysisOracle, generate, web, hash, now);
            var e := ParseEmotion(EffectiveAnalysis(analysisOracle).emotionalState.GetOr("curious"));
            e.Some? ==> r.ctx.emotion == e.value
    ensures var r := Turn(ctx, message, analysisOracle, generate, web, hash, now);
            var e := ParseEmotion(EffectiveAnalysis(analysisOracle).emotionalState.GetOr("curious"));
            e.None? ==> r.fellBack && r.ctx == Absorb(ctx, analysisOracle)
    ensures var r := Turn(ctx, message, analysisOracle, generate, web, hash, now);
            var e := ParseEmotion(EffectiveAnalysis(analysisOracle).emotionalState.GetOr("curious"));
            var s := ParseStage(EffectiveAnalysis(analysisOracle).conversationStage.GetOr("consideration"));
            e.Some? && s.None? ==> r.fellBack && r.ctx == Absorb(ctx, analysisOracle).(emotion := e.value)
  {
  }

  /** An unknown emotion leaves stage and emotion as they were and ends on the fallback path. */
  lemma UnknownEmotionFallsBack(ctx: Context, message: string, analysisOracle: Option<Analysis>,
                                generate: (PromptSpec, string) -> Option<string>, web: Option<PageData>,
                                hash: string -> int, now: Timestamp)
    requires ParseEmotion(EffectiveAnalysis(analysisOracle).emotionalState.GetOr("curious")).None?
    ensures var r := Turn(ctx, message, analysisOracle, generate, web, hash, now);
            r.fellBack && r.ctx.stage == ctx.stage && r.ctx.emotion == ctx.emotion
  {
  }

  /** The stage table covers only the first four stages, so a turn whose analysis names
      evaluation, purchase or retention always ends on the fallback path. */
  lemma LateStagesAlwaysFallBack(ctx: Context, message: string, analysisOracle: Option<Analysis>,
                                 generate: (PromptSpec, string) -> Option<string>, web: Option<PageData>,
                                 hash: string -> int, now: Timestamp)
    requires EffectiveAnalysis(analysisOracle).conversationStage.GetOr("consideration")
               in {"evaluation", "purchase", "retention"}
    ensures Turn(ctx, message, analysisOracle, generate, web, hash, now).fellBack
  {
    var a := EffectiveAnalysis(analysisOracle);
    LateStageHasNoGuide(a.conversationStage.GetOr("consideration"));
    ParseFailureContext(ctx, message, analysisOracle, generate, web, hash, now);
    var e := ParseEmotion(a.emotionalState.GetOr("curious"));
    if e.Some? {
      TurnReachesAnswer(ctx, message, analysisOracle, generate, web, hash, now, e.value,
                        ParseStage(a.conversationStage.GetOr("consideration")).value);
    }
  }

  lemma LateStageHasNoGuide(text: string)
    requires text in {"evaluation", "purchase", "retention"}
    ensures ParseStage(text).Some? && !HasStagePrompt(ParseStage(text).value)
  {
  }

  /** The context once the analysis has been absorbed and its emotion and stage assigned. */
  function Prepared(ctx: Context, oracle: Option<Analysis>, e: Emotion, s: Stage): Context {
    Absorb(ctx, oracle).(emotion := e, stage := s)
  }

  /** The prompt the main call receives for a prepared context. */
  function PromptFor(c: Context, a: Analysis, web: Option<PageData>): PromptSpec
    requires HasStagePrompt(c.stage)
  {
    BuildPrompt(SelectPersona(c, a), SelectStrategy(c, a), c, a, web).value
  }

  /** When the emotion and the stage parse, the stage has a prompt guide and the main call
      answers the prompt, the turn succeeds and its reply is the draft after the persuasion
      techniques and the contextual elements: the draft is never cut. */
  lemma TurnSucceeds(ctx: Context, message: string, oracle: Option<Analysis>,
                     generate: (PromptSpec, string) -> Option<string>, web: Option<PageData>,
                     hash: string -> int, now: Timestamp, e: Emotion, s: Stage, draft: string)
    requires ParseEmotion(EffectiveAnalysis(oracle).emotionalState.GetOr("curious")) == Some(e)
    requires ParseStage(EffectiveAnalysis(oracle).conversationStage.GetOr("consideration")) == Some(s)
    requires HasStagePrompt(s)
    requires generate(PromptFor(Prepared(ctx, oracle, e, s), EffectiveAnalysis(oracle), web), message) == Some(draft)
    ensures var r := Turn(ctx, message, oracle, generate, web, hash, now);
            var a := EffectiveAnalysis(oracle);
            var c := Prepared(ctx, oracle, e, s);
            !r.fellBack
            && Some(r.reply) == AddContextualElements(ApplyTechniques(draft, a.techniques.GetOr([]), c, hash), c, a, hash)
            && IsPrefix(draft, r.reply)
  {
    TurnReachesAnswer(ctx, message, oracle, generate, web, hash, now, e, s);
    AnswerSucceeds(Prepared(ctx, oracle, e, s), message, EffectiveAnalysis(oracle), generate, web, hash, now, draft);
  }

  /** Once the emotion and the stage parse, the rest of the turn is `Answer` on the prepared
      context. */
  lemma TurnReachesAnswer(ctx: Context, message: string, oracle: Option<Analysis>,
                          generate: (PromptSpec, string) -> Option<string>, web: Option<PageData>,
                          hash: string -> int, now: Timestamp, e: Emotion, s: Stage)
    requires ParseEmotion(EffectiveAnalysis(oracle).emotionalState.GetOr("curious")) == Some(e)
    requires ParseStage(EffectiveAnalysis(oracle).conversationStage.GetOr("consideration")) == Some(s)
    ensures Turn(ctx, message, oracle, generate, web, hash, now)
            == Answer(Prepared(ctx, oracle, e, s), message, EffectiveAnalysis(oracle), generate, web, hash, now)
  {
  }

  lemma AnswerSucceeds(c: Context, message: string, a: Analysis,
                       generate: (PromptSpec, string) -> Option<string>, web: Option<PageData>,
                       hash: string -> int, now: Timestamp, draft: string)
    requires HasStagePrompt(c.stage)
    requires generate(PromptFor(c, a, web), message) == Some(draft)
    ensures var r := Answer(c, message, a, generate, web, hash, now);
            !r.fellBack
            && Some(r.reply) == AddContextualElements(ApplyTechniques(draft, a.techniques.GetOr([]), c, hash), c, a, hash)
            && IsPrefix(draft, r.reply)
  {
    var enhanced := ApplyTechniques(draft, a.techniques.GetOr([]), c, hash);
    ApplyTechniquesAppends(draft, a.techniques.GetOr([]), c, hash);
    var reply := AddContextualElements(enhanced, c, a, hash);
    assert reply.Some?;
    assert IsPrefix(draft, reply.value) by {
      assert reply.value[..|enhanced|][..|draft|] == reply.value[..|draft|];
    }
  }

  /** Conversely, a turn succeeds only when the emotion and the stage parse, the stage has a
      prompt guide and the main call answered. */
  lemma TurnSuccessNeeds(ctx: Context, message: string, oracle: Option<Analysis>,
                         generate: (PromptSpec, string) -> Option<string>, web: Option<PageData>,
                         hash: string -> int, now: Timestamp)
    requires !Turn(ctx, message, oracle, generate, web, hash, now).fellBack
    ensures var a := EffectiveAnalysis(oracle);
            var e := ParseEmotion(a.emotionalState.GetOr("curious"));
            var s := ParseStage(a.conversationStage.GetOr("consideration"));
            e.Some? && s.Some? && HasStagePrompt(s.value)
            && generate(PromptFor(Prepared(ctx, oracle, e.value, s.value), a, web), message).Some?
  {
  }

  /** When the analysis call fails the turn runs on the fallback analysis: consideration
      stage, curious emotion, confidence 0.3, an untouched profile, and, if the main call
      answers the prompt with a draft, the draft is returned unchanged and recorded. */
  lemma AnalysisFailureTurn(ctx: Context, message: string,
                            generate: (PromptSpec, string) -> Option<string>, web: Option<PageData>,
                            hash: string -> int, now: Timestamp, draft: string)
    requires generate(PromptFor(Prepared(ctx, None, Curious, Consideration), FallbackAnalysis(), web), message)
             == Some(draft)
    ensures var r := Turn(ctx, message, None, generate, web, hash, now);
            !r.fellBack && r.reply == draft
            && r.ctx.stage == Consideration && r.ctx.emotion == Curious
            && r.ctx.confidence == 0.3 && r.ctx.profile == ctx.profile
            && r.ctx.history[|r.ctx.history| - 1].botResponse == draft
  {
    var a := FallbackAnalysis();
    assert EffectiveAnalysis(None) == a;
    assert ParseEmotion(a.emotionalState.GetOr("curious")) == Some(Curious);
    assert ParseStage(a.conversationStage.GetOr("consideration")) == Some(Consideration);
    var c := Prepared(ctx, None, Curious, Consideration);
    TurnSucceeds(ctx, message, None, generate, web, hash, now, Curious, Consideration, draft);
    FallbackAnalysisLeavesDraft(draft, c, hash);
  }

  // ---------------------------------------------------------------------------
  // A turn against the engine
  // ---------------------------------------------------------------------------

  /** Looking the session up and running a turn on it; the context and its profile are
      updated in place in the source, so both dictionaries see the result. */
  function Respond(e: Engine, sid: string, message: string, analysisOracle: Option<Analysis>,
                   generate: (PromptSpec, string) -> Option<string>, web: Option<PageData>,
                   hash: string -> int, now: Timestamp): (r: (Engine, string))
    ensures sid in r.0.contexts && r.0.contexts.Keys == e.contexts.Keys + {sid}
    ensures sid in r.0.profiles && r.0.profiles[sid] == r.0.contexts[sid].profile
    ensures forall s :: s != sid && s in e.contexts ==> r.0.contexts[s] == e.contexts[s]
    ensures r.0.profiles.Keys == e.profiles.Keys + {sid}
    ensures forall s :: s != sid && s in e.profiles ==> r.0.profiles[s] == e.profiles[s]
    // the reply and the stored context are those of the turn run on the looked-up session
    ensures var t := Turn(GetOrCreate(e, sid).ctx, message, analysisOracle, generate, web, hash, now);
            r.1 == t.reply && r.0.contexts[sid] == t.ctx
  {
    var look := GetOrCreate(e, sid);
    StoreTurn(e, sid, look, Turn(look.ctx, message, analysisOracle, generate, web, hash, now))
  }

  /** Writing a turn's context back into the engine the session was looked up in, and
      handing its reply out. */
  function StoreTurn(e: Engine, sid: string, look: Lookup, t: TurnResult): (r: (Engine, string))
    requires look == GetOrCreate(e, sid)
    ensures sid in r.0.contexts && r.0.contexts.Keys == e.contexts.Keys + {sid}
    ensures sid in r.0.profiles && r.0.profiles[sid] == r.0.contexts[sid].profile
    ensures forall s :: s != sid && s in e.contexts ==> r.0.contexts[s] == e.contexts[s]
    ensures r.0.profiles.Keys == e.profiles.Keys + {sid}
    ensures forall s :: s != sid && s in e.profiles ==> r.0.profiles[s] == e.profiles[s]
    ensures r.0.contexts[sid] == t.ctx && r.1 == t.reply
  {
    (Store(look.engine, sid, t.ctx), t.reply)
  }

  /** The store stays coherent, and so every profile stays valid, across any turn. */
  lemma RespondKeepsCoherent(e: Engine, sid: string, message: string, analysisOracle: Option<Analysis>,
                             generate: (PromptSpec, string) -> Option<string>, web: Option<PageData>,
                             hash: string -> int, now: Timestamp)
    requires Coherent(e)
    ensures Coherent(Respond(e, sid, message, analysisOracle, generate, web, hash, now).0)
  {
    var look := GetOrCreate(e, sid);
    var t := Turn(look.ctx, message, analysisOracle, generate, web, hash, now);
    assert look.ctx.sessionId == sid && ValidProfile(look.ctx.profile);
    StoreKeepsCoherent(look.engine, sid, t.ctx);
  }

  /** Writing a session's context back, together with its profile. */
  function Store(e: Engine, sid: string, ctx: Context): Engine {
    Engine(e.contexts[sid := ctx], e.profiles[sid := ctx.profile])
  }

  lemma StoreKeepsCoherent(e: Engine, sid: string, ctx: Context)
    requires Coherent(e) && ctx.sessionId == sid && ValidProfile(ctx.profile)
    ensures Coherent(Store(e, sid, ctx))
  {
  }
}

=== FILE: conversation_model.dfy ===
/** Data model of the enhanced conversation engine: funnel stages, emotional states, the
    per-session user profile and conversation context, and the per-turn intent analysis as
    the language model returns it (every key optional, as in the parsed JSON dictionary). */
module ConversationModel {
  import opened PyText

  datatype Stage = Awareness | Interest | Consideration | Intent | Evaluation | Purchase | Retention

  datatype Emotion = Excited | Curious | Skeptical | Confused | Frustrated | Confident | Hesitant | Urgent

  /** The enum's `.value` string. */
  function StageValue(s: Stage): string {
    match s
    case Awareness => "awareness"
    case Interest => "interest"
    case Consideration => "consideration"
    case Intent => "intent"
    case Evaluation => "evaluation"
    case Purchase => "purchase"
    case Retention => "retention"
  }

  /** `ConversationStage(text)`: `None` where Python raises `ValueError`. */
  function ParseStage(text: string): (r: Option<Stage>)
    ensures r.Some? ==> StageValue(r.value) == text
  {
    if text == "awareness" then Some(Awareness)
    else if text == "interest" then Some(Interest)
    else if text == "consideration" then Some(Consideration)
    else if text == "intent" then Some(Intent)
    else if text == "evaluation" then Some(Evaluation)
    else if text == "purchase" then Some(Purchase)
    else if text == "retention" then Some(Retention)
    else None
  }

  lemma ParseStageValue(s: Stage)
    ensures ParseStage(StageValue(s)) == Some(s)
  {
  }

  function EmotionValue(e: Emotion): string {
    match e
    case Excited => "excited"
    case Curious => "curious"
    case Skeptical => "skeptical"
    case Confused => "confused"
    case Frustrated => "frustrated"
    case Confident => "confident"
    case Hesitant => "hesitant"
    case Urgent => "urgent"
  }

  /** `EmotionalState(text)`: `None` where Python raises `ValueError`. */
  function ParseEmotion(text: string): (r: Option<Emotion>)
    ensures r.Some? ==> EmotionValue(r.value) == text
  {
    if text == "excited" then Some(Excited)
    else if text == "curious" then Some(Curious)
    else if text == "skeptical" then Some(Skeptical)
    else if text == "confused" then Some(Confused)
    else if text == "frustrated" then Some(Frustrated)
    else if text == "confident" then Some(Confident)
    else if text == "hesitant" then Some(Hesitant)
    else if text == "urgent" then Some(Urgent)
    else None
  }

  lemma ParseEmotionValue(e: Emotion)
    ensures ParseEmotion(EmotionValue(e)) == Some(e)
  {
  }

  /** Clock readings are opaque. */
  type Timestamp = int

  datatype UserProfile = UserProfile(
    sessionId: string,
    name: Option<string>,
    interests: seq<string>,
    painPoints: seq<string>,
    budgetRange: Option<string>,
    decisionTimeline: Option<string>,
    communicationStyle: Option<string>,
    previousObjections: seq<string>,
    engagement: real,
    trust: real,
    readiness: real)

  function NewProfile(sessionId: string): UserProfile {
    UserProfile(sessionId, None, [], [], None, None, None, [], 0.5, 0.5, 0.0)
  }

  predicate InUnit(x: real) {
    0.0 <= x <= 1.0
  }

  /** The profile invariant: the three scores lie in [0, 1] and the tag lists are duplicate-free. */
  predicate ScoresInRange(p: UserProfile) {
    InUnit(p.engagement) && InUnit(p.trust) && InUnit(p.readiness)
  }

  predicate ValidProfile(p: UserProfile) {
    ScoresInRange(p) && NoDups(p.interests) && NoDups(p.painPoints)
  }

  lemma NewProfileValid(sessionId: string)
    ensures ValidProfile(NewProfile(sessionId))
    ensures NewProfile(sessionId).sessionId == sessionId
    ensures var p := NewProfile(sessionId);
            p.engagement == 0.5 && p.trust == 0.5 && p.readiness == 0.0
            && p.interests == [] && p.painPoints == [] && p.previousObjections == []
  {
  }

  /** The intent analysis dictionary. A `None` field is a key the model's JSON left out. */
  datatype Analysis = Analysis(
    primaryIntent: Option<string>,
    emotionalState: Option<string>,
    conversationStage: Option<string>,
    urgencyLevel: Option<int>,
    engagementLevel: Option<int>,
    confidenceScore: Option<real>,
    nextBestAction: Option<string>,
    techniques: Option<seq<string>>,
    communicationStyle: Option<string>,
    painPoints: Option<seq<string>>,
    valueDrivers: Option<seq<string>>,
    buyingSignals: Option<seq<string>>,
    trustIndicators: Option<seq<string>>,
    objectionSignals: Option<seq<string>>)

  /** `_get_fallback_analysis`: the fixed report used when the analysis call or its parsing fails. */
  function FallbackAnalysis(): Analysis {
    Analysis(
      primaryIntent := Some("other"),
      emotionalState := Some("curious"),
      conversationStage := Some("consideration"),
      urgencyLevel := Some(5),
      engagementLevel := Some(5),
      confidenceScore := Some(0.3),
      nextBestAction := Some("provide_info"),
      techniques := Some(["liking"]),
      communicationStyle := Some("expressive"),
      painPoints := None,
      valueDrivers := None,
      buyingSignals := None,
      trustIndicators := None,
      objectionSignals := None)
  }

  /** One entry of the conversation history. */
  datatype Interaction = Interaction(
    timestamp: Timestamp,
    userMessage: string,
    botResponse: string,
    analysis: Analysis,
    stage: string,
    emotionalState: string)

  /** The fields of the extracted page that the prompt uses. */
  datatype PageData = PageData(title: string, description: string, mainFeatures: string)

  datatype Context = Context(
    sessionId: string,
    stage: Stage,
    emotion: Emotion,
    profile: UserProfile,
    history: seq<Interaction>,
    webData: Option<PageData>,
    currentIntent: Option<string>,
    confidence: real,
    lastInteraction: Option<Timestamp>)

  const MaxHistory: nat := 50

  function NewContext(sessionId: string, profile: UserProfile): Context {
    Context(sessionId, Awareness, Curious, profile, [], None, None, 0.0, None)
  }

  /** The per-stage question lists; the stage guidance texts themselves are not modelled. */
  datatype StageGuide = StageGuide(questions: seq<string>)

  /** `prompt_templates["stage_prompts"]`: a partial table with four of the seven stages. */
  const StagePrompts: map<Stage, StageGuide> := map[
    Awareness := StageGuide([
      "Que desafios você tem enfrentado em [área relevante]?",
      "Como isso tem impactado seus resultados/objetivos?",
      "O que você já tentou para resolver essa situação?",
      "Se pudesse resolver isso, que diferença faria para você?"]),
    Interest := StageGuide([
      "Conte-me mais sobre como isso funcionaria no seu contexto específico",
      "Que resultados você gostaria de ver em [timeframe]?",
      "Quem mais seria impactado por essa mudança?",
      "Que investimento faria sentido para alcançar esses resultados?"]),
    Consideration := StageGuide([
      "Que critérios são mais importantes na sua decisão?",
      "Que preocupações você tem sobre implementar uma solução?",
      "Como você costuma avaliar esse tipo de investimento?",
      "Que timeline você tem em mente para tomar essa decisão?"]),
    Intent := StageGuide([
      "O que você precisa para se sentir 100% confiante nessa decisão?",
      "Que informações adicionais posso fornecer?",
      "Como podemos tornar a implementação mais fácil para você?",
      "Quando você gostaria de começar a ver resultados?"])
  ]

  predicate HasStagePrompt(s: Stage) {
    s == Awareness || s == Interest || s == Consideration || s == Intent
  }

  /** The table is defined exactly on the four early stages, each with four questions. */
  lemma StagePromptsDomain(s: Stage)
    ensures s in StagePrompts <==> HasStagePrompt(s)
    ensures s in StagePrompts ==> |StagePrompts[s].questions| == 4
  {
  }

  /** The persuasion techniques the engine knows (`_load_persuasion_techniques`). */
  const KnownTechniques: set<string> :=
    {"reciprocity", "social_proof", "authority", "scarcity", "commitment", "liking"}
}

=== FILE: enricher.dfy ===
/** The append-only reply enricher: persuasion techniques (`_apply_persuasion_techniques`,
    `_apply_specific_technique`), the keyword detectors (`_has_*`), the canned texts
    (`_generate_*`) and the contextual call-to-action and strategic question
    (`_add_contextual_elements`). Python's `hash(session_id)` is the parameter `hash`. */
module Enricher {
  import opened PyText
  import opened ConversationModel

  const SocialProofIndicators: seq<string> :=
    ["clientes", "empresas", "resultados", "casos", "sucesso", "%", "milhares"]
  const UrgencyIndicators: seq<string> := ["agora", "hoje", "limitado", "prazo", "oportunidade", "momento"]
  const ValueOfferIndicators: seq<string> := ["gratuito", "ofereço", "vou te dar", "recurso", "material", "guia"]
  const CtaIndicators: seq<string> := ["clique", "acesse", "vamos", "próximo passo", "agende", "entre em contato"]

  predicate HasSocialProof(resp: string) { HasKeyword(resp, SocialProofIndicators) }
  predicate HasUrgency(resp: string) { HasKeyword(resp, UrgencyIndicators) }
  predicate HasValueOffer(resp: string) { HasKeyword(resp, ValueOfferIndicators) }
  predicate HasCallToAction(resp: string) { HasKeyword(resp, CtaIndicators) }

  // The canned statements are written as concatenations so that the keyword each one is
  // recognised by stands as a piece of its own; the strings are those of the source.
  const SocialProofs: seq<string> := [
    "Mais de 95" + "%" + " dos nossos clientes relatam resultados positivos nos primeiros 30 dias.",
    "Já ajudamos mais de 10.000 " + "empresas" + " como a sua a alcançar seus objetivos.",
    "Nossos clientes veem em média 40" + "%" + " de melhoria nos resultados após a implementação."]

  const Urgencies: seq<string> := [
    "⏰ Estou disponível " + "agora" + " para te ajudar com todos os detalhes!",
    "🎯 Este é o " + "momento" + " ideal para dar esse passo importante.",
    "💡 Que tal " + "aproveitarmos " + "esse " + "momentum " + "para " + "avançar?"]

  const ValueOffers: seq<string> := [
    "Posso te enviar um " + "guia" + " completo sobre isso, sem compromisso.",
    "Tenho um " + "material" + " exclusivo que pode te ajudar - quer que eu compartilhe?",
    "Vou te dar" + " acesso a uma ferramenta que pode esclarecer isso melhor."]

  const CtaNextStep: string := "🚀 Que tal darmos o " + "próximo passo" + "? Posso te mostrar exatamente como começar!"
  const CtaConversation: string := "💬 Quer conversar mais sobre como isso funcionaria no seu caso específico?"
  const CtaInformation: string := "📋 Posso te enviar mais informações para você avaliar com calma?"
  const DefaultQuestion: string := "Como posso te ajudar melhor com isso?"

  /** Appending a paragraph: `response += f"\n\n{text}"`. */
  function Paragraph(resp: string, text: string): string {
    resp + "\n\n" + text
  }

  function SocialProofText(ctx: Context, hash: string -> int): string { Pick(SocialProofs, hash(ctx.sessionId)) }
  function UrgencyText(ctx: Context, hash: string -> int): string { Pick(Urgencies, hash(ctx.sessionId)) }
  function ValueOfferText(ctx: Context, hash: string -> int): string { Pick(ValueOffers, hash(ctx.sessionId)) }

  /** Conditions under which each of the three active techniques fires. */
  predicate SocialProofFires(resp: string, ctx: Context) {
    ctx.profile.trust < 0.6 && !HasSocialProof(resp)
  }
  predicate ScarcityFires(resp: string, ctx: Context) {
    ctx.stage in {Intent, Evaluation} && !HasUrgency(resp)
  }
  predicate ReciprocityFires(resp: string, ctx: Context) {
    ctx.stage == Awareness && !HasValueOffer(resp)
  }

  /** `_apply_specific_technique`. */
  function ApplyTechnique(resp: string, technique: string, ctx: Context, hash: string -> int): (r: string)
    ensures IsPrefix(resp, r)
    ensures technique == "social_proof" && SocialProofFires(resp, ctx) ==>
              r == Paragraph(resp, SocialProofText(ctx, hash))
    ensures technique == "scarcity" && ScarcityFires(resp, ctx) ==>
              r == Paragraph(resp, UrgencyText(ctx, hash))
    ensures technique == "reciprocity" && ReciprocityFires(resp, ctx) ==>
              r == Paragraph(resp, ValueOfferText(ctx, hash))
    ensures r != resp ==>
              (technique == "social_proof" && SocialProofFires(resp, ctx))
              || (technique == "scarcity" && ScarcityFires(resp, ctx))
              || (technique == "reciprocity" && ReciprocityFires(resp, ctx))
  {
    if technique == "social_proof" && ctx.profile.trust < 0.6 then
      if !HasSocialProof(resp) then Paragraph(resp, SocialProofText(ctx, hash)) else resp
    else if technique == "scarcity" && (ctx.stage == Intent || ctx.stage == Evaluation) then
      if !HasUrgency(resp) then Paragraph(resp, UrgencyText(ctx, hash)) else resp
    else if technique == "reciprocity" && ctx.stage == Awareness then
      if !HasValueOffer(resp) then Paragraph(resp, ValueOfferText(ctx, hash)) else resp
    else resp
  }

  /** `_apply_persuasion_techniques`: the techniques in list order; unknown names are skipped. */
  function ApplyTechniques(resp: string, techniques: seq<string>, ctx: Context, hash: string -> int): string
    decreases |techniques|
  {
    if |techniques| == 0 then resp
    else
      var next := if techniques[0] in KnownTechniques then ApplyTechnique(resp, techniques[0], ctx, hash) else resp;
      ApplyTechniques(next, techniques[1..], ctx, hash)
  }

  /** The draft is always a prefix of the enriched reply. */
  lemma {:induction false} ApplyTechniquesAppends(resp: string, techniques: seq<string>, ctx: Context, hash: string -> int)
    ensures IsPrefix(resp, ApplyTechniques(resp, techniques, ctx, hash))
    decreases |techniques|
  {
    if |techniques| > 0 {
      var next := if techniques[0] in KnownTechniques then ApplyTechnique(resp, techniques[0], ctx, hash) else resp;
      ApplyTechniquesAppends(next, techniques[1..], ctx, hash);
      var r := ApplyTechniques(next, techniques[1..], ctx, hash);
      assert r[..|resp|] == r[..|next|][..|resp|];
    }
  }

  predicate Active(technique: string) {
    technique in {"social_proof", "scarcity", "reciprocity"}
  }

  /** Only social proof, scarcity and reciprocity ever change a reply. */
  lemma {:induction false} InactiveTechniquesAreNoOps(resp: string, techniques: seq<string>, ctx: Context, hash: string -> int)
    requires forall k :: 0 <= k < |techniques| ==> !Active(techniques[k])
    ensures ApplyTechniques(resp, techniques, ctx, hash) == resp
    decreases |techniques|
  {
    if |techniques| > 0 {
      assert !Active(techniques[0]);
      InactiveTechniquesAreNoOps(resp, techniques[1..], ctx, hash);
    }
  }

  /** The same session always receives the same canned statement. */
  lemma CannedTextDeterministic(c1: Context, c2: Context, hash: string -> int)
    requires c1.sessionId == c2.sessionId
    ensures SocialProofText(c1, hash) == SocialProofText(c2, hash) && SocialProofText(c1, hash) in SocialProofs
    ensures UrgencyText(c1, hash) == UrgencyText(c2, hash) && UrgencyText(c1, hash) in Urgencies
    ensures ValueOfferText(c1, hash) == ValueOfferText(c2, hash) && ValueOfferText(c1, hash) in ValueOffers
  {
  }

  /** A keyword found (after lower-casing) in an appended paragraph is detected in the reply. */
  lemma ParagraphDetected(resp: string, text: string, keywords: seq<string>, k: nat,
                          pre: string, piece: string, post: string)
    requires k < |keywords| && text == pre + piece + post && Lower(piece) == keywords[k]
    ensures HasKeyword(Paragraph(resp, text), keywords)
  {
    var head := resp + "\n\n";
    LowerConcat(pre, piece);
    LowerConcat(pre + piece, post);
    ContainsAt(Lower(text), keywords[k], |pre|);
    LowerConcat(head, text);
    ContainsInConcat(Lower(head), Lower(text), keywords[k]);
    assert Paragraph(resp, text) == head + text;
  }

  /** Every social-proof statement is itself recognised as social proof, so the technique
      never fires twice. */
  lemma SocialProofIdempotent(resp: string, ctx: Context, hash: string -> int)
    ensures var once := ApplyTechnique(resp, "social_proof", ctx, hash);
            ApplyTechnique(once, "social_proof", ctx, hash) == once
  {
    if SocialProofFires(resp, ctx) {
      var t := SocialProofText(ctx, hash);
      if t == SocialProofs[0] {
        ParagraphDetected(resp, t, SocialProofIndicators, 5, "Mais de 95", "%",
          " dos nossos clientes relatam resultados positivos nos primeiros 30 dias.");
      } else if t == SocialProofs[1] {
        ParagraphDetected(resp, t, SocialProofIndicators, 1, "Já ajudamos mais de 10.000 ", "empresas",
          " como a sua a alcançar seus objetivos.");
      } else {
        ParagraphDetected(resp, t, SocialProofIndicators, 5, "Nossos clientes veem em média 40", "%",
          " de melhoria nos resultados após a implementação.");
      }
    }
  }

  /** Likewise every value offer is recognised as one. */
  lemma ReciprocityIdempotent(resp: string, ctx: Context, hash: string -> int)
    ensures var once := ApplyTechnique(resp, "reciprocity", ctx, hash);
            ApplyTechnique(once, "reciprocity", ctx, hash) == once
  {
    if ReciprocityFires(resp, ctx) {
      var t := ValueOfferText(ctx, hash);
      if t == ValueOffers[0] {
        ParagraphDetected(resp, t, ValueOfferIndicators, 5, "Posso te enviar um ", "guia",
          " completo sobre isso, sem compromisso.");
      } else if t == ValueOffers[1] {
        ParagraphDetected(resp, t, ValueOfferIndicators, 4, "Tenho um ", "material",
          " exclusivo que pode te ajudar - quer que eu compartilhe?");
      } else {
        ParagraphDetected(resp, t, ValueOfferIndicators, 2, "", "Vou te dar",
          " acesso a uma ferramenta que pode esclarecer isso melhor.");
      }
    }
  }

  /** The first two urgency statements are recognised as urgency; the third ("momentum")
      matches no urgency keyword, so for sessions that draw it the check alone does not stop
      a second application. */
  lemma ScarcityIdempotentForFirstTwo(resp: string, ctx: Context, hash: string -> int)
    requires UrgencyText(ctx, hash) != Urgencies[2]
    ensures var once := ApplyTechnique(resp, "scarcity", ctx, hash);
            ApplyTechnique(once, "scarcity", ctx, hash) == once
  {
    if ScarcityFires(resp, ctx) {
      var t := UrgencyText(ctx, hash);
      if t == Urgencies[0] {
        ParagraphDetected(resp, t, UrgencyIndicators, 0, "⏰ Estou disponível ", "agora",
          " para te ajudar com todos os detalhes!");
      } else {
        ParagraphDetected(resp, t, UrgencyIndicators, 5, "🎯 Este é o ", "momento",
          " ideal para dar esse passo importante.");
      }
    }
  }

  /** A pair of adjacent lower-cased letters that occurs in some urgency keyword: "go" in
      "agora", "oj" in "hoje", "do" in "limitado", "zo" in "prazo", "de" in "oportunidade" and
      "to" in "momento". */
  predicate UrgencyPair(a: char, b: char) {
    (a == 'g' && b == 'o') || (a == 'o' && b == 'j') || (a == 'd' && b == 'o')
    || (a == 'z' && b == 'o') || (a == 'd' && b == 'e') || (a == 't' && b == 'o')
  }

  /** No two adjacent characters of `s`, lower-cased, form an urgency pair. */
  predicate FreeOfUrgencyPairs(s: string) {
    forall j :: 0 <= j < |s| - 1 ==> !UrgencyPair(LowerChar(s[j]), LowerChar(s[j + 1]))
  }

  lemma {:induction false} FreeOfUrgencyPairsConcat(a: string, b: string)
    requires FreeOfUrgencyPairs(a) && FreeOfUrgencyPairs(b)
    requires |a| > 0 && a[|a| - 1] in {' ', '\n'}
    ensures FreeOfUrgencyPairs(a + b)
  {
    var s := a + b;
    forall j | 0 <= j < |s| - 1 ensures !UrgencyPair(LowerChar(s[j]), LowerChar(s[j + 1])) {
      if j + 1 < |a| {
        assert s[j] == a[j] && s[j + 1] == a[j + 1];
      } else if j >= |a| {
        assert s[j] == b[j - |a|] && s[j + 1] == b[j + 1 - |a|];
      } else {
        assert s[j] == a[|a| - 1];
      }
    }
  }

  /** A text free of urgency pairs contains no urgency keyword. */
  lemma FreeOfUrgencyPairsNoUrgency(s: string)
    requires FreeOfUrgencyPairs(s)
    ensures !HasUrgency(s)
  {
    forall k | 0 <= k < |UrgencyIndicators| ensures !Contains(Lower(s), UrgencyIndicators[k]) {
      var w := UrgencyIndicators[k];
      var i := if k == 0 then 1 else if k == 1 then 1 else if k == 2 then 6
               else if k == 3 then 3 else if k == 4 then 10 else 5;
      assert i + 1 < |w| && UrgencyPair(w[i], w[i + 1]);
      forall p: nat | p <= |Lower(s)| ensures !OccursAt(Lower(s), w, p) {
        if p + |w| <= |s| {
          assert !UrgencyPair(LowerChar(s[p + i]), LowerChar(s[p + i + 1]));
          assert Lower(s)[p..p + |w|][i] == LowerChar(s[p + i]);
          assert Lower(s)[p..p + |w|][i + 1] == LowerChar(s[p + i + 1]);
        }
      }
    }
  }

  lemma ThirdUrgencyHeadFree()
    ensures FreeOfUrgencyPairs("\n\n") && FreeOfUrgencyPairs("💡 Que tal ")
    ensures FreeOfUrgencyPairs("aproveitarmos ")
  {
    var p0, p1, p2 := "\n\n", "💡 Que tal ", "aproveitarmos ";
    forall j | 0 <= j < |p0| - 1 ensures !UrgencyPair(LowerChar(p0[j]), LowerChar(p0[j + 1])) { }
    forall j | 0 <= j < |p1| - 1 ensures !UrgencyPair(LowerChar(p1[j]), LowerChar(p1[j + 1])) { }
    forall j | 0 <= j < |p2| - 1 ensures !UrgencyPair(LowerChar(p2[j]), LowerChar(p2[j + 1])) { }
  }

  lemma ThirdUrgencyTailFree()
    ensures FreeOfUrgencyPairs("esse ") && FreeOfUrgencyPairs("momentum ")
    ensures FreeOfUrgencyPairs("para ") && FreeOfUrgencyPairs("avançar?")
  {
    var p3, p4, p5, p6 := "esse ", "momentum ", "para ", "avançar?";
    forall j | 0 <= j < |p3| - 1 ensures !UrgencyPair(LowerChar(p3[j]), LowerChar(p3[j + 1])) { }
    forall j | 0 <= j < |p4| - 1 ensures !UrgencyPair(LowerChar(p4[j]), LowerChar(p4[j + 1])) { }
    forall j | 0 <= j < |p5| - 1 ensures !UrgencyPair(LowerChar(p5[j]), LowerChar(p5[j + 1])) { }
    forall j | 0 <= j < |p6| - 1 ensures !UrgencyPair(LowerChar(p6[j]), LowerChar(p6[j + 1])) { }
  }

  lemma ThirdUrgencyParagraphFree()
    ensures FreeOfUrgencyPairs(Paragraph("", Urgencies[2]))
  {
    var p0, p1, p2, p3, p4, p5, p6 := "\n\n", "💡 Que tal ", "aproveitarmos ", "esse ", "momentum ", "para ", "avançar?";
    ThirdUrgencyHeadFree();
    ThirdUrgencyTailFree();
    FreeOfUrgencyPairsConcat(p5, p6);
    FreeOfUrgencyPairsConcat(p4, p5 + p6);
    FreeOfUrgencyPairsConcat(p3, p4 + (p5 + p6));
    FreeOfUrgencyPairsConcat(p2, p3 + (p4 + (p5 + p6)));
    FreeOfUrgencyPairsConcat(p1, p2 + (p3 + (p4 + (p5 + p6))));
    FreeOfUrgencyPairsConcat(p0, p1 + (p2 + (p3 + (p4 + (p5 + p6)))));
    assert Paragraph("", Urgencies[2]) == p0 + (p1 + (p2 + (p3 + (p4 + (p5 + p6)))));
  }

  /** The third urgency statement ("momentum") matches no urgency keyword, so a session that
      draws it at the intent or evaluation stage gets the statement appended a second time
      when scarcity is applied twice. */
  lemma ScarcityRepeatsForThird(ctx: Context, hash: string -> int)
    requires ctx.stage in {Intent, Evaluation} && UrgencyText(ctx, hash) == Urgencies[2]
    ensures var once := ApplyTechnique("", "scarcity", ctx, hash);
            once == Paragraph("", Urgencies[2])
            && ApplyTechnique(once, "scarcity", ctx, hash) == Paragraph(once, Urgencies[2])
  {
    ThirdUrgencyParagraphFree();
    var once := Paragraph("", Urgencies[2]);
    assert !HasUrgency("");
    FreeOfUrgencyPairsNoUrgency(once);
  }

  /** `_generate_contextual_cta`: three tiers. */
  function ContextualCta(ctx: Context): (r: string)
    ensures ctx.profile.readiness > 0.7 ==> r == CtaNextStep
    ensures ctx.profile.readiness <= 0.7 && ctx.profile.trust > 0.6 ==> r == CtaConversation
    ensures ctx.profile.readiness <= 0.7 && ctx.profile.trust <= 0.6 ==> r == CtaInformation
  {
    if ctx.profile.readiness > 0.7 then CtaNextStep
    else if ctx.profile.trust > 0.6 then CtaConversation
    else CtaInformation
  }

  predicate CtaFires(resp: string, ctx: Context) {
    !HasCallToAction(resp) && ctx.stage in {Intent, Evaluation}
  }

  /** The first half of `_add_contextual_elements`. */
  function AddCallToAction(resp: string, ctx: Context): (r: string)
    ensures CtaFires(resp, ctx) ==> r == Paragraph(resp, ContextualCta(ctx))
    ensures !CtaFires(resp, ctx) ==> r == resp
    // a reply that already holds a CTA keyword never gets a second call to action
    ensures HasCallToAction(resp) ==> r == resp
  {
    if !HasCallToAction(resp) && (ctx.stage == Intent || ctx.stage == Evaluation) then
      Paragraph(resp, ContextualCta(ctx))
    else resp
  }

  /** The direct next-step CTA contains "próximo passo", so for a ready buyer the step is
      idempotent. */
  lemma CallToActionIdempotentWhenReady(resp: string, ctx: Context)
    requires ctx.profile.readiness > 0.7
    ensures AddCallToAction(AddCallToAction(resp, ctx), ctx) == AddCallToAction(resp, ctx)
  {
    if CtaFires(resp, ctx) {
      ParagraphDetected(resp, CtaNextStep, CtaIndicators, 3, "🚀 Que tal darmos o ", "próximo passo",
        "? Posso te mostrar exatamente como começar!");
    }
  }

  /** `_generate_strategic_question`: `None` where the stage lookup raises `KeyError`. */
  function StrategicQuestion(ctx: Context, hash: string -> int): (r: Option<string>)
    ensures r.Some? <==> HasStagePrompt(ctx.stage)
    ensures r.Some? ==> r.value in StagePrompts[ctx.stage].questions
    ensures r.Some? ==> r.value == StagePrompts[ctx.stage].questions[hash(ctx.sessionId) % 4]
  {
    StagePromptsDomain(ctx.stage);
    if ctx.stage !in StagePrompts then None
    else
      var questions := StagePrompts[ctx.stage].questions;
      if |questions| > 0 then Some(Pick(questions, hash(ctx.sessionId))) else Some(DefaultQuestion)
  }

  predicate AsksQuestion(a: Analysis) {
    a.nextBestAction == Some("ask_question")
  }

  /** `_add_contextual_elements`: an optional CTA, then an optional strategic question. */
  function AddContextualElements(resp: string, ctx: Context, a: Analysis, hash: string -> int): (r: Option<string>)
    ensures r.None? <==> AsksQuestion(a) && !HasStagePrompt(ctx.stage)
    ensures r.Some? ==> IsPrefix(resp, r.value)
    ensures r.Some? && !AsksQuestion(a) ==> r.value == AddCallToAction(resp, ctx)
    ensures r.Some? && AsksQuestion(a) ==>
              r.value == Paragraph(AddCallToAction(resp, ctx), StrategicQuestion(ctx, hash).value)
  {
    var withCta := AddCallToAction(resp, ctx);
    assert IsPrefix(resp, withCta);
    if AsksQuestion(a) then
      match StrategicQuestion(ctx, hash)
      case None => None
      case Some(q) =>
        assert Paragraph(withCta, q)[..|withCta|] == withCta;
        Some(Paragraph(withCta, q))
    else Some(withCta)
  }

  /** With the fallback analysis (technique "liking", next action "provide_info", stage
      consideration) the enricher returns the draft unchanged. */
  lemma FallbackAnalysisLeavesDraft(draft: string, ctx: Context, hash: string -> int)
    requires ctx.stage == Consideration
    ensures ApplyTechniques(draft, FallbackAnalysis().techniques.value, ctx, hash) == draft
    ensures AddContextualElements(draft, ctx, FallbackAnalysis(), hash) == Some(draft)
  {
    InactiveTechniquesAreNoOps(draft, ["liking"], ctx, hash);
  }
}

=== FILE: knowledge_base.dfy ===
/** The knowledge store of `EnhancedKnowledgeBase`: the item record, the id-keyed dictionary
    (kept as an association list so that Python's insertion order, which later decides the
    order of equally ranked search results, is part of the model), add / update / delete,
    the usage-feedback update and the statistics report. */
module KnowledgeBase {
  import opened PyText
  import opened ConversationModel

  datatype KnowledgeCategory =
    | ProductInfo | SalesTechniques | ObjectionHandling | CustomerStories | Pricing | Features
    | Benefits | Comparisons | Faqs | Testimonials | CaseStudies | IndustryInsights

  const AllCategories: seq<KnowledgeCategory> := [
    ProductInfo, SalesTechniques, ObjectionHandling, CustomerStories, Pricing, Features,
    Benefits, Comparisons, Faqs, Testimonials, CaseStudies, IndustryInsights]

  datatype KnowledgeItem = KnowledgeItem(
    id: string,
    category: KnowledgeCategory,
    title: string,
    content: string,
    keywords: seq<string>,
    contextTags: seq<string>,
    priority: int,
    confidence: real,
    source: Option<string>,
    createdAt: Timestamp,
    updatedAt: Timestamp,
    usageCount: int,
    effectiveness: real)

  // ---------------------------------------------------------------------------
  // The insertion-ordered dictionary
  // ---------------------------------------------------------------------------

  datatype Entry = Entry(key: string, item: KnowledgeItem)

  /** The dictionary: entries in insertion order. */
  datatype Store = Store(entries: seq<Entry>)

  /** A dictionary holds each key once. */
  predicate DistinctKeys(es: seq<Entry>) {
    forall i, j :: 0 <= i < j < |es| ==> es[i].key != es[j].key
  }

  predicate Valid(s: Store) {
    DistinctKeys(s.entries)
  }

  /** Every item is stored under its own id. */
  predicate KeysAreIds(s: Store) {
    forall i :: 0 <= i < |s.entries| ==> s.entries[i].item.id == s.entries[i].key
  }

  function Lookup(es: seq<Entry>, key: string): (r: Option<KnowledgeItem>)
    ensures r.None? <==> forall i :: 0 <= i < |es| ==> es[i].key != key
    decreases |es|
  {
    if |es| == 0 then None
    else if es[0].key == key then Some(es[0].item)
    else
      assert forall i :: 0 < i < |es| ==> es[i] == es[1..][i - 1];
      Lookup(es[1..], key)
  }

  /** In a dictionary, looking up the key at position `i` finds that entry's item. */
  lemma {:induction false} LookupAt(es: seq<Entry>, i: nat)
    requires DistinctKeys(es) && i < |es|
    ensures Lookup(es, es[i].key) == Some(es[i].item)
    decreases |es|
  {
    if i > 0 {
      var tail := es[1..];
      assert es[0].key != es[i].key;
      assert DistinctKeys(tail) by {
        forall a, b | 0 <= a < b < |tail| ensures tail[a].key != tail[b].key {
          assert tail[a] == es[a + 1] && tail[b] == es[b + 1];
        }
      }
      LookupAt(tail, i - 1);
      assert tail[i - 1] == es[i];
    }
  }

  function Get(s: Store, key: string): Option<KnowledgeItem> {
    Lookup(s.entries, key)
  }

  predicate Has(s: Store, key: string) {
    Get(s, key).Some?
  }

  /** `d[key] = item`: an existing key keeps its position, a new key goes last. */
  function PutEntry(es: seq<Entry>, key: string, item: KnowledgeItem): (r: seq<Entry>)
    ensures Lookup(r, key) == Some(item)
    ensures forall k :: k != key ==> Lookup(r, k) == Lookup(es, k)
    ensures Lookup(es, key).Some? ==> |r| == |es|
    ensures Lookup(es, key).None? ==> r == es + [Entry(key, item)]
    decreases |es|
  {
    if |es| == 0 then [Entry(key, item)]
    else if es[0].key == key then [Entry(key, item)] + es[1..]
    else [es[0]] + PutEntry(es[1..], key, item)
  }

  /** In a dictionary, assignment rewrites the one entry with that key in place and keeps the
      keys distinct. */
  lemma {:induction false} PutEntryInPlace(es: seq<Entry>, key: string, item: KnowledgeItem)
    requires DistinctKeys(es)
    ensures var r := PutEntry(es, key, item);
            DistinctKeys(r)
            && forall i :: 0 <= i < |es| ==> r[i] == if es[i].key == key then Entry(key, item) else es[i]
    decreases |es|
  {
    var r := PutEntry(es, key, item);
    if |es| > 0 {
      var tail := es[1..];
      DistinctTail(es);
      if es[0].key == key {
        forall i | 0 <= i < |tail| ensures tail[i].key != key {
          assert es[0].key != es[i + 1].key;
        }
        DistinctCons(Entry(key, item), tail);
        assert r == [Entry(key, item)] + tail;
      } else {
        PutEntryInPlace(tail, key, item);
        var rest := PutEntry(tail, key, item);
        assert r == [es[0]] + rest;
        forall i | 0 <= i < |rest| ensures rest[i].key != es[0].key {
          if i < |tail| {
            assert rest[i].key == es[i + 1].key;
          } else {
            assert rest == tail + [Entry(key, item)];
          }
        }
        DistinctCons(es[0], rest);
        forall i | 0 < i < |es| ensures r[i] == if es[i].key == key then Entry(key, item) else es[i] {
          assert r[i] == rest[i - 1] && tail[i - 1] == es[i];
        }
      }
    }
  }

  lemma DistinctTail(es: seq<Entry>)
    requires DistinctKeys(es) && |es| > 0
    ensures DistinctKeys(es[1..])
  {
    var tail := es[1..];
    forall i, j | 0 <= i < j < |tail| ensures tail[i].key != tail[j].key {
      assert tail[i] == es[i + 1] && tail[j] == es[j + 1];
    }
  }

  function Put(s: Store, key: string, item: KnowledgeItem): Store {
    Store(PutEntry(s.entries, key, item))
  }

  /** `del d[key]`. */
  function RemoveEntry(es: seq<Entry>, key: string): (r: seq<Entry>)
    ensures forall k :: k != key ==> Lookup(r, k) == Lookup(es, k)
    ensures Lookup(es, key).None? ==> r == es
    ensures Lookup(es, key).Some? ==> |r| == |es| - 1
    decreases |es|
  {
    if |es| == 0 then []
    else if es[0].key == key then es[1..]
    else [es[0]] + RemoveEntry(es[1..], key)
  }

  /** In a dictionary the removed key is gone and the remaining keys stay distinct. */
  lemma {:induction false} RemoveEntryDistinct(es: seq<Entry>, key: string)
    requires DistinctKeys(es)
    ensures var r := RemoveEntry(es, key);
            DistinctKeys(r) && Lookup(r, key).None?
            && forall i :: 0 <= i < |r| ==> r[i] in es
    decreases |es|
  {
    if |es| > 0 {
      var tail := es[1..];
      DistinctTail(es);
      if es[0].key == key {
        forall i | 0 <= i < |tail| ensures tail[i].key != key {
          assert es[0].key != es[i + 1].key;
        }
      } else {
        RemoveEntryDistinct(tail, key);
        var rest := RemoveEntry(tail, key);
        assert forall e :: e in tail ==> e in es;
        forall i | 0 <= i < |rest| ensures rest[i].key != es[0].key && rest[i] in es {
          var j :| 0 <= j < |tail| && tail[j] == rest[i];
          assert tail[j] == es[j + 1];
        }
        DistinctCons(es[0], rest);
        assert RemoveEntry(es, key) == [es[0]] + rest;
      }
    }
  }

  lemma DistinctCons(e: Entry, rest: seq<Entry>)
    requires DistinctKeys(rest)
    requires forall i :: 0 <= i < |rest| ==> rest[i].key != e.key
    ensures DistinctKeys([e] + rest)
  {
    var r := [e] + rest;
    forall i, j | 0 <= i < j < |r| ensures r[i].key != r[j].key {
      assert r[j] == rest[j - 1];
      if i > 0 { assert r[i] == rest[i - 1]; }
    }
  }

  function Remove(s: Store, key: string): Store {
    Store(RemoveEntry(s.entries, key))
  }

  function Items(s: Store): (r: seq<KnowledgeItem>)
    ensures |r| == |s.entries|
    ensures forall i :: 0 <= i < |r| ==> r[i] == s.entries[i].item
  {
    seq(|s.entries|, i requires 0 <= i < |s.entries| => s.entries[i].item)
  }

  // ---------------------------------------------------------------------------
  // Add, update, delete
  // ---------------------------------------------------------------------------

  /** `add_knowledge_item`. An empty id is replaced by `generateId(item)`, the md5-based
      `_generate_id`, which is kept abstract. */
  function AddItem(s: Store, item: KnowledgeItem, generateId: KnowledgeItem -> string,
                   now: Timestamp): (r: (Store, string))
    ensures item.id != "" ==> r.1 == item.id
    ensures item.id == "" ==> r.1 == generateId(item)
    ensures Get(r.0, r.1) == Some(item.(id := r.1, updatedAt := now))
    ensures forall k :: k != r.1 ==> Get(r.0, k) == Get(s, k)
    ensures Valid(s) ==> Valid(r.0)
    ensures Valid(s) && KeysAreIds(s) ==> KeysAreIds(r.0)
  {
    var id := if item.id == "" then generateId(item) else item.id;
    var stored := item.(id := id, updatedAt := now);
    if Valid(s) then
      PutEntryInPlace(s.entries, id, stored);
      (Put(s, id, stored), id)
    else (Put(s, id, stored), id)
  }

  /** The attributes `update_knowledge_item` may set; an absent field is left alone. */
  datatype ItemPatch = ItemPatch(
    id: Option<string>,
    category: Option<KnowledgeCategory>,
    title: Option<string>,
    content: Option<string>,
    keywords: Option<seq<string>>,
    contextTags: Option<seq<string>>,
    priority: Option<int>,
    confidence: Option<real>,
    source: Option<Option<string>>,
    createdAt: Option<Timestamp>,
    usageCount: Option<int>,
    effectiveness: Option<real>)

  function ApplyPatch(item: KnowledgeItem, p: ItemPatch): KnowledgeItem {
    KnowledgeItem(
      p.id.GetOr(item.id), p.category.GetOr(item.category), p.title.GetOr(item.title),
      p.content.GetOr(item.content), p.keywords.GetOr(item.keywords),
      p.contextTags.GetOr(item.contextTags), p.priority.GetOr(item.priority),
      p.confidence.GetOr(item.confidence), p.source.GetOr(item.source),
      p.createdAt.GetOr(item.createdAt), item.updatedAt, p.usageCount.GetOr(item.usageCount),
      p.effectiveness.GetOr(item.effectiveness))
  }

  /** `update_knowledge_item`. Setting `id` through the patch changes the item's field but not
      its dictionary key, exactly as `setattr` does. */
  function UpdateItem(s: Store, id: string, p: ItemPatch, now: Timestamp): (r: (Store, bool))
    ensures !Has(s, id) ==> r == (s, false)
    ensures Has(s, id) ==> r.1 && Get(r.0, id) == Some(ApplyPatch(Get(s, id).value, p).(updatedAt := now))
    ensures forall k :: k != id ==> Get(r.0, k) == Get(s, k)
    ensures Valid(s) ==> Valid(r.0)
    ensures Has(s, id) ==> |r.0.entries| == |s.entries|
    ensures Has(s, id) && Valid(s) ==>
              forall i :: 0 <= i < |s.entries| ==> r.0.entries[i].key == s.entries[i].key
  {
    match Get(s, id)
    case None => (s, false)
    case Some(item) =>
      var patched := ApplyPatch(item, p).(updatedAt := now);
      if Valid(s) then
        PutEntryInPlace(s.entries, id, patched);
        (Put(s, id, patched), true)
      else (Put(s, id, patched), true)
  }

  /** `delete_knowledge_item`. */
  function DeleteItem(s: Store, id: string): (r: (Store, bool))
    ensures r.1 <==> Has(s, id)
    ensures !r.1 ==> r.0 == s
    ensures r.1 ==> |r.0.entries| == |s.entries| - 1
    ensures forall k :: k != id ==> Get(r.0, k) == Get(s, k)
    ensures Valid(s) ==> Get(r.0, id).None? && Valid(r.0)
  {
    if !Has(s, id) then (s, false)
    else if Valid(s) then
      RemoveEntryDistinct(s.entries, id);
      (Remove(s, id), true)
    else (Remove(s, id), true)
  }

  lemma {:induction false} RemoveAppended(es: seq<Entry>, e: Entry)
    requires Lookup(es, e.key).None?
    ensures RemoveEntry(es + [e], e.key) == es
    decreases |es|
  {
    if |es| > 0 {
      assert (es + [e])[1..] == es[1..] + [e];
      RemoveAppended(es[1..], e);
    }
  }

  /** Deleting an item that was just added under a fresh id restores the store exactly. */
  lemma DeleteUndoesAdd(s: Store, item: KnowledgeItem, generateId: KnowledgeItem -> string, now: Timestamp)
    requires item.id != "" && !Has(s, item.id)
    ensures DeleteItem(AddItem(s, item, generateId, now).0, item.id) == (s, true)
  {
    RemoveAppended(s.entries, Entry(item.id, item.(updatedAt := now)));
  }

  // ---------------------------------------------------------------------------
  // Usage feedback
  // ---------------------------------------------------------------------------

  function Min(a: real, b: real): real { if a <= b then a else b }
  function Max(a: real, b: real): real { if a >= b then a else b }

  /** The effectiveness rule: +0.1 capped at 1 for helpful use, −0.05 floored at 0 otherwise. */
  function Feedback(effectiveness: real, helpful: bool): (r: real)
    ensures 0.0 <= effectiveness <= 1.0 ==> 0.0 <= r <= 1.0
    ensures helpful && effectiveness <= 0.9 ==> r == effectiveness + 0.1
    ensures helpful && effectiveness > 0.9 ==> r == 1.0
    ensures !helpful && effectiveness >= 0.05 ==> r == effectiveness - 0.05
    ensures !helpful && effectiveness < 0.05 ==> r == 0.0
  {
    if helpful then Min(1.0, effectiveness + 0.1) else Max(0.0, effectiveness - 0.05)
  }

  predicate EffectivenessInUnit(s: Store) {
    forall i :: 0 <= i < |s.entries| ==> 0.0 <= s.entries[i].item.effectiveness <= 1.0
  }

  /** `update_usage_stats`. */
  function UpdateUsageStats(s: Store, id: string, helpful: bool): (r: Store)
    ensures !Has(s, id) ==> r == s
    ensures Has(s, id) ==>
              var old_ := Get(s, id).value;
              Get(r, id) == Some(old_.(usageCount := old_.usageCount + 1,
                                       effectiveness := Feedback(old_.effectiveness, helpful)))
    ensures forall k :: k != id ==> Get(r, k) == Get(s, k)
    ensures Valid(s) ==> Valid(r)
    ensures Valid(s) && EffectivenessInUnit(s) ==> EffectivenessInUnit(r)
    ensures Valid(s) && KeysAreIds(s) ==> KeysAreIds(r)
  {
    match Get(s, id)
    case None => s
    case Some(item) =>
      var updated := item.(usageCount := item.usageCount + 1,
                           effectiveness := Feedback(item.effectiveness, helpful));
      UsagePutFacts(s, id, item, updated);
      Put(s, id, updated)
  }

  /** What rewriting the entry of a stored id in place guarantees in a dictionary. */
  lemma UsagePutFacts(s: Store, id: string, item: KnowledgeItem, updated: KnowledgeItem)
    requires Get(s, id) == Some(item)
    ensures Valid(s) ==>
              var es := PutEntry(s.entries, id, updated);
              DistinctKeys(es) && |es| == |s.entries|
              && (forall i :: 0 <= i < |s.entries| ==> es[i] == if s.entries[i].key == id then Entry(id, updated) else s.entries[i])
              && (forall i :: 0 <= i < |s.entries| && s.entries[i].key == id ==> s.entries[i].item == item)
  {
    if Valid(s) {
      PutEntryInPlace(s.entries, id, updated);
      forall i | 0 <= i < |s.entries| && s.entries[i].key == id
        ensures s.entries[i].item == item
      {
        LookupAt(s.entries, i);
      }
    }
  }

  // ---------------------------------------------------------------------------
  // Statistics
  // ---------------------------------------------------------------------------

  function CategoryCount(items: seq<KnowledgeItem>, c: KnowledgeCategory): (n: nat)
    ensures n <= |items|
    ensures n > 0 <==> exists i :: 0 <= i < |items| && items[i].category == c
    decreases |items|
  {
    if |items| == 0 then 0
    else
      var rest := CategoryCount(items[1..], c);
      assert forall i :: 0 < i < |items| ==> items[i] == items[1..][i - 1];
      (if items[0].category == c then 1 else 0) + rest
  }

  function TotalUsage(items: seq<KnowledgeItem>): int
    decreases |items|
  {
    if |items| == 0 then 0 else items[0].usageCount + TotalUsage(items[1..])
  }

  function TotalEffectiveness(items: seq<KnowledgeItem>): (t: real)
    ensures (forall i :: 0 <= i < |items| ==> 0.0 <= items[i].effectiveness <= 1.0) ==>
              0.0 <= t <= |items| as real
    decreases |items|
  {
    if |items| == 0 then 0.0
    else
      assert forall i :: 0 < i < |items| ==> items[i] == items[1..][i - 1];
      items[0].effectiveness + TotalEffectiveness(items[1..])
  }

  datatype Stats =
    | EmptyStats
    | Stats(totalItems: nat, categories: map<KnowledgeCategory, nat>, totalUsage: int,
            averageEffectiveness: real, vectorizerFitted: bool)

  /** `get_stats`; whether the vectorizer has been fitted is passed in. */
  function GetStats(s: Store, vectorizerFitted: bool): (r: Stats)
    ensures |s.entries| == 0 <==> r == EmptyStats
    ensures r.Stats? ==> r.totalItems == |s.entries|
    // the vectorizer flag is reported as it is
    ensures r.Stats? ==> r.vectorizerFitted == vectorizerFitted
    // exactly the categories that occur are reported, each with its number of items
    ensures r.Stats? ==> forall c :: c in r.categories <==> CategoryCount(Items(s), c) > 0
    ensures r.Stats? ==> forall c :: c in r.categories ==> r.categories[c] == CategoryCount(Items(s), c)
    ensures r.Stats? && EffectivenessInUnit(s) ==> 0.0 <= r.averageEffectiveness <= 1.0
    // the usage total is the sum of the usage counts and the effectiveness is the mean score
    ensures r.Stats? ==> r.totalUsage == TotalUsage(Items(s))
    ensures r.Stats? ==> r.averageEffectiveness == Average(TotalEffectiveness(Items(s)), r.totalItems)
  {
    var items := Items(s);
    if |items| == 0 then EmptyStats
    else
      var total := TotalEffectiveness(items);
      assert EffectivenessInUnit(s) ==> 0.0 <= total <= |items| as real by {
        if EffectivenessInUnit(s) {
          assert forall i :: 0 <= i < |items| ==> 0.0 <= items[i].effectiveness <= 1.0;
        }
      }
      Stats(|items|, CategoryReport(items), TotalUsage(items), Average(total, |items|), vectorizerFitted)
  }

  /** The `categories` part of the report: the categories that occur, with their counts. */
  function CategoryReport(items: seq<KnowledgeItem>): (r: map<KnowledgeCategory, nat>)
    ensures forall c :: c in r <==> CategoryCount(items, c) > 0
    ensures forall c :: c in r ==> r[c] == CategoryCount(items, c)
  {
    assert forall c :: c in AllCategories by {
      forall c ensures c in AllCategories { CategoryListed(c); }
    }
    map c | c in AllCategories && CategoryCount(items, c) > 0 :: CategoryCount(items, c)
  }

  /** `total / count`. */
  function Average(t: real, n: nat): (a: real)
    requires n > 0
    ensures a * n as real == t
    ensures 0.0 <= t <= n as real ==> 0.0 <= a <= 1.0
  {
    if 0.0 <= t <= n as real then DivideBounded(t, n as real); t / n as real
    else t / n as real
  }

  /** Recording one use of a stored item raises the reported usage total by exactly one; an
      unknown id leaves the report as it was. */
  lemma UsageStatsCountOneUse(s: Store, id: string, helpful: bool, vectorizerFitted: bool)
    requires Valid(s)
    ensures Has(s, id) ==>
              var before := GetStats(s, vectorizerFitted);
              var after := GetStats(UpdateUsageStats(s, id, helpful), vectorizerFitted);
              before.Stats? && after.Stats? && after.totalItems == before.totalItems
              && after.totalUsage == before.totalUsage + 1
    ensures !Has(s, id) ==> GetStats(UpdateUsageStats(s, id, helpful), vectorizerFitted) == GetStats(s, vectorizerFitted)
  {
    if Has(s, id) {
      UsageTotalOneUse(s, id, helpful);
    }
  }

  lemma UsageTotalOneUse(s: Store, id: string, helpful: bool)
    requires Valid(s) && Has(s, id)
    ensures |UpdateUsageStats(s, id, helpful).entries| == |s.entries| > 0
    ensures TotalUsage(Items(UpdateUsageStats(s, id, helpful))) == TotalUsage(Items(s)) + 1
  {
    var i :| 0 <= i < |s.entries| && s.entries[i].key == id;
    LookupAt(s.entries, i);
    var item := s.entries[i].item;
    var updated := item.(usageCount := item.usageCount + 1,
                         effectiveness := Feedback(item.effectiveness, helpful));
    UsageIsPut(s, id, helpful, item);
    BumpedAt(s, id, updated, i);
  }

  lemma UsageIsPut(s: Store, id: string, helpful: bool, item: KnowledgeItem)
    requires Get(s, id) == Some(item)
    ensures UpdateUsageStats(s, id, helpful)
            == Put(s, id, item.(usageCount := item.usageCount + 1,
                                effectiveness := Feedback(item.effectiveness, helpful)))
  {
  }

  /** Rewriting the entry at position `i` with a use added adds one use in total. */
  lemma BumpedAt(s: Store, id: string, updated: KnowledgeItem, i: nat)
    requires DistinctKeys(s.entries) && i < |s.entries| && s.entries[i].key == id
    requires updated.usageCount == s.entries[i].item.usageCount + 1
    ensures |Put(s, id, updated).entries| == |s.entries|
    ensures TotalUsage(Items(Put(s, id, updated))) == TotalUsage(Items(s)) + 1
  {
    PutEntryInPlace(s.entries, id, updated);
    var r := Put(s, id, updated);
    var xs, ys := Items(s), Items(r);
    assert |r.entries| == |s.entries|;
    forall j | 0 <= j < |xs| && j != i ensures ys[j] == xs[j] {
      assert s.entries[j].key != id;
    }
    TotalUsageBump(xs, ys, i);
  }

  lemma {:induction false} TotalUsageBump(xs: seq<KnowledgeItem>, ys: seq<KnowledgeItem>, i: nat)
    requires |xs| == |ys| && i < |xs| && ys[i].usageCount == xs[i].usageCount + 1
    requires forall j :: 0 <= j < |xs| && j != i ==> ys[j] == xs[j]
    ensures TotalUsage(ys) == TotalUsage(xs) + 1
    decreases |xs|
  {
    if i == 0 {
      assert ys[1..] == xs[1..];
    } else {
      assert ys[0] == xs[0];
      TotalUsageBump(xs[1..], ys[1..], i - 1);
    }
  }

  lemma CategoryListed(c: KnowledgeCategory)
    ensures c in AllCategories
  {
    match c
    case ProductInfo => assert AllCategories[0] == c;
    case SalesTechniques => assert AllCategories[1] == c;
    case ObjectionHandling => assert AllCategories[2] == c;
    case CustomerStories => assert AllCategories[3] == c;
    case Pricing => assert AllCategories[4] == c;
    case Features => assert AllCategories[5] == c;
    case Benefits => assert AllCategories[6] == c;
    case Comparisons => assert AllCategories[7] == c;
    case Faqs => assert AllCategories[8] == c;
    case Testimonials => assert AllCategories[9] == c;
    case CaseStudies => assert AllCategories[10] == c;
    case IndustryInsights => assert AllCategories[11] == c;
  }

  lemma DivideBounded(t: real, n: real)
    requires n > 0.0 && 0.0 <= t <= n
    ensures 0.0 <= t / n <= 1.0
  {
  }

  /** Sum of the per-category counts over a list of categories. */
  function SumCounts(items: seq<KnowledgeItem>, cats: seq<KnowledgeCategory>): nat
    decreases |cats|
  {
    if |cats| == 0 then 0 else CategoryCount(items, cats[0]) + SumCounts(items, cats[1..])
  }

  function Occurrences(cats: seq<KnowledgeCategory>, c: KnowledgeCategory): nat
    decreases |cats|
  {
    if |cats| == 0 then 0 else (if cats[0] == c then 1 else 0) + Occurrences(cats[1..], c)
  }

  lemma {:induction false} SumCountsStep(items: seq<KnowledgeItem>, cats: seq<KnowledgeCategory>)
    requires |items| > 0
    ensures SumCounts(items, cats) == SumCounts(items[1..], cats) + Occurrences(cats, items[0].category)
    decreases |cats|
  {
    if |cats| > 0 {
      SumCountsStep(items, cats[1..]);
    }
  }

  lemma {:induction false} OccurrencesOfDistinct(cats: seq<KnowledgeCategory>, c: KnowledgeCategory)
    requires NoDups(cats)
    ensures Occurrences(cats, c) == if c in cats then 1 else 0
    decreases |cats|
  {
    if |cats| > 0 {
      assert NoDups(cats[1..]) by {
        forall i, j | 0 <= i < j < |cats[1..]| ensures cats[1..][i] != cats[1..][j] {
          assert cats[1..][i] == cats[i + 1] && cats[1..][j] == cats[j + 1];
        }
      }
      OccurrencesOfDistinct(cats[1..], c);
      if cats[0] == c {
        assert c !in cats[1..] by {
          forall i | 0 <= i < |cats[1..]| ensures cats[1..][i] != c {
            assert cats[1..][i] == cats[i + 1];
          }
        }
      } else {
        assert c in cats <==> c in cats[1..] by {
          if c in cats {
            var i :| 0 <= i < |cats| && cats[i] == c;
            assert cats[1..][i - 1] == c;
          }
        }
      }
    }
  }

  function CategoryIndex(c: KnowledgeCategory): nat {
    match c
    case ProductInfo => 0 case SalesTechniques => 1 case ObjectionHandling => 2
    case CustomerStories => 3 case Pricing => 4 case Features => 5 case Benefits => 6
    case Comparisons => 7 case Faqs => 8 case Testimonials => 9 case CaseStudies => 10
    case IndustryInsights => 11
  }

  /** The category list names every category exactly once. */
  lemma AllCategoriesDistinct()
    ensures NoDups(AllCategories)
  {
    assert forall i :: 0 <= i < |AllCategories| ==> CategoryIndex(AllCategories[i]) == i;
  }

  lemma AllCategoriesOnce(c: KnowledgeCategory)
    ensures Occurrences(AllCategories, c) == 1
  {
    CategoryListed(c);
    AllCategoriesDistinct();
    OccurrencesOfDistinct(AllCategories, c);
  }

  /** The category counts of the statistics add up to the number of items. */
  lemma {:induction false} CategoryCountsSumToTotal(items: seq<KnowledgeItem>)
    ensures SumCounts(items, AllCategories) == |items|
    decreases |items|
  {
    if |items| == 0 {
      SumCountsEmpty(AllCategories);
    } else {
      SumCountsStep(items, AllCategories);
      AllCategoriesOnce(items[0].category);
      CategoryCountsSumToTotal(items[1..]);
    }
  }

  lemma {:induction false} SumCountsEmpty(cats: seq<KnowledgeCategory>)
    ensures SumCounts([], cats) == 0
    decreases |cats|
  {
    if |cats| > 0 {
      SumCountsEmpty(cats[1..]);
    }
  }

  /** The per-category counts of a non-empty store's statistics add up to its total. */
  lemma StatsCountsSumToTotal(s: Store, vectorizerFitted: bool)
    ensures var r := GetStats(s, vectorizerFitted);
            r.Stats? ==> SumCounts(Items(s), AllCategories) == r.totalItems
  {
    CategoryCountsSumToTotal(Items(s));
  }
}

=== FILE: knowledge_search.dfy ===
/** `EnhancedKnowledgeBase.search` without the TF-IDF part: category and context-tag
    filtering, exact keyword matching, text similarity, an optional semantic score supplied
    from outside, merging by item id with the best score kept, the weighted ranking and the
    cut to `max_results`. `None` stands for the `ZeroDivisionError` that text similarity
    raises for a query without words. */
module KnowledgeSearch {
  import opened PyText
  import opened KnowledgeBase

  datatype MatchType = ExactMatch | SemanticMatch | TextMatch

  datatype SearchResult = SearchResult(
    item: KnowledgeItem, relevance: real, matchType: MatchType, matched: set<string>)

  // ---------------------------------------------------------------------------
  // Filtering
  // ---------------------------------------------------------------------------

  predicate CategoryOk(item: KnowledgeItem, category: Option<KnowledgeCategory>) {
    category.None? || item.category == category.value
  }

  /** An empty tag list does not filter; otherwise one shared tag is enough. */
  predicate TagsOk(item: KnowledgeItem, tags: seq<string>) {
    |tags| == 0 || exists t :: t in tags && t in item.contextTags
  }

  predicate Passes(item: KnowledgeItem, category: Option<KnowledgeCategory>, tags: seq<string>) {
    CategoryOk(item, category) && TagsOk(item, tags)
  }

  /** The two list comprehensions at the top of `search`. */
  function Candidates(items: seq<KnowledgeItem>, category: Option<KnowledgeCategory>,
                      tags: seq<string>): (r: seq<KnowledgeItem>)
    ensures forall x :: x in r ==> x in items && Passes(x, category, tags)
    ensures forall x :: x in items && Passes(x, category, tags) ==> x in r
    decreases |items|
  {
    if |items| == 0 then []
    else
      var rest := Candidates(items[1..], category, tags);
      assert forall x :: x in items[1..] ==> x in items;
      assert forall x :: x in items ==> x == items[0] || x in items[1..];
      if Passes(items[0], category, tags) then [items[0]] + rest else rest
  }

  // ---------------------------------------------------------------------------
  // Exact keyword matching
  // ---------------------------------------------------------------------------

  /** `set(query.lower().split())` */
  function QueryWords(query: string): set<string> {
    set w | w in Words(Lower(query))
  }

  /** `set(kw.lower() for kw in item.keywords)` */
  function ItemKeywords(item: KnowledgeItem): set<string> {
    set k | k in item.keywords :: Lower(k)
  }

  lemma SubsetCard<T>(a: set<T>, b: set<T>)
    requires a <= b
    ensures |a| <= |b|
    ensures |a| == |b| ==> a == b
  {
    if a != b {
      assert !(b <= a);
      var x :| x in b && x !in a;
      assert a <= b - {x};
      SubsetCardStrict(a, b - {x});
    } else {
      SubsetCardStrict(a, b);
    }
  }

  lemma {:induction false} SubsetCardStrict<T>(a: set<T>, b: set<T>)
    requires a <= b
    ensures |a| <= |b|
    decreases |b|
  {
    if a != {} {
      var x :| x in a;
      SubsetCardStrict(a - {x}, b - {x});
    }
  }

  /** The exact-match result for query words `qw` against an item's keyword set `kws`. */
  function MatchOfSets(qw: set<string>, kws: set<string>, item: KnowledgeItem): (r: Option<SearchResult>)
    ensures r.Some? <==> qw * kws != {}
    ensures r.Some? ==> r.value.item == item && r.value.matchType == ExactMatch && r.value.matched == qw * kws
    ensures r.Some? ==> r.value.relevance == |qw * kws| as real / |qw| as real
    ensures r.Some? ==> 0.0 < r.value.relevance <= 1.0
    ensures r.Some? ==> (r.value.relevance == 1.0 <==> qw <= kws)
  {
    var matched := qw * kws;
    if matched == {} then None
    else
      SubsetCard(matched, qw);
      assert matched == qw <==> qw <= kws;
      Some(SearchResult(item, |matched| as real / |qw| as real, ExactMatch, matched))
  }

  /** `_search_exact_keywords` for one item: the share of query words that are keywords. */
  function KeywordMatch(query: string, item: KnowledgeItem): (r: Option<SearchResult>)
    ensures r.Some? <==> QueryWords(query) * ItemKeywords(item) != {}
    ensures r.Some? ==> r.value.item == item && r.value.matchType == ExactMatch
    ensures r.Some? ==> r.value.matched == QueryWords(query) * ItemKeywords(item)
    // the relevance is the share of query words that are keywords of the item
    ensures r.Some? ==> r.value.relevance == |r.value.matched| as real / |QueryWords(query)| as real
    ensures r.Some? ==> 0.0 < r.value.relevance <= 1.0
    // full relevance exactly when every query word is a keyword of the item
    ensures r.Some? ==> (r.value.relevance == 1.0 <==> QueryWords(query) <= ItemKeywords(item))
  {
    MatchOfSets(QueryWords(query), ItemKeywords(item), item)
  }

  function KeywordMatches(query: string, items: seq<KnowledgeItem>): (r: seq<SearchResult>)
    ensures forall x :: x in r ==> x.item in items && KeywordMatch(query, x.item) == Some(x)
    ensures forall it :: it in items && KeywordMatch(query, it).Some? ==> KeywordMatch(query, it).value in r
    decreases |items|
  {
    if |items| == 0 then []
    else
      var rest := KeywordMatches(query, items[1..]);
      assert forall x :: x in items[1..] ==> x in items;
      assert forall x :: x in items ==> x == items[0] || x in items[1..];
      match KeywordMatch(query, items[0])
      case None => rest
      case Some(m) => [m] + rest
  }

  // ---------------------------------------------------------------------------
  // Text similarity
  // ---------------------------------------------------------------------------

  /** How many query words (repeats counted) occur somewhere in `text`. */
  function WordHits(words: seq<string>, text: string): (n: nat)
    ensures n <= |words|
    ensures n == |words| <==> forall k :: 0 <= k < |words| ==> Contains(text, words[k])
    decreases |words|
  {
    if |words| == 0 then 0
    else
      var rest := WordHits(words[1..], text);
      assert forall k :: 0 < k < |words| ==> words[k] == words[1..][k - 1];
      (if Contains(text, words[0]) then 1 else 0) + rest
  }

  /** The score of `_search_text_similarity` for one item: 0.8 when the whole query occurs in
      the title, 0.5 when it occurs in the content, plus 0.3 times the share of query words
      occurring in "title content". */
  function TextScore(query: string, item: KnowledgeItem): (score: real)
    requires |Words(Lower(query))| > 0
    ensures 0.0 <= score <= 1.6
    ensures Contains(Lower(item.title), Lower(query)) ==> score >= 0.8
    ensures Contains(Lower(item.content), Lower(query)) ==> score >= 0.5
    ensures !Contains(Lower(item.title), Lower(query)) && !Contains(Lower(item.content), Lower(query)) ==> score <= 0.3
    // a query found in a field brings all its words along, so those cases score exactly
    ensures Contains(Lower(item.title), Lower(query)) && Contains(Lower(item.content), Lower(query)) ==> score == 1.6
    ensures Contains(Lower(item.title), Lower(query)) && !Contains(Lower(item.content), Lower(query)) ==> score == 1.1
    ensures !Contains(Lower(item.title), Lower(query)) && Contains(Lower(item.content), Lower(query)) ==> score == 0.8
  {
    QueryInFieldHitsAllWords(query, item.title, item.content);
    var q := Lower(query);
    var words := Words(q);
    var titleScore := if Contains(Lower(item.title), q) then 0.8 else 0.0;
    var contentScore := if Contains(Lower(item.content), q) then 0.5 else 0.0;
    var hits := WordHits(words, Lower(item.title + " " + item.content));
    titleScore + contentScore + WordScore(hits, |words|)
  }

  /** Every word of the query is part of the query, so a query found in the title or in the
      content has every one of its words occurring in "title content". */
  lemma QueryInFieldHitsAllWords(query: string, title: string, content: string)
    ensures Contains(Lower(title), Lower(query)) || Contains(Lower(content), Lower(query)) ==>
              WordHits(Words(Lower(query)), Lower(title + " " + content)) == |Words(Lower(query))|
  {
    var q := Lower(query);
    var whole := Lower(title + " " + content);
    if Contains(Lower(title), q) || Contains(Lower(content), q) {
      LowerConcat(title, " " + content);
      LowerConcat(title + " ", content);
      assert title + " " + content == title + (" " + content);
      ContainsInConcat(Lower(title), Lower(" " + content), q);
      ContainsInConcat(Lower(title + " "), Lower(content), q);
      assert Contains(whole, q);
      WordsOccur(q);
      forall k | 0 <= k < |Words(q)| ensures Contains(whole, Words(q)[k]) {
        ContainsTransitive(whole, q, Words(q)[k]);
      }
    }
  }

  /** 0.3 times the share `hits / total` of query words found. */
  function WordScore(hits: nat, total: nat): (w: real)
    requires 0 < total && hits <= total
    ensures 0.0 <= w <= 0.3
    ensures w == 0.3 <==> hits == total
  {
    RatioBounded(hits, total);
    RatioFull(hits, total);
    hits as real / total as real * 0.3
  }

  lemma RatioFull(a: nat, b: nat)
    requires 0 < b && a <= b
    ensures a as real / b as real * 0.3 == 0.3 <==> a == b
  {
    if a as real / b as real * 0.3 == 0.3 {
      assert a as real / b as real == 1.0;
      assert a as real == b as real;
    }
  }

  /** With the whole query in both fields the score is at least 1.3, and it reaches the
      maximum 1.6 exactly when, in addition, every query word occurs in "title content". */
  lemma TextScoreTop(query: string, item: KnowledgeItem)
    requires |Words(Lower(query))| > 0
    ensures Contains(Lower(item.title), Lower(query)) && Contains(Lower(item.content), Lower(query))
            ==> TextScore(query, item) >= 1.3
    ensures Contains(Lower(item.title), Lower(query)) && Contains(Lower(item.content), Lower(query))
            ==> TextScore(query, item) == 1.6
    ensures TextScore(query, item) == 1.6 <==>
              Contains(Lower(item.title), Lower(query)) && Contains(Lower(item.content), Lower(query))
              && forall k :: 0 <= k < |Words(Lower(query))| ==>
                   Contains(Lower(item.title + " " + item.content), Words(Lower(query))[k])
  {
    var words := Words(Lower(query));
    var hits := WordHits(words, Lower(item.title + " " + item.content));
    assert TextScore(query, item)
           == (if Contains(Lower(item.title), Lower(query)) then 0.8 else 0.0)
              + (if Contains(Lower(item.content), Lower(query)) then 0.5 else 0.0)
              + WordScore(hits, |words|);
  }

  /** Without the whole query in the title or the content, only the share of query words that
      occur counts, weighted 0.3. */
  lemma TextScoreWordsOnly(query: string, item: KnowledgeItem)
    requires |Words(Lower(query))| > 0
    requires !Contains(Lower(item.title), Lower(query)) && !Contains(Lower(item.content), Lower(query))
    ensures TextScore(query, item)
            == WordHits(Words(Lower(query)), Lower(item.title + " " + item.content)) as real
               / |Words(Lower(query))| as real * 0.3
  {
  }

  lemma RatioBounded(a: nat, b: nat)
    requires 0 < b && a <= b
    ensures 0.0 <= a as real / b as real * 0.3 <= 0.3
  {
    assert a as real / b as real <= 1.0;
  }

  function TextMatchOf(query: string, item: KnowledgeItem): (r: Option<SearchResult>)
    requires |Words(Lower(query))| > 0
    ensures r.Some? <==> TextScore(query, item) > 0.1
    ensures r.Some? ==> r.value == SearchResult(item, TextScore(query, item), TextMatch, {})
  {
    var score := TextScore(query, item);
    if score > 0.1 then Some(SearchResult(item, score, TextMatch, {})) else None
  }

  /** `_search_text_similarity`; `None` where it divides by zero. */
  function TextMatches(query: string, items: seq<KnowledgeItem>): (r: Option<seq<SearchResult>>)
    ensures r.None? <==> |items| > 0 && |Words(Lower(query))| == 0
    ensures r.Some? ==> forall x :: x in r.value ==>
              (x.item in items && |Words(Lower(query))| > 0 && TextMatchOf(query, x.item) == Some(x)
               && x.matchType == TextMatch && 0.1 < x.relevance <= 1.6)
    ensures r.Some? ==> forall it :: it in items && TextMatchOf(query, it).Some? ==>
                          TextMatchOf(query, it).value in r.value
    decreases |items|
  {
    if |items| == 0 then Some([])
    else if |Words(Lower(query))| == 0 then None
    else
      var rest := TextMatches(query, items[1..]).value;
      assert forall x :: x in items[1..] ==> x in items;
      assert forall x :: x in items ==> x == items[0] || x in items[1..];
      match TextMatchOf(query, items[0])
      case None => Some(rest)
      case Some(m) => Some([m] + rest)
  }

  // ---------------------------------------------------------------------------
  // Semantic matches (the similarity itself is supplied from outside)
  // ---------------------------------------------------------------------------

  /** `_search_semantic` with the cosine similarity of each item given by `similarity`. */
  function SemanticMatches(items: seq<KnowledgeItem>, similarity: KnowledgeItem -> real): (r: seq<SearchResult>)
    ensures forall x :: x in r ==> x.item in items && x.relevance > 0.1 && x.matchType == SemanticMatch
                                   && x == SearchResult(x.item, similarity(x.item), SemanticMatch, {})
    ensures forall it :: it in items && similarity(it) > 0.1 ==>
              SearchResult(it, similarity(it), SemanticMatch, {}) in r
    decreases |items|
  {
    if |items| == 0 then []
    else
      var rest := SemanticMatches(items[1..], similarity);
      assert forall x :: x in items[1..] ==> x in items;
      assert forall x :: x in items ==> x == items[0] || x in items[1..];
      if similarity(items[0]) > 0.1 then [SearchResult(items[0], similarity(items[0]), SemanticMatch, {})] + rest
      else rest
  }

  // ---------------------------------------------------------------------------
  // Merging by id
  // ---------------------------------------------------------------------------

  function IdOf(r: SearchResult): string { r.item.id }

  predicate DistinctIds(rs: seq<SearchResult>) {
    forall i, j :: 0 <= i < j < |rs| ==> IdOf(rs[i]) != IdOf(rs[j])
  }

  function IndexOfId(rs: seq<SearchResult>, id: string): (r: Option<nat>)
    ensures r.Some? ==> r.value < |rs| && IdOf(rs[r.value]) == id
    ensures r.None? ==> forall i :: 0 <= i < |rs| ==> IdOf(rs[i]) != id
    decreases |rs|
  {
    if |rs| == 0 then None
    else if IdOf(rs[0]) == id then Some(0)
    else
      match IndexOfId(rs[1..], id)
      case None => None
      case Some(j) => Some(j + 1)
  }

  /** One step of the `unique_results` loop: a new id is appended, a strictly better score
      replaces the stored result in place. */
  function Upsert(acc: seq<SearchResult>, x: SearchResult): seq<SearchResult> {
    match IndexOfId(acc, IdOf(x))
    case None => acc + [x]
    case Some(j) => if x.relevance > acc[j].relevance then acc[j := x] else acc
  }

  /** The kept result for the id of `x` scores at least as high as `x`. */
  predicate Covers(acc: seq<SearchResult>, x: SearchResult) {
    IndexOfId(acc, IdOf(x)).Some? && acc[IndexOfId(acc, IdOf(x)).value].relevance >= x.relevance
  }

  /** What the loop keeps after having seen `seen`: one result per id, each one of the seen
      results, and for every seen result a kept one with the same id and a score at least as
      high. */
  predicate MergeInvariant(acc: seq<SearchResult>, seen: seq<SearchResult>) {
    DistinctIds(acc)
    && (forall y :: y in acc ==> y in seen)
    && (forall x :: x in seen ==> Covers(acc, x))
  }

  /** In a list with distinct ids, the position of an id is the position of any element
      carrying it. */
  lemma IndexOfDistinct(acc: seq<SearchResult>, i: nat)
    requires DistinctIds(acc) && i < |acc|
    ensures IndexOfId(acc, IdOf(acc[i])) == Some(i)
  {
    var k := IndexOfId(acc, IdOf(acc[i]));
    assert k.Some?;
    assert !(k.value < i) && !(k.value > i);
  }

  lemma UpsertNew(acc: seq<SearchResult>, seen: seq<SearchResult>, x: SearchResult)
    requires MergeInvariant(acc, seen) && IndexOfId(acc, IdOf(x)).None?
    ensures MergeInvariant(acc + [x], seen + [x])
  {
    var r := acc + [x];
    forall z | z in seen + [x] ensures Covers(r, z) {
      if z in seen {
        var k := IndexOfId(acc, IdOf(z)).value;
        IndexOfDistinct(acc, k);
        assert r[k] == acc[k];
        IndexPrefix(acc, [x], IdOf(z));
      } else {
        IndexAppended(acc, x);
      }
    }
  }

  lemma {:induction false} IndexPrefix(a: seq<SearchResult>, b: seq<SearchResult>, id: string)
    requires IndexOfId(a, id).Some?
    ensures IndexOfId(a + b, id) == IndexOfId(a, id)
    decreases |a|
  {
    if IdOf(a[0]) != id {
      assert (a + b)[1..] == a[1..] + b;
      IndexPrefix(a[1..], b, id);
    }
  }

  lemma {:induction false} IndexAppended(a: seq<SearchResult>, x: SearchResult)
    requires IndexOfId(a, IdOf(x)).None?
    ensures IndexOfId(a + [x], IdOf(x)) == Some(|a|)
    decreases |a|
  {
    if |a| > 0 {
      assert (a + [x])[1..] == a[1..] + [x];
      IndexAppended(a[1..], x);
    }
  }

  lemma UpsertReplace(acc: seq<SearchResult>, seen: seq<SearchResult>, x: SearchResult, k: nat)
    requires MergeInvariant(acc, seen) && IndexOfId(acc, IdOf(x)) == Some(k)
    requires x.relevance > acc[k].relevance
    ensures MergeInvariant(acc[k := x], seen + [x])
  {
    var r := acc[k := x];
    assert DistinctIds(r) by {
      forall i, j | 0 <= i < j < |r| ensures IdOf(r[i]) != IdOf(r[j]) {
        assert IdOf(r[i]) == IdOf(acc[i]) && IdOf(r[j]) == IdOf(acc[j]);
      }
    }
    forall z | z in seen + [x] ensures Covers(r, z) {
      if z in seen {
        var m := IndexOfId(acc, IdOf(z)).value;
        IndexOfDistinct(acc, m);
        IndexOfDistinct(r, m);
        assert IdOf(r[m]) == IdOf(acc[m]);
      } else {
        IndexOfDistinct(r, k);
      }
    }
    forall y | y in r ensures y in seen + [x] {
      var i :| 0 <= i < |r| && r[i] == y;
      if i != k { assert acc[i] == y; }
    }
  }

  lemma UpsertKeeps(acc: seq<SearchResult>, seen: seq<SearchResult>, x: SearchResult)
    requires MergeInvariant(acc, seen)
    ensures MergeInvariant(Upsert(acc, x), seen + [x])
  {
    match IndexOfId(acc, IdOf(x))
    case None => UpsertNew(acc, seen, x);
    case Some(k) =>
      if x.relevance > acc[k].relevance {
        UpsertReplace(acc, seen, x, k);
      } else {
        assert Covers(acc, x);
      }
  }

  function MergeInto(acc: seq<SearchResult>, rs: seq<SearchResult>): seq<SearchResult>
    decreases |rs|
  {
    if |rs| == 0 then acc else MergeInto(Upsert(acc, rs[0]), rs[1..])
  }

  lemma {:induction false} MergeIntoKeeps(acc: seq<SearchResult>, seen: seq<SearchResult>, rs: seq<SearchResult>)
    requires MergeInvariant(acc, seen)
    ensures MergeInvariant(MergeInto(acc, rs), seen + rs)
    decreases |rs|
  {
    if |rs| == 0 {
      assert seen + rs == seen;
    } else {
      UpsertKeeps(acc, seen, rs[0]);
      MergeIntoKeeps(Upsert(acc, rs[0]), seen + [rs[0]], rs[1..]);
      assert seen + [rs[0]] + rs[1..] == seen + rs;
    }
  }

  /** The `unique_results` dictionary, in insertion order. */
  function Merge(rs: seq<SearchResult>): (r: seq<SearchResult>)
    // one result per item id
    ensures DistinctIds(r)
    // every kept result is one of the matches
    ensures forall y :: y in r ==> y in rs
    // every matched id is kept, with the best score among its matches
    ensures forall x :: x in rs ==> IndexOfId(r, IdOf(x)).Some?
    ensures forall x, y :: x in rs && y in r && IdOf(x) == IdOf(y) ==> x.relevance <= y.relevance
  {
    MergeIntoKeeps([], [], rs);
    assert [] + rs == rs;
    var r := MergeInto([], rs);
    forall x, y | x in rs && y in r && IdOf(x) == IdOf(y) ensures x.relevance <= y.relevance {
      assert Covers(r, x);
      var i :| 0 <= i < |r| && r[i] == y;
      IndexOfDistinct(r, i);
    }
    r
  }

  // ---------------------------------------------------------------------------
  // Ranking
  // ---------------------------------------------------------------------------

  /** The sort key `relevance * 0.7 + priority * 0.1 + effectiveness * 0.2`. */
  function RankKey(r: SearchResult): real {
    r.relevance * 0.7 + r.item.priority as real * 0.1 + r.item.effectiveness * 0.2
  }

  predicate SortedDesc(rs: seq<SearchResult>) {
    forall i, j :: 0 <= i < j < |rs| ==> RankKey(rs[i]) >= RankKey(rs[j])
  }

  /** `x` goes before the first element whose key is not larger than its own, so ahead of
      equal keys; since `x` precedes them in the input, equal keys keep their input order, as
      in Python's stable `sorted(..., reverse=True)`. */
  function Insert(x: SearchResult, sorted: seq<SearchResult>): (r: seq<SearchResult>)
    requires SortedDesc(sorted)
    ensures SortedDesc(r)
    ensures multiset(r) == multiset(sorted) + multiset{x}
    decreases |sorted|
  {
    if |sorted| == 0 || RankKey(x) >= RankKey(sorted[0]) then [x] + sorted
    else
      var rest := Insert(x, sorted[1..]);
      assert sorted == [sorted[0]] + sorted[1..];
      BelowHead(x, sorted, rest);
      [sorted[0]] + rest
  }

  /** What goes after the head of a descending list ranks no higher than the head. */
  lemma BelowHead(x: SearchResult, sorted: seq<SearchResult>, rest: seq<SearchResult>)
    requires SortedDesc(sorted) && |sorted| > 0 && RankKey(x) < RankKey(sorted[0])
    requires multiset(rest) == multiset(sorted[1..]) + multiset{x}
    ensures forall y :: y in rest ==> RankKey(y) <= RankKey(sorted[0])
  {
    forall y | y in rest ensures RankKey(y) <= RankKey(sorted[0]) {
      assert y in multiset(rest);
      if y != x {
        assert y in multiset(sorted[1..]);
        var i :| 0 <= i < |sorted[1..]| && sorted[1..][i] == y;
        assert sorted[i + 1] == y;
      }
    }
  }

  function SortByRank(rs: seq<SearchResult>): (r: seq<SearchResult>)
    ensures SortedDesc(r)
    ensures multiset(r) == multiset(rs)
    decreases |rs|
  {
    if |rs| == 0 then []
    else
      assert rs == [rs[0]] + rs[1..];
      Insert(rs[0], SortByRank(rs[1..]))
  }

  lemma DistinctIdsOfPermutation(a: seq<SearchResult>, b: seq<SearchResult>)
    requires DistinctIds(a) && multiset(a) == multiset(b)
    ensures DistinctIds(b)
  {
    forall i, j | 0 <= i < j < |b| ensures IdOf(b[i]) != IdOf(b[j]) {
      assert b[i] in multiset(a) && b[j] in multiset(a);
      var i' :| 0 <= i' < |a| && a[i'] == b[i];
      var j' :| 0 <= j' < |a| && a[j'] == b[j];
      CountOfDistinct(a, i');
      PositionsDiffer(b, i, j);
    }
  }

  /** An element that occurs once in a list sits at only one position. */
  lemma PositionsDiffer(b: seq<SearchResult>, i: nat, j: nat)
    requires i < j < |b| && multiset(b)[b[i]] == 1
    ensures b[i] != b[j]
  {
    assert b == b[..j] + [b[j]] + b[j + 1..];
    assert b[i] in b[..j];
    assert multiset(b)[b[i]] == multiset(b[..j])[b[i]] + multiset([b[j]])[b[i]] + multiset(b[j + 1..])[b[i]];
  }

  /** In a list with distinct ids every element occurs once. */
  lemma {:induction false} CountOfDistinct(a: seq<SearchResult>, i: nat)
    requires DistinctIds(a) && i < |a|
    ensures multiset(a)[a[i]] == 1
    decreases |a|
  {
    var tail := a[1..];
    assert a == [a[0]] + tail;
    assert DistinctIds(tail) by {
      forall p, q | 0 <= p < q < |tail| ensures IdOf(tail[p]) != IdOf(tail[q]) {
        assert tail[p] == a[p + 1] && tail[q] == a[q + 1];
      }
    }
    if i == 0 {
      assert a[0] !in tail by {
        forall p | 0 <= p < |tail| ensures tail[p] != a[0] {
          assert IdOf(a[0]) != IdOf(a[p + 1]);
        }
      }
    } else {
      CountOfDistinct(tail, i - 1);
      assert tail[i - 1] == a[i];
      assert a[0] != a[i] by { assert IdOf(a[0]) != IdOf(a[i]); }
    }
  }

  // ---------------------------------------------------------------------------
  // search
  // ---------------------------------------------------------------------------

  /** `x` is a match `search` can produce for its item: its keyword match, its semantic
      result above 0.1, or its text match. */
  predicate IsMatch(query: string, similarity: Option<KnowledgeItem -> real>, x: SearchResult) {
    KeywordMatch(query, x.item) == Some(x)
    || (similarity.Some? && similarity.value(x.item) > 0.1
        && x == SearchResult(x.item, similarity.value(x.item), SemanticMatch, {}))
    || (|Words(Lower(query))| > 0 && TextMatchOf(query, x.item) == Some(x))
  }

  /** No match of `it` scores above `v`. */
  predicate NoBetterMatch(query: string, similarity: Option<KnowledgeItem -> real>, it: KnowledgeItem, v: real) {
    (KeywordMatch(query, it).Some? ==> KeywordMatch(query, it).value.relevance <= v)
    && (similarity.Some? && similarity.value(it) > 0.1 ==> similarity.value(it) <= v)
    && (|Words(Lower(query))| > 0 && TextMatchOf(query, it).Some? ==> TextMatchOf(query, it).value.relevance <= v)
  }

  /** The three match lists of `search`, concatenated before de-duplication. */
  function Gathered(query: string, cands: seq<KnowledgeItem>, similarity: Option<KnowledgeItem -> real>,
                    text: seq<SearchResult>): (all: seq<SearchResult>)
    requires forall x :: x in text ==> x.item in cands && |Words(Lower(query))| > 0 && TextMatchOf(query, x.item) == Some(x)
    ensures forall x :: x in all ==> x.item in cands && x.relevance > 0.0
    // nothing but the candidates' own matches
    ensures forall x :: x in all ==> IsMatch(query, similarity, x)
    // every keyword, semantic and text match of a candidate is among them
    ensures forall it :: it in cands && KeywordMatch(query, it).Some? ==> KeywordMatch(query, it).value in all
    ensures similarity.Some? ==> forall it :: it in cands && similarity.value(it) > 0.1 ==>
              SearchResult(it, similarity.value(it), SemanticMatch, {}) in all
    ensures forall x :: x in text ==> x in all
  {
    var keyword := KeywordMatches(query, cands);
    var semantic := match similarity case None => [] case Some(f) => SemanticMatches(cands, f);
    GatheredSound(query, cands, similarity, keyword, semantic, text);
    keyword + semantic + text
  }

  lemma GatheredSound(query: string, cands: seq<KnowledgeItem>, similarity: Option<KnowledgeItem -> real>,
                      keyword: seq<SearchResult>, semantic: seq<SearchResult>, text: seq<SearchResult>)
    requires forall x :: x in keyword ==> x.item in cands && KeywordMatch(query, x.item) == Some(x)
    requires similarity.None? ==> semantic == []
    requires similarity.Some? ==> forall x :: x in semantic ==>
               x.item in cands && x.relevance > 0.1
               && x == SearchResult(x.item, similarity.value(x.item), SemanticMatch, {})
    requires forall x :: x in text ==> x.item in cands && |Words(Lower(query))| > 0 && TextMatchOf(query, x.item) == Some(x)
    ensures forall x :: x in keyword + semantic + text ==>
              x.item in cands && x.relevance > 0.0 && IsMatch(query, similarity, x)
  {
    forall x | x in keyword + semantic + text
      ensures x.item in cands && x.relevance > 0.0 && IsMatch(query, similarity, x)
    {
      if x in keyword {
        assert KeywordMatch(query, x.item) == Some(x);
      } else if x in semantic {
        assert similarity.Some?;
      } else {
        assert x in text;
        assert TextMatchOf(query, x.item) == Some(x);
      }
    }
  }

  /** The match `x` is answered by `out`: a result for the same item id with at least its
      score is either returned, or was cut off only because `out` already holds `maxResults`
      results that all rank at least as high. */
  ghost predicate Answered(out: seq<SearchResult>, x: SearchResult, maxResults: int) {
    exists y :: IdOf(y) == IdOf(x) && y.relevance >= x.relevance
                && (y in out || (|out| == maxResults && forall z :: z in out ==> RankKey(z) >= RankKey(y)))
  }

  /** Every element left out of a prefix of a descending list ranks no higher than any element
      of the prefix. */
  lemma PrefixOutranks(sorted: seq<SearchResult>, out: seq<SearchResult>)
    requires SortedDesc(sorted) && |out| <= |sorted| && out == sorted[..|out|]
    ensures forall y, z :: y in sorted && y !in out && z in out ==> RankKey(z) >= RankKey(y)
  {
    forall y, z | y in sorted && y !in out && z in out ensures RankKey(z) >= RankKey(y) {
      var p :| 0 <= p < |sorted| && sorted[p] == y;
      var q :| 0 <= q < |out| && out[q] == z;
      assert sorted[q] == z;
    }
  }

  /** De-duplicate by id, rank, and keep the first `maxResults` (Python slice semantics). */
  function Ranked(all: seq<SearchResult>, maxResults: int): (out: seq<SearchResult>)
    ensures maxResults >= 0 ==> |out| == if |Merge(all)| < maxResults then |Merge(all)| else maxResults
    ensures SortedDesc(out) && DistinctIds(out)
    ensures forall x :: x in out ==> x in all
    // the kept results are the best-ranked ones of the merged list
    ensures forall y, z :: y in Merge(all) && y !in out && z in out ==> RankKey(z) >= RankKey(y)
    // a returned result carries the best score of its id
    ensures forall x, y :: x in all && y in out && IdOf(x) == IdOf(y) ==> x.relevance <= y.relevance
    // no match is lost unless the list is full of better-ranked results
    ensures maxResults >= 0 ==> forall x :: x in all ==> Answered(out, x, maxResults)
  {
    RankedKeeps(all, maxResults);
    SliceTo(SortByRank(Merge(all)), maxResults)
  }

  lemma RankedKeeps(all: seq<SearchResult>, maxResults: int)
    ensures var merged := Merge(all);
            var out := SliceTo(SortByRank(merged), maxResults);
            (maxResults >= 0 ==> |out| == if |merged| < maxResults then |merged| else maxResults)
            && SortedDesc(out) && DistinctIds(out)
            && (forall x :: x in out ==> x in merged)
            && (forall y, z :: y in merged && y !in out && z in out ==> RankKey(z) >= RankKey(y))
            && (maxResults >= 0 ==> forall x :: x in all ==> Answered(out, x, maxResults))
  {
    var merged := Merge(all);
    var out := SliceTo(SortByRank(merged), maxResults);
    SortedPrefix(merged, maxResults);
    if maxResults >= 0 {
      forall x | x in all ensures Answered(out, x, maxResults) {
        var k := IndexOfId(merged, IdOf(x)).value;
        var y := merged[k];
        assert IdOf(y) == IdOf(x) && y.relevance >= x.relevance;
      }
    }
  }

  /** The first `maxResults` of the ranked list: descending, distinct ids, and the best-ranked
      elements of `merged`; an element of `merged` is missing only from a full list. */
  lemma SortedPrefix(merged: seq<SearchResult>, maxResults: int)
    requires DistinctIds(merged)
    ensures var out := SliceTo(SortByRank(merged), maxResults);
            (maxResults >= 0 ==> |out| == if |merged| < maxResults then |merged| else maxResults)
            && SortedDesc(out) && DistinctIds(out)
            && (forall x :: x in out ==> x in merged)
            && (forall y, z :: y in merged && y !in out && z in out ==> RankKey(z) >= RankKey(y))
            && (maxResults >= 0 ==> forall y :: y in merged && y !in out ==> |out| == maxResults)
  {
    var sorted := SortByRank(merged);
    DistinctIdsOfPermutation(merged, sorted);
    assert |sorted| == |merged| by {
      assert |multiset(sorted)| == |multiset(merged)|;
    }
    assert forall x :: x in sorted <==> x in merged by {
      forall x ensures x in sorted <==> x in merged {
        assert x in sorted <==> x in multiset(sorted);
        assert x in merged <==> x in multiset(merged);
      }
    }
    PrefixFacts(sorted, maxResults);
  }

  lemma PrefixFacts(sorted: seq<SearchResult>, maxResults: int)
    requires SortedDesc(sorted) && DistinctIds(sorted)
    ensures var out := SliceTo(sorted, maxResults);
            SortedDesc(out) && DistinctIds(out)
            && (forall x :: x in out ==> x in sorted)
            && (forall y, z :: y in sorted && y !in out && z in out ==> RankKey(z) >= RankKey(y))
            && (maxResults >= 0 ==> forall y :: y in sorted && y !in out ==> |out| == maxResults)
  {
    var out := SliceTo(sorted, maxResults);
    assert DistinctIds(out) by {
      forall i, j | 0 <= i < j < |out| ensures IdOf(out[i]) != IdOf(out[j]) {
        assert out[i] == sorted[i] && out[j] == sorted[j];
      }
    }
    assert forall x :: x in out ==> x in sorted;
    PrefixOutranks(sorted, out);
    if maxResults >= 0 && |out| != maxResults {
      assert out == sorted;
    }
  }

  /** `search(query, category, context_tags, max_results)`. `similarity` is `None` while the
      vectorizer has not been fitted. */
  function Search(s: Store, query: string, category: Option<KnowledgeCategory>, tags: seq<string>,
                  maxResults: int, similarity: Option<KnowledgeItem -> real>): (r: Option<seq<SearchResult>>)
    ensures |s.entries| == 0 ==> r == Some([])
    ensures r.None? <==> |Candidates(Items(s), category, tags)| > 0 && |Words(Lower(query))| == 0
    ensures r.Some? && maxResults >= 0 ==> |r.value| <= maxResults
    ensures r.Some? ==> SortedDesc(r.value) && DistinctIds(r.value)
    // every result is a stored item that passes both filters, with a positive score
    ensures r.Some? ==> forall x :: x in r.value ==>
              x.item in Items(s) && Passes(x.item, category, tags) && x.relevance > 0.0
    // every result is a real match of its item, at the best score any candidate with its id has
    ensures r.Some? ==> forall x :: x in r.value ==> IsMatch(query, similarity, x)
    ensures r.Some? ==> forall x, it :: x in r.value && it in Candidates(Items(s), category, tags) && it.id == IdOf(x) ==>
              NoBetterMatch(query, similarity, it, x.relevance)
    // every keyword, semantic and text match of a candidate is answered: returned under its id
    // with at least its score, or outranked by all of a full list of `maxResults`
    ensures r.Some? && maxResults >= 0 ==> forall it :: it in Candidates(Items(s), category, tags) ==>
              (KeywordMatch(query, it).Some? ==> Answered(r.value, KeywordMatch(query, it).value, maxResults))
              && (similarity.Some? && similarity.value(it) > 0.1 ==>
                    Answered(r.value, SearchResult(it, similarity.value(it), SemanticMatch, {}), maxResults))
              && (|Words(Lower(query))| > 0 && TextMatchOf(query, it).Some? ==>
                    Answered(r.value, TextMatchOf(query, it).value, maxResults))
  {
    var items := Items(s);
    var cands := Candidates(items, category, tags);
    if |items| == 0 then Some([])
    else if |cands| == 0 then Some([])
    else
      match TextMatches(query, cands)
      case None => None
      case Some(text) =>
        SearchFacts(query, cands, similarity, text, maxResults);
        Some(Ranked(Gathered(query, cands, similarity, text), maxResults))
  }

  /** What ranking the gathered matches gives: real matches only, each at the best score of its
      id, and every match of a candidate answered. */
  lemma SearchFacts(query: string, cands: seq<KnowledgeItem>, similarity: Option<KnowledgeItem -> real>,
                    text: seq<SearchResult>, maxResults: int)
    requires forall x :: x in text ==> x.item in cands && |Words(Lower(query))| > 0 && TextMatchOf(query, x.item) == Some(x)
    requires forall it :: it in cands && |Words(Lower(query))| > 0 && TextMatchOf(query, it).Some? ==>
               TextMatchOf(query, it).value in text
    ensures var out := Ranked(Gathered(query, cands, similarity, text), maxResults);
            forall x :: x in out ==> x.item in cands && x.relevance > 0.0 && IsMatch(query, similarity, x)
    ensures var out := Ranked(Gathered(query, cands, similarity, text), maxResults);
            forall x, it :: x in out && it in cands && it.id == IdOf(x) ==> NoBetterMatch(query, similarity, it, x.relevance)
    ensures var out := Ranked(Gathered(query, cands, similarity, text), maxResults);
            maxResults >= 0 ==> forall it :: it in cands ==>
              (KeywordMatch(query, it).Some? ==> Answered(out, KeywordMatch(query, it).value, maxResults))
              && (similarity.Some? && similarity.value(it) > 0.1 ==>
                    Answered(out, SearchResult(it, similarity.value(it), SemanticMatch, {}), maxResults))
              && (|Words(Lower(query))| > 0 && TextMatchOf(query, it).Some? ==>
                    Answered(out, TextMatchOf(query, it).value, maxResults))
  {
    var all := Gathered(query, cands, similarity, text);
    var out := Ranked(all, maxResults);
    forall x, it | x in out && it in cands && it.id == IdOf(x)
      ensures NoBetterMatch(query, similarity, it, x.relevance)
    {
      if KeywordMatch(query, it).Some? {
        assert KeywordMatch(query, it).value in all;
      }
      if similarity.Some? && similarity.value(it) > 0.1 {
        assert SearchResult(it, similarity.value(it), SemanticMatch, {}) in all;
      }
      if |Words(Lower(query))| > 0 && TextMatchOf(query, it).Some? {
        assert TextMatchOf(query, it).value in all;
      }
    }
  }
}

=== FILE: knowledge_usage.dfy ===
/** The helpers of the enhanced chat route that put the knowledge store to use during a turn:
    which context tags a stage searches with, which results are kept, whether knowledge is
    worth including, and how the kept items are appended to a reply. */
module KnowledgeUsage {
  import opened PyText
  import opened ConversationModel
  import opened KnowledgeBase
  import opened KnowledgeSearch

  // ---------------------------------------------------------------------------
  // search_relevant_knowledge
  // ---------------------------------------------------------------------------

  /** The context tags searched with in each stage; the three late stages search untagged. */
  function StageTags(s: Stage): (r: seq<string>)
    ensures |r| == 0 || |r| == 3
  {
    match s
    case Awareness => ["product_overview", "introduction", "capabilities"]
    case Interest => ["benefits", "features", "value_proposition"]
    case Consideration => ["competitive_advantage", "social_proof", "case_studies"]
    case Intent => ["pricing", "implementation", "next_steps"]
    case _ => []
  }

  /** A stage filters by tags exactly when it is one of the four stages with a prompt guide. */
  lemma StageTagsExactly(s: Stage)
    ensures |StageTags(s)| == 3 <==> HasStagePrompt(s)
    ensures |StageTags(s)| == 0 <==> !HasStagePrompt(s)
  {
    StagePromptsDomain(s);
  }

  /** The four tag sets are pairwise disjoint, so no tag is searched in two stages. */
  lemma StageTagsDisjoint(s: Stage, t: Stage, tag: string)
    requires s != t && tag in StageTags(s)
    ensures tag !in StageTags(t)
  {
  }

  /** `[r.item for r in results if r.relevance_score > 0.3]` */
  function KeepRelevant(rs: seq<SearchResult>): (r: seq<KnowledgeItem>)
    ensures |r| <= |rs|
    ensures forall it :: it in r ==> exists x :: x in rs && x.item == it && x.relevance > 0.3
    ensures forall x :: x in rs && x.relevance > 0.3 ==> x.item in r
    decreases |rs|
  {
    if |rs| == 0 then []
    else
      var rest := KeepRelevant(rs[1..]);
      assert forall x :: x in rs[1..] ==> x in rs;
      assert forall x :: x in rs ==> x == rs[0] || x in rs[1..];
      if rs[0].relevance > 0.3 then [rs[0].item] + rest else rest
  }

  /** `search_relevant_knowledge`: at most three results, searched with the stage's tags, the
      weak ones dropped. The search failure (a message without words) yields no items. */
  function RelevantKnowledge(s: Store, message: string, stage: Stage,
                             similarity: Option<KnowledgeItem -> real>): (r: seq<KnowledgeItem>)
    ensures |r| <= 3
    ensures forall it :: it in r ==> it in Items(s) && TagsOk(it, StageTags(stage))
    ensures Search(s, message, None, StageTags(stage), 3, similarity).None? ==> r == []
    ensures |s.entries| == 0 ==> r == []
    // only items of results scoring above 0.3 are kept ...
    ensures forall it :: it in r ==>
              Search(s, message, None, StageTags(stage), 3, similarity).Some?
              && exists x :: x in Search(s, message, None, StageTags(stage), 3, similarity).value
                             && x.item == it && x.relevance > 0.3
    // ... and every one of them is
    ensures forall x :: Search(s, message, None, StageTags(stage), 3, similarity).Some?
              && x in Search(s, message, None, StageTags(stage), 3, similarity).value
              && x.relevance > 0.3
              ==> x.item in r
  {
    match Search(s, message, None, StageTags(stage), 3, similarity)
    case None => []
    case Some(rs) => KeepRelevant(rs)
  }

  // ---------------------------------------------------------------------------
  // should_include_knowledge
  // ---------------------------------------------------------------------------

  predicate HandlesDoubt(item: KnowledgeItem) {
    item.category == ObjectionHandling || item.category == Testimonials
  }

  function ShouldIncludeKnowledge(ctx: Context, items: seq<KnowledgeItem>): (r: bool)
    ensures r <==> ctx.stage in {Awareness, Interest} || ctx.profile.trust < 0.6
                   || exists i :: 0 <= i < |items| && HandlesDoubt(items[i])
  {
    if ctx.stage == Awareness || ctx.stage == Interest then true
    else if ctx.profile.trust < 0.6 then true
    else AnyHandlesDoubt(items)
  }

  function AnyHandlesDoubt(items: seq<KnowledgeItem>): (r: bool)
    ensures r <==> exists i :: 0 <= i < |items| && HandlesDoubt(items[i])
    decreases |items|
  {
    if |items| == 0 then false
    else if HandlesDoubt(items[0]) then true
    else
      var rest := AnyHandlesDoubt(items[1..]);
      assert forall i :: 0 < i < |items| ==> items[i] == items[1..][i - 1];
      assert rest ==> exists i :: 0 <= i < |items| && HandlesDoubt(items[i]) by {
        if rest {
          var j :| 0 <= j < |items[1..]| && HandlesDoubt(items[1..][j]);
          assert HandlesDoubt(items[j + 1]);
        }
      }
      rest
  }

  /** More knowledge items never turn a decision to include knowledge into one not to. */
  lemma {:induction false} ShouldIncludeMonotone(ctx: Context, items: seq<KnowledgeItem>, more: seq<KnowledgeItem>)
    requires ShouldIncludeKnowledge(ctx, items)
    ensures ShouldIncludeKnowledge(ctx, items + more)
  {
    if !(ctx.stage in {Awareness, Interest} || ctx.profile.trust < 0.6) {
      var i :| 0 <= i < |items| && HandlesDoubt(items[i]);
      assert (items + more)[i] == items[i];
    }
  }

  // ---------------------------------------------------------------------------
  // enrich_response_with_knowledge
  // ---------------------------------------------------------------------------

  const StoryLead: string := "\n\n\U{1F4C8} "
  const TestimonialLead: string := "\n\n\U{1F4AC} "
  const FaqLead: string := "\n\n\U{2753} "
  const Ellipsis: string := "..."

  /** `r` is `lead`, then `body`, then the ellipsis. */
  predicate Framed(r: string, lead: string, body: string) {
    |r| == |lead| + |body| + |Ellipsis|
    && r[..|lead|] == lead && r[|lead|..|lead| + |body|] == body && r[|lead| + |body|..] == Ellipsis
  }

  /** What one item adds: customer stories and testimonials a truncated content, FAQs their
      title and a truncated answer; any other category adds nothing. */
  function Snippet(item: KnowledgeItem): (r: string)
    ensures item.category == CustomerStories ==> Framed(r, StoryLead, Take(item.content, 200))
    ensures item.category == Testimonials ==> Framed(r, TestimonialLead, Take(item.content, 150))
    ensures item.category == Faqs ==> Framed(r, FaqLead, item.title + ": " + Take(item.content, 200))
    ensures item.category !in {CustomerStories, Testimonials, Faqs} <==> r == ""
  {
    match item.category
    case CustomerStories => StoryLead + Take(item.content, 200) + Ellipsis
    case Testimonials => TestimonialLead + Take(item.content, 150) + Ellipsis
    case Faqs => FaqLead + (item.title + ": " + Take(item.content, 200)) + Ellipsis
    case _ => ""
  }

  /** The loop body applied to each item in turn. */
  function AppendSnippets(response: string, items: seq<KnowledgeItem>): (r: string)
    ensures IsPrefix(response, r)
    ensures (forall i :: 0 <= i < |items| ==> Snippet(items[i]) == "") ==> r == response
    decreases |items|
  {
    if |items| == 0 then response
    else
      assert forall i :: 0 < i < |items| ==> items[1..][i - 1] == items[i];
      var next := response + Snippet(items[0]);
      var r := AppendSnippets(next, items[1..]);
      PrefixTransitive(response, next, r);
      r
  }

  lemma PrefixTransitive(a: string, b: string, c: string)
    requires IsPrefix(a, b) && IsPrefix(b, c)
    ensures IsPrefix(a, c)
  {
    assert c[..|a|] == c[..|b|][..|a|];
  }

  /** `enrich_response_with_knowledge`: only the first two items are looked at. */
  function EnrichResponse(response: string, items: seq<KnowledgeItem>): (r: string)
    ensures |items| == 0 ==> r == response
    ensures |items| == 1 ==> r == response + Snippet(items[0])
    ensures IsPrefix(response, r)
    ensures |items| >= 1 ==> IsPrefix(response + Snippet(items[0]), r)
    ensures |items| >= 1 && Snippet(items[0]) == "" && (|items| == 1 || Snippet(items[1]) == "") ==> r == response
  {
    var first := Take(items, 2);
    if |first| == 0 then response
    else
      assert first[1..] == [] || first[1..] == [items[1]];
      assert |items| == 1 ==> AppendSnippets(response + Snippet(items[0]), first[1..]) == response + Snippet(items[0]);
      AppendSnippets(response, first)
  }

  /** Everything after the second item is ignored. */
  lemma EnrichIgnoresTail(response: string, items: seq<KnowledgeItem>, more: seq<KnowledgeItem>)
    requires |items| >= 2
    ensures EnrichResponse(response, items + more) == EnrichResponse(response, items)
  {
    assert Take(items + more, 2) == Take(items, 2);
  }

  /** With two items the reply grows by exactly their two snippets, in order. */
  lemma EnrichTwo(response: string, a: KnowledgeItem, b: KnowledgeItem)
    ensures EnrichResponse(response, [a, b]) == response + Snippet(a) + Snippet(b)
  {
    assert Take([a, b], 2) == [a, b];
    assert [a, b][1..] == [b];
    assert [b][1..] == [];
    assert AppendSnippets(response + Snippet(a) + Snippet(b), []) == response + Snippet(a) + Snippet(b);
    assert AppendSnippets(response + Snippet(a), [b]) == response + Snippet(a) + Snippet(b);
  }
}

=== FILE: legacy_engine.dfy ===
/** The first-generation conversation engine (`AIConversationEngine`): prompt-strategy choice
    from the intent analysis, the fixed fallback replies, the append-only persuasion pass over
    a generated reply, and the per-session history with its 20-entry window and 10-entry
    context view. The intent analysis is the dictionary the language model returns, with each
    key that may be absent an `Option`. */
module LegacyEngine {
  import opened PyText

  datatype IntentAnalysis = IntentAnalysis(
    intent: Option<string>,
    buyingStage: Option<string>,
    emotionalState: Option<string>,
    urgencyLevel: Option<string>)

  function IntentOf(a: IntentAnalysis): string { a.intent.GetOr("other") }
  function BuyingStageOf(a: IntentAnalysis): string { a.buyingStage.GetOr("consideration") }
  function UrgencyOf(a: IntentAnalysis): string { a.urgencyLevel.GetOr("medium") }

  // ---------------------------------------------------------------------------
  // _select_prompt_strategy
  // ---------------------------------------------------------------------------

  function SelectPromptStrategy(a: IntentAnalysis): (r: string)
    ensures r == "greeting" <==> IntentOf(a) == "greeting"
    ensures r == "objection_handling" <==> IntentOf(a) == "objection"
    ensures r == "closing" <==>
              IntentOf(a) != "greeting" && IntentOf(a) != "objection"
              && (IntentOf(a) == "ready_to_buy" || BuyingStageOf(a) == "decision")
    ensures r == "follow_up" <==>
              IntentOf(a) !in {"greeting", "objection", "ready_to_buy"} && BuyingStageOf(a) != "decision"
  {
    var intent := IntentOf(a);
    if intent == "greeting" then "greeting"
    else if intent == "objection" then "objection_handling"
    else if intent == "ready_to_buy" || BuyingStageOf(a) == "decision" then "closing"
    else "follow_up"
  }

  /** The four cases the unit tests check, and a missing intent counting as "other". */
  lemma PromptStrategyExamples()
    ensures SelectPromptStrategy(IntentAnalysis(Some("greeting"), Some("awareness"), None, None)) == "greeting"
    ensures SelectPromptStrategy(IntentAnalysis(Some("objection"), Some("consideration"), None, None)) == "objection_handling"
    ensures SelectPromptStrategy(IntentAnalysis(Some("ready_to_buy"), Some("decision"), None, None)) == "closing"
    ensures SelectPromptStrategy(IntentAnalysis(Some("question"), Some("consideration"), None, None)) == "follow_up"
    ensures SelectPromptStrategy(IntentAnalysis(None, None, None, None)) == "follow_up"
    ensures SelectPromptStrategy(IntentAnalysis(None, Some("decision"), None, None)) == "closing"
  {
  }

  // ---------------------------------------------------------------------------
  // _get_fallback_response
  // ---------------------------------------------------------------------------

  const FallbackReplies: map<string, string> := map[
    "greeting" := "Olá! É um prazer falar com você! Como posso te ajudar hoje? \U{1F60A}",
    "objection" := "Entendo sua preocupação, e é completamente normal ter essas dúvidas. Deixe-me esclarecer isso para você...",
    "question" := "Excelente pergunta! Vou te dar uma resposta completa e detalhada...",
    "other" := "Que interessante! Conte-me mais sobre isso para que eu possa te ajudar da melhor forma possível!"]

  function FallbackResponse(intent: string): (r: string)
    ensures intent in FallbackReplies ==> r == FallbackReplies[intent]
    ensures intent !in FallbackReplies ==> r == FallbackReplies["other"]
    ensures |r| > 0
  {
    if intent in FallbackReplies then FallbackReplies[intent] else FallbackReplies["other"]
  }

  /** The four keyed intents get four different replies; every other intent shares the
      "other" reply. */
  lemma FallbackDistinct(i: string, j: string)
    requires i in FallbackReplies && j in FallbackReplies && i != j
    ensures FallbackResponse(i) != FallbackResponse(j)
  {
  }

  lemma FallbackOtherExactly(intent: string)
    ensures FallbackResponse(intent) == FallbackResponse("other") <==> intent !in {"greeting", "objection", "question"}
  {
  }

  // ---------------------------------------------------------------------------
  // _enhance_response_with_persuasion
  // ---------------------------------------------------------------------------

  const CtaIndicators: seq<string> := [
    "clique", "acesse", "compre", "adquira", "garanta", "aproveite",
    "entre em contato", "fale conosco", "solicite", "peça"]

  /** `_has_cta` */
  predicate HasCta(response: string) {
    HasKeyword(response, CtaIndicators)
  }

  const Ctas: seq<string> := [
    "\n\n\U{1F3AF} Que tal darmos o próximo passo? Posso te ajudar com mais detalhes agora mesmo!",
    "\n\n\U{2728} Vamos transformar esse interesse em realidade? Estou aqui para te guiar!",
    "\n\n\U{1F680} Pronto para começar? Vou te mostrar exatamente como proceder!"]

  const SocialProofs: seq<string> := [
    "\n\nAliás, mais de 95% dos nossos clientes ficam completamente satisfeitos com os resultados!",
    "\n\nVocê sabia que já ajudamos milhares de pessoas como você a alcançar seus objetivos?",
    "\n\nNossos clientes sempre comentam como essa foi uma das melhores decisões que tomaram!"]

  const UrgencyElements: seq<string> := [
    "\n\n\U{23F0} Aproveite que estou online agora para te atender com toda atenção!",
    "\n\n\U{1F525} Esse é o momento perfeito para agir - as condições estão ideais!",
    "\n\n\U{1F48E} Oportunidades como essa não aparecem todos os dias!"]

  /** `_generate_cta`; `analysisHash` is `hash(str(intent_analysis))`. */
  function GenerateCta(analysisHash: int): (r: string)
    ensures r in Ctas
  {
    Pick(Ctas, analysisHash)
  }

  /** `_add_social_proof`: the proof is chosen by the length of the reply so far. */
  function AddSocialProof(response: string): (r: string)
    // the reply is kept and one of the canned proofs follows it
    ensures |r| > |response| && r[..|response|] == response && r[|response|..] in SocialProofs
  {
    response + SocialProofs[|response| % |SocialProofs|]
  }

  /** `_add_urgency_element`, chosen the same way. */
  function AddUrgency(response: string): (r: string)
    ensures |r| > |response| && r[..|response|] == response && r[|response|..] in UrgencyElements
  {
    response + UrgencyElements[|response| % |UrgencyElements|]
  }

  /** Which proof and which urgency text are appended depends only on the length of the reply
      modulo 3, and each of the three texts is reachable. */
  lemma AdditionsCycle(a: string, b: string)
    ensures |a| % 3 == |b| % 3 ==>
              AddSocialProof(a)[|a|..] == AddSocialProof(b)[|b|..]
              && AddUrgency(a)[|a|..] == AddUrgency(b)[|b|..]
    ensures |a| % 3 != |b| % 3 ==>
              AddSocialProof(a)[|a|..] != AddSocialProof(b)[|b|..]
              && AddUrgency(a)[|a|..] != AddUrgency(b)[|b|..]
  {
    assert AddSocialProof(a)[|a|..] == SocialProofs[|a| % 3];
    assert AddSocialProof(b)[|b|..] == SocialProofs[|b| % 3];
    assert AddUrgency(a)[|a|..] == UrgencyElements[|a| % 3];
    assert AddUrgency(b)[|b|..] == UrgencyElements[|b| % 3];
  }

  predicate CtaApplies(response: string, a: IntentAnalysis) {
    BuyingStageOf(a) == "decision" && !HasCta(response)
  }

  predicate SocialProofApplies(a: IntentAnalysis) {
    a.emotionalState == Some("skeptical")
  }

  predicate UrgencyApplies(a: IntentAnalysis) {
    UrgencyOf(a) == "low" && BuyingStageOf(a) in {"consideration", "decision"}
  }

  /** What the persuasion pass may add, one part per rule, each empty unless its rule fires. */
  datatype Additions = Additions(cta: string, socialProof: string, urgency: string)

  /** The parts each rule contributes, stated rule by rule. */
  function AdditionsFor(response: string, a: IntentAnalysis, analysisHash: int): (ad: Additions)
    ensures ad.cta in Ctas <==> CtaApplies(response, a)
    ensures ad.cta == "" <==> !CtaApplies(response, a)
    ensures SocialProofApplies(a) ==> ad.socialProof == SocialProofs[|response + ad.cta| % 3]
    ensures ad.socialProof == "" <==> !SocialProofApplies(a)
    ensures UrgencyApplies(a) ==>
              ad.urgency == UrgencyElements[|response + ad.cta + ad.socialProof| % 3]
    ensures ad.urgency == "" <==> !UrgencyApplies(a)
  {
    var cta := if CtaApplies(response, a) then GenerateCta(analysisHash) else "";
    var social := if SocialProofApplies(a) then SocialProofs[|response + cta| % 3] else "";
    var urgency := if UrgencyApplies(a) then UrgencyElements[|response + cta + social| % 3] else "";
    Additions(cta, social, urgency)
  }

  /** `_enhance_response_with_persuasion`, written as the three successive rewrites of the
      source. */
  function EnhanceResponse(response: string, a: IntentAnalysis, analysisHash: int): (r: string)
    ensures IsPrefix(response, r)
    ensures r == response + AdditionsFor(response, a, analysisHash).cta
                 + AdditionsFor(response, a, analysisHash).socialProof
                 + AdditionsFor(response, a, analysisHash).urgency
  {
    var ad := AdditionsFor(response, a, analysisHash);
    var withCta := if BuyingStageOf(a) == "decision" && !HasCta(response)
                   then response + GenerateCta(analysisHash) else response;
    assert withCta == response + ad.cta;
    var withProof := if a.emotionalState == Some("skeptical") then AddSocialProof(withCta) else withCta;
    assert withProof == response + ad.cta + ad.socialProof;
    var stage := BuyingStageOf(a);
    var r := if UrgencyOf(a) == "low" && (stage == "consideration" || stage == "decision")
             then AddUrgency(withProof) else withProof;
    assert r == withProof + ad.urgency;
    assert r[..|response|] == response;
    r
  }

  /** A reply that already carries a call to action never gets a second one. */
  lemma NoSecondCta(response: string, a: IntentAnalysis, analysisHash: int)
    requires HasCta(response)
    ensures AdditionsFor(response, a, analysisHash).cta == ""
  {
  }

  /** When no rule fires the generated reply is returned as it is. */
  lemma EnhanceQuiet(response: string, a: IntentAnalysis, analysisHash: int)
    requires !CtaApplies(response, a) && !SocialProofApplies(a) && !UrgencyApplies(a)
    ensures EnhanceResponse(response, a, analysisHash) == response
  {
  }

  /** Every addition makes the reply strictly longer, so a changed reply means a rule fired. */
  lemma {:induction false} EnhanceChangesIffRuleFires(response: string, a: IntentAnalysis, analysisHash: int)
    ensures EnhanceResponse(response, a, analysisHash) != response <==>
              CtaApplies(response, a) || SocialProofApplies(a) || UrgencyApplies(a)
  {
    var ad := AdditionsFor(response, a, analysisHash);
    var r := EnhanceResponse(response, a, analysisHash);
    assert |r| == |response| + |ad.cta| + |ad.socialProof| + |ad.urgency|;
  }

  // ---------------------------------------------------------------------------
  // update_conversation_history / get_conversation_context
  // ---------------------------------------------------------------------------

  const MaxLegacyHistory: nat := 20
  const ContextWindow: nat := 10

  /** One stored exchange; the context dictionary is kept as plain string pairs. */
  datatype Exchange = Exchange(
    timestamp: int, userMessage: string, botResponse: string, context: map<string, string>)

  type Histories = map<string, seq<Exchange>>

  function HistoryOf(hs: Histories, sid: string): seq<Exchange> {
    if sid in hs then hs[sid] else []
  }

  /** The list operations of `update_conversation_history`: append, then keep the last 20. */
  function Record(h: seq<Exchange>, e: Exchange): (r: seq<Exchange>)
    ensures |r| > 0 && r[|r| - 1] == e
    ensures |r| <= MaxLegacyHistory
    ensures |h| < MaxLegacyHistory ==> r == h + [e]
    // a full history loses exactly its oldest entry
    ensures |h| >= MaxLegacyHistory ==> r == h[|h| - MaxLegacyHistory + 1..] + [e]
  {
    var appended := h + [e];
    var r := if |appended| > MaxLegacyHistory then appended[|appended| - MaxLegacyHistory..] else appended;
    assert |h| >= MaxLegacyHistory ==> r == h[|h| - MaxLegacyHistory + 1..] + [e];
    r
  }

  /** `update_conversation_history`: the session is created on first use, no other session
      changes. */
  function UpdateHistory(hs: Histories, sid: string, e: Exchange): (r: Histories)
    ensures sid in r && r.Keys == hs.Keys + {sid}
    ensures r[sid] == Record(HistoryOf(hs, sid), e)
    ensures forall other :: other in hs && other != sid ==> other in r && r[other] == hs[other]
  {
    hs[sid := Record(HistoryOf(hs, sid), e)]
  }

  function RecordAll(h: seq<Exchange>, es: seq<Exchange>): seq<Exchange>
    decreases |es|
  {
    if |es| == 0 then h else RecordAll(Record(h, es[0]), es[1..])
  }

  /** However many exchanges are recorded, a session keeps the last 20 of them in order. */
  lemma {:induction false} RecordAllWindow(h: seq<Exchange>, es: seq<Exchange>)
    requires |h| <= MaxLegacyHistory
    ensures RecordAll(h, es) == LastN(h + es, MaxLegacyHistory)
    decreases |es|
  {
    if |es| == 0 {
      assert h + es == h;
    } else {
      var h1 := Record(h, es[0]);
      assert RecordAll(h, es) == RecordAll(h1, es[1..]);
      RecordAllWindow(h1, es[1..]);
      RecordIsLastN(h, es[0]);
      WindowStep(h, es[0], h1, es[1..]);
      assert [es[0]] + es[1..] == es;
    }
  }

  lemma RecordIsLastN(h: seq<Exchange>, e: Exchange)
    ensures Record(h, e) == LastN(h + [e], MaxLegacyHistory)
  {
  }

  lemma WindowStep(h: seq<Exchange>, e: Exchange, w: seq<Exchange>, rest: seq<Exchange>)
    requires |h| <= MaxLegacyHistory
    requires w == LastN(h + [e], MaxLegacyHistory)
    ensures LastN(w + rest, MaxLegacyHistory) == LastN(h + ([e] + rest), MaxLegacyHistory)
  {
    var whole := h + [e] + rest;
    assert h + ([e] + rest) == whole;
    assert w == whole[|h| + 1 - |w|..|h| + 1];
    assert w + rest == whole[|h| + 1 - |w|..];
  }

  /** `pairs` are the message pairs of the last `|pairs|` exchanges of `h`, oldest first. */
  predicate ListsRecent(pairs: seq<(string, string)>, h: seq<Exchange>) {
    |pairs| <= |h|
    && forall i :: 0 <= i < |pairs| ==>
         pairs[i] == (h[|h| - |pairs| + i].userMessage, h[|h| - |pairs| + i].botResponse)
  }

  datatype ContextView = ContextView(
    previousMessages: seq<(string, string)>, sessionStart: int, totalInteractions: nat)

  /** `get_conversation_context`; `now` is the clock reading used for a session without
      history. */
  function ConversationContext(hs: Histories, sid: string, now: int): (r: ContextView)
    ensures r.totalInteractions == |HistoryOf(hs, sid)|
    ensures |r.previousMessages| == if |HistoryOf(hs, sid)| < ContextWindow then |HistoryOf(hs, sid)| else ContextWindow
    // the view lists the most recent exchanges, oldest first
    ensures ListsRecent(r.previousMessages, HistoryOf(hs, sid))
    ensures |HistoryOf(hs, sid)| > 0 ==> r.sessionStart == HistoryOf(hs, sid)[0].timestamp
    ensures sid !in hs ==> r == ContextView([], now, 0)
  {
    var h := HistoryOf(hs, sid);
    RecentPairs(h);
    ContextView(Pairs(LastN(h, ContextWindow)), if |h| > 0 then h[0].timestamp else now, |h|)
  }

  lemma RecentPairs(h: seq<Exchange>)
    ensures ListsRecent(Pairs(LastN(h, ContextWindow)), h)
  {
    var recent := LastN(h, ContextWindow);
    var pairs := Pairs(recent);
    forall i | 0 <= i < |pairs|
      ensures pairs[i] == (h[|h| - |pairs| + i].userMessage, h[|h| - |pairs| + i].botResponse)
    {
      assert recent[i] == h[|h| - |pairs| + i];
    }
  }

  /** `[{"user": m["user_message"], "bot": m["bot_response"]} for m in recent]` */
  function Pairs(recent: seq<Exchange>): (r: seq<(string, string)>)
    ensures |r| == |recent|
    ensures forall i :: 0 <= i < |r| ==> r[i] == (recent[i].userMessage, recent[i].botResponse)
  {
    seq(|recent|, i requires 0 <= i < |recent| => (recent[i].userMessage, recent[i].botResponse))
  }
}

=== FILE: profile_update.dfy ===
/** `_update_user_profile`: folds the analysis into the session's profile. Pain points and
    value drivers are appended without duplicates; the three scores are nudged by signal
    counts and clamped to [0, 1]. */
module ProfileUpdate {
  import opened PyText
  import opened ConversationModel

  function Min(a: real, b: real): real { if a <= b then a else b }
  function Max(a: real, b: real): real { if a >= b then a else b }

  /** The loop `for x in batch: if x not in tags: tags.append(x)`. */
  function AppendNew(tags: seq<string>, batch: seq<string>): (r: seq<string>)
    decreases |batch|
  {
    if |batch| == 0 then tags
    else
      var step := if batch[0] in tags then tags else tags + [batch[0]];
      AppendNew(step, batch[1..])
  }

  /** The old list is kept as a prefix; the result holds exactly the old tags and the batch;
      a duplicate-free list stays duplicate-free even when the batch repeats itself. */
  lemma {:induction false} AppendNewProperties(tags: seq<string>, batch: seq<string>)
    ensures IsPrefix(tags, AppendNew(tags, batch))
    ensures forall x :: x in batch ==> x in AppendNew(tags, batch)
    ensures forall x :: x in AppendNew(tags, batch) ==> x in tags || x in batch
    ensures NoDups(tags) ==> NoDups(AppendNew(tags, batch))
    decreases |batch|
  {
    if |batch| > 0 {
      var step := if batch[0] in tags then tags else tags + [batch[0]];
      AppendNewProperties(step, batch[1..]);
      var r := AppendNew(tags, batch);
      assert r == AppendNew(step, batch[1..]);
      assert IsPrefix(tags, step);
      assert r[..|tags|] == step[..|step|][..|tags|];
      forall x | x in batch ensures x in r {
        if x != batch[0] {
          assert x in batch[1..];
        } else {
          assert x in step;
          assert r[..|step|] == step;
          var i :| 0 <= i < |step| && step[i] == x;
          assert r[i] == x;
        }
      }
      forall x | x in r ensures x in tags || x in batch {
        if x in step && x !in tags {
          assert x == batch[0];
        }
      }
      if NoDups(tags) {
        assert NoDups(step);
      }
    }
  }

  function Count(xs: Option<seq<string>>): nat {
    |xs.GetOr([])|
  }

  /** The clamped raise applied to engagement and to purchase readiness. */
  function Raise(x: real, buying: nat): real {
    if buying > 0 then Min(1.0, x + 0.1 * buying as real) else x
  }

  function NudgeTrust(t: real, trusting: nat, objecting: nat): real {
    if trusting > objecting then Min(1.0, t + 0.05 * (trusting - objecting) as real)
    else if objecting > trusting then Max(0.0, t - 0.05 * (objecting - trusting) as real)
    else t
  }

  function UpdateProfile(p: UserProfile, a: Analysis): (r: UserProfile)
    // identity and the other fields are untouched
    ensures r.sessionId == p.sessionId && r.name == p.name && r.budgetRange == p.budgetRange
    ensures r.decisionTimeline == p.decisionTimeline && r.communicationStyle == p.communicationStyle
    ensures r.previousObjections == p.previousObjections
    // the scores never leave [0, 1]
    ensures ScoresInRange(p) ==> ScoresInRange(r)
    // engagement and readiness only grow, by 0.1 per buying signal up to the cap
    ensures p.engagement <= 1.0 ==> p.engagement <= r.engagement
    ensures Count(a.buyingSignals) > 0 ==> r.engagement <= 1.0 && r.readiness <= 1.0
    ensures p.readiness <= 1.0 ==> p.readiness <= r.readiness
    ensures p.engagement + 0.1 * Count(a.buyingSignals) as real <= 1.0 ==>
              r.engagement == p.engagement + 0.1 * Count(a.buyingSignals) as real
    ensures p.readiness + 0.1 * Count(a.buyingSignals) as real <= 1.0 ==>
              r.readiness == p.readiness + 0.1 * Count(a.buyingSignals) as real
    ensures Count(a.buyingSignals) > 0 && p.readiness + 0.1 * Count(a.buyingSignals) as real > 1.0 ==>
              r.readiness == 1.0
    ensures Count(a.buyingSignals) > 0 && p.engagement + 0.1 * Count(a.buyingSignals) as real > 1.0 ==>
              r.engagement == 1.0
    // trust moves toward the side with more signals, and not at all on a tie
    ensures Count(a.trustIndicators) == Count(a.objectionSignals) ==> r.trust == p.trust
    ensures Count(a.trustIndicators) > Count(a.objectionSignals) && p.trust <= 1.0 ==>
              p.trust <= r.trust <= 1.0
    ensures Count(a.trustIndicators) < Count(a.objectionSignals) && p.trust >= 0.0 ==>
              0.0 <= r.trust <= p.trust
    ensures 0.0 <= p.trust + 0.05 * (Count(a.trustIndicators) - Count(a.objectionSignals)) as real <= 1.0 ==>
              r.trust == p.trust + 0.05 * (Count(a.trustIndicators) - Count(a.objectionSignals)) as real
    // past either end trust is clamped to exactly that end
    ensures Count(a.trustIndicators) > Count(a.objectionSignals)
            && p.trust + 0.05 * (Count(a.trustIndicators) - Count(a.objectionSignals)) as real > 1.0 ==>
              r.trust == 1.0
    ensures Count(a.objectionSignals) > Count(a.trustIndicators)
            && p.trust - 0.05 * (Count(a.objectionSignals) - Count(a.trustIndicators)) as real < 0.0 ==>
              r.trust == 0.0
    // tags: old list is a prefix, every mentioned tag is present, duplicates never appear
    ensures IsPrefix(p.painPoints, r.painPoints) && IsPrefix(p.interests, r.interests)
    ensures forall x :: x in a.painPoints.GetOr([]) ==> x in r.painPoints
    ensures forall x :: x in a.valueDrivers.GetOr([]) ==> x in r.interests
    ensures forall x :: x in r.painPoints ==> x in p.painPoints || x in a.painPoints.GetOr([])
    ensures forall x :: x in r.interests ==> x in p.interests || x in a.valueDrivers.GetOr([])
    ensures ValidProfile(p) ==> ValidProfile(r)
  {
    AppendNewProperties(p.painPoints, a.painPoints.GetOr([]));
    AppendNewProperties(p.interests, a.valueDrivers.GetOr([]));
    var buying := Count(a.buyingSignals);
    p.(painPoints := AppendNew(p.painPoints, a.painPoints.GetOr([])),
       interests := AppendNew(p.interests, a.valueDrivers.GetOr([])),
       engagement := Raise(p.engagement, buying),
       trust := NudgeTrust(p.trust, Count(a.trustIndicators), Count(a.objectionSignals)),
       readiness := Raise(p.readiness, buying))
  }

  /** The profile after a sequence of analysed turns. */
  function UpdateMany(p: UserProfile, analyses: seq<Analysis>): UserProfile
    decreases |analyses|
  {
    if |analyses| == 0 then p else UpdateMany(UpdateProfile(p, analyses[0]), analyses[1..])
  }

  /** The profile invariant holds after any number of turns. */
  lemma {:induction false} UpdateManyValid(p: UserProfile, analyses: seq<Analysis>)
    requires ValidProfile(p)
    ensures ValidProfile(UpdateMany(p, analyses))
    ensures UpdateMany(p, analyses).readiness >= p.readiness
    ensures UpdateMany(p, analyses).sessionId == p.sessionId
    decreases |analyses|
  {
    if |analyses| > 0 {
      UpdateManyValid(UpdateProfile(p, analyses[0]), analyses[1..]);
    }
  }
}

=== FILE: py_text.dfy ===
/** The small part of Python's string and list semantics the modelled code relies on:
    `str.lower()`, `str.split()`, the `in` test on strings, prefix slices `xs[:n]`, and the
    `options[hash(x) % len(options)]` selection idiom. */
module PyText {

  datatype Option<+T> = None | Some(value: T) {
    function GetOr(default: T): T {
      match this
      case Some(v) => v
      case None => default
    }
  }

  // ---------------------------------------------------------------------------
  // Lower-casing
  // ---------------------------------------------------------------------------

  /** Upper-case letters of ASCII and of the Latin-1 supplement (À..Þ without ×). */
  predicate IsUpper(c: char) {
    ('A' <= c <= 'Z') || ('À' <= c <= 'Þ' && c != '×')
  }

  function LowerChar(c: char): (d: char)
    ensures IsUpper(c) ==> d as int == c as int + 32
    ensures !IsUpper(c) ==> d == c
    ensures !IsUpper(d)
  {
    if IsUpper(c) then (c as int + 32) as char else c
  }

  /** Python's `s.lower()`, restricted to the upper-case letters above. */
  function Lower(s: string): (r: string)
    ensures |r| == |s|
    ensures forall i :: 0 <= i < |s| ==> r[i] == LowerChar(s[i])
  {
    seq(|s|, i requires 0 <= i < |s| => LowerChar(s[i]))
  }

  lemma LowerConcat(a: string, b: string)
    ensures Lower(a + b) == Lower(a) + Lower(b)
  {
  }

  lemma LowerIdempotent(s: string)
    ensures Lower(Lower(s)) == Lower(s)
  {
  }

  // ---------------------------------------------------------------------------
  // Substring test (`sub in s`)
  // ---------------------------------------------------------------------------

  predicate OccursAt(s: string, sub: string, i: nat) {
    i + |sub| <= |s| && s[i..i + |sub|] == sub
  }

  predicate Contains(s: string, sub: string) {
    exists i: nat | i <= |s| :: OccursAt(s, sub, i)
  }

  /** `any(k in text.lower() for k in keywords)` */
  predicate HasKeyword(text: string, keywords: seq<string>) {
    exists k :: 0 <= k < |keywords| && Contains(Lower(text), keywords[k])
  }

  lemma ContainsAt(s: string, sub: string, i: nat)
    requires i + |sub| <= |s| && s[i..i + |sub|] == sub
    ensures Contains(s, sub)
  {
    assert OccursAt(s, sub, i);
  }

  /** A substring of a part is a substring of the whole. */
  lemma ContainsInConcat(a: string, b: string, sub: string)
    ensures Contains(a, sub) ==> Contains(a + b, sub)
    ensures Contains(b, sub) ==> Contains(a + b, sub)
  {
    if Contains(a, sub) {
      var i: nat :| i <= |a| && OccursAt(a, sub, i);
      assert a[i..i + |sub|] == sub;
      assert (a + b)[i..i + |sub|] == sub;
      assert OccursAt(a + b, sub, i);
    }
    if Contains(b, sub) {
      var i: nat :| i <= |b| && OccursAt(b, sub, i);
      assert b[i..i + |sub|] == sub;
      assert (a + b)[|a| + i..|a| + i + |sub|] == sub;
      assert OccursAt(a + b, sub, |a| + i);
    }
  }

  /** Lower-casing keeps every already lower-case substring. */
  lemma ContainsLower(s: string, sub: string)
    requires Contains(s, sub) && Lower(sub) == sub
    ensures Contains(Lower(s), sub)
  {
    var i: nat :| i <= |s| && OccursAt(s, sub, i);
    assert s[i..i + |sub|] == sub;
    assert Lower(s)[i..i + |sub|] == Lower(s[i..i + |sub|]);
    assert OccursAt(Lower(s), sub, i);
  }

  /** A keyword present in the appended tail is still detected in the whole reply. */
  lemma HasKeywordOfTail(head: string, tail: string, keywords: seq<string>, k: nat)
    requires k < |keywords| && Contains(tail, keywords[k]) && Lower(keywords[k]) == keywords[k]
    ensures HasKeyword(head + tail, keywords)
  {
    ContainsLower(tail, keywords[k]);
    ContainsInConcat(Lower(head), Lower(tail), keywords[k]);
    LowerConcat(head, tail);
  }

  lemma HasKeywordOfHead(head: string, tail: string, keywords: seq<string>)
    requires HasKeyword(head, keywords)
    ensures HasKeyword(head + tail, keywords)
  {
    var k :| 0 <= k < |keywords| && Contains(Lower(head), keywords[k]);
    ContainsInConcat(Lower(head), Lower(tail), keywords[k]);
    LowerConcat(head, tail);
  }

  // ---------------------------------------------------------------------------
  // Splitting on whitespace (`s.split()` with no separator)
  // ---------------------------------------------------------------------------

  predicate IsSpace(c: char) {
    c == ' ' || c == '\t' || c == '\n' || c == '\r' || c == '\U{0B}' || c == '\U{0C}'
    || ('\U{1C}' <= c <= '\U{1F}') || c == '\U{85}' || c == '\U{A0}'
  }

  /** Length of the leading run of non-space characters. */
  function WordLength(s: string): (n: nat)
    ensures n <= |s|
    ensures forall i :: 0 <= i < n ==> !IsSpace(s[i])
    ensures n < |s| ==> IsSpace(s[n])
  {
    if |s| == 0 || IsSpace(s[0]) then 0 else 1 + WordLength(s[1..])
  }

  predicate IsWord(w: string) {
    |w| > 0 && forall i :: 0 <= i < |w| ==> !IsSpace(w[i])
  }

  predicate AllSpace(s: string) {
    forall i :: 0 <= i < |s| ==> IsSpace(s[i])
  }

  /** Python's `s.split()`: the maximal runs of non-space characters, in order. */
  function Words(s: string): (ws: seq<string>)
    ensures forall k :: 0 <= k < |ws| ==> IsWord(ws[k])
    ensures |ws| == 0 <==> AllSpace(s)
    decreases |s|
  {
    if |s| == 0 then []
    else if IsSpace(s[0]) then
      var rest := Words(s[1..]);
      assert AllSpace(s[1..]) ==> AllSpace(s) by {
        if AllSpace(s[1..]) {
          forall i | 0 <= i < |s| ensures IsSpace(s[i]) {
            if i > 0 { assert s[i] == s[1..][i - 1]; }
          }
        }
      }
      rest
    else
      var n := WordLength(s);
      [s[..n]] + Words(s[n..])
  }

  lemma {:induction false} WordLengthOfWord(w: string)
    requires forall i :: 0 <= i < |w| ==> !IsSpace(w[i])
    ensures WordLength(w) == |w|
    decreases |w|
  {
    if |w| > 0 {
      WordLengthOfWord(w[1..]);
    }
  }

  /** A single word splits into itself. */
  lemma WordsOfWord(w: string)
    requires IsWord(w)
    ensures Words(w) == [w]
  {
    WordLengthOfWord(w);
    assert w[..|w|] == w;
    assert Words(w[|w|..]) == [];
  }

  /** The run of non-space characters starting a string stops at the first space. */
  lemma {:induction false} WordLengthBeforeSpace(a: string, c: char, b: string)
    requires IsSpace(c)
    ensures WordLength(a + [c] + b) == WordLength(a)
    decreases |a|
  {
    if |a| == 0 {
      assert (a + [c] + b)[0] == c;
    } else {
      assert (a + [c] + b)[0] == a[0];
      if !IsSpace(a[0]) {
        assert (a + [c] + b)[1..] == a[1..] + [c] + b;
        WordLengthBeforeSpace(a[1..], c, b);
      }
    }
  }

  /** Splitting at a space: the words of both sides, in order. */
  lemma {:induction false} WordsSplitAtSpace(a: string, c: char, b: string)
    requires IsSpace(c)
    ensures Words(a + [c] + b) == Words(a) + Words(b)
    decreases |a|
  {
    var s := a + [c] + b;
    if |a| == 0 {
      assert s[0] == c && s[1..] == b;
    } else if IsSpace(a[0]) {
      assert s[0] == a[0] && s[1..] == a[1..] + [c] + b;
      WordsSplitAtSpace(a[1..], c, b);
    } else {
      assert s[0] == a[0];
      var n := WordLength(a);
      WordLengthBeforeSpace(a, c, b);
      assert s[..n] == a[..n];
      assert s[n..] == a[n..] + [c] + b;
      WordsSplitAtSpace(a[n..], c, b);
    }
  }

  /** A substring of a substring is a substring. */
  lemma ContainsTransitive(s: string, m: string, w: string)
    requires Contains(s, m) && Contains(m, w)
    ensures Contains(s, w)
  {
    var i: nat :| i <= |s| && OccursAt(s, m, i);
    var j: nat :| j <= |m| && OccursAt(m, w, j);
    assert s[i..i + |m|] == m;
    assert m[j..j + |w|] == w;
    forall t | 0 <= t < |w| ensures s[i + j..i + j + |w|][t] == w[t] {
      assert w[t] == m[j..j + |w|][t] == m[j + t];
      assert m[j + t] == s[i..i + |m|][j + t] == s[i + j + t];
    }
    assert OccursAt(s, w, i + j);
  }

  /** Every word `split()` returns occurs in the string it came from. */
  lemma {:induction false} WordsOccur(s: string)
    ensures forall k :: 0 <= k < |Words(s)| ==> Contains(s, Words(s)[k])
    decreases |s|
  {
    if |s| > 0 {
      assert s == s[..1] + s[1..];
      if IsSpace(s[0]) {
        WordsOccur(s[1..]);
        forall k | 0 <= k < |Words(s)| ensures Contains(s, Words(s)[k]) {
          ContainsInConcat(s[..1], s[1..], Words(s)[k]);
        }
      } else {
        var n := WordLength(s);
        assert s == s[..n] + s[n..];
        WordsOccur(s[n..]);
        assert Words(s) == [s[..n]] + Words(s[n..]);
        forall k | 0 <= k < |Words(s)| ensures Contains(s, Words(s)[k]) {
          if k == 0 {
            ContainsAt(s, s[..n], 0);
          } else {
            assert Words(s)[k] == Words(s[n..])[k - 1];
            ContainsInConcat(s[..n], s[n..], Words(s)[k]);
          }
        }
      }
    }
  }

  // ---------------------------------------------------------------------------
  // Slices and hash-based selection
  // ---------------------------------------------------------------------------

  /** `xs[:n]` for a non-negative `n`. */
  function Take<T>(xs: seq<T>, n: nat): (r: seq<T>)
    ensures |r| == if |xs| < n then |xs| else n
    ensures r == xs[..|r|]
  {
    if |xs| <= n then xs else xs[..n]
  }

  /** `xs[:n]` for any integer `n`: a negative bound counts from the end. */
  function SliceTo<T>(xs: seq<T>, n: int): (r: seq<T>)
    ensures |r| <= |xs| && r == xs[..|r|]
    ensures n >= 0 ==> |r| == if |xs| < n then |xs| else n
    ensures n < 0 ==> |r| == if |xs| + n < 0 then 0 else |xs| + n
  {
    if n >= 0 then Take(xs, n)
    else if |xs| + n < 0 then []
    else xs[..|xs| + n]
  }

  /** `options[h % len(options)]`; Python's `%` with a positive divisor agrees with Dafny's. */
  function Pick<T>(options: seq<T>, h: int): (r: T)
    requires |options| > 0
    ensures r in options
    ensures r == options[h % |options|]
  {
    options[h % |options|]
  }

  predicate NoDups<T(==)>(xs: seq<T>) {
    forall i, j :: 0 <= i < j < |xs| ==> xs[i] != xs[j]
  }

  predicate IsPrefix<T(==)>(a: seq<T>, b: seq<T>) {
    |a| <= |b| && b[..|a|] == a
  }

  /** The last `n` elements of `xs` (all of them when there are fewer). */
  function LastN<T>(xs: seq<T>, n: nat): (r: seq<T>)
    ensures |r| == if |xs| < n then |xs| else n
    ensures r == xs[|xs| - |r|..]
  {
    if |xs| <= n then xs else xs[|xs| - n..]
  }

  lemma LastNAppend<T>(xs: seq<T>, e: T, n: nat)
    requires n > 0
    ensures LastN(LastN(xs, n) + [e], n) == LastN(xs + [e], n)
  {
  }
}

=== FILE: sales_insights.dfy ===
/** The sales-insight extractors the enhanced chat route runs over an extracted page: value
    propositions from the headings, price and review summaries, urgency words, the page kind
    and the conversion elements present. The page is the part of the extractor's dictionary
    these functions read, with every absent key already replaced by the default the source's
    `.get` supplies. */
module SalesInsights {
  import opened PyText

  datatype Page = Page(
    title: string,
    cleanText: string,
    headings: seq<(string, seq<string>)>,  // heading level and its texts, in dictionary order
    forms: seq<string>,
    linkTexts: seq<string>,
    prices: seq<string>,
    reviews: seq<string>)

  // ---------------------------------------------------------------------------
  // extract_value_propositions
  // ---------------------------------------------------------------------------

  const ValueKeywords: seq<string> := ["benefício", "vantagem", "solução", "resultado"]

  /** `kept` holds each text with a value keyword exactly as often as `texts` does, and no
      other text. */
  ghost predicate KeepsValueCounts(kept: seq<string>, texts: seq<string>) {
    forall t :: multiset(kept)[t] == if HasKeyword(t, ValueKeywords) then multiset(texts)[t] else 0
  }

  /** The texts of one heading level that mention a value keyword, in order. */
  function ValueTexts(texts: seq<string>): (r: seq<string>)
    ensures IsSubsequence(r, texts)
    ensures forall t :: t in r ==> t in texts && HasKeyword(t, ValueKeywords)
    ensures forall t :: t in texts && HasKeyword(t, ValueKeywords) ==> t in r
    // every qualifying text is kept as often as it occurs, repeats included
    ensures KeepsValueCounts(r, texts)
    decreases |texts|
  {
    if |texts| == 0 then []
    else
      var rest := ValueTexts(texts[1..]);
      assert forall t :: t in texts[1..] ==> t in texts;
      assert forall t :: t in texts ==> t == texts[0] || t in texts[1..];
      KeepCountStep(texts, rest);
      if HasKeyword(texts[0], ValueKeywords) then
        assert ([texts[0]] + rest)[1..] == rest;
        [texts[0]] + rest
      else rest
  }

  /** One step of the filter keeps the count of every text: the head counts once if it
      qualifies, and the rest as before. */
  lemma KeepCountStep(texts: seq<string>, rest: seq<string>)
    requires |texts| > 0
    requires KeepsValueCounts(rest, texts[1..])
    ensures KeepsValueCounts(if HasKeyword(texts[0], ValueKeywords) then [texts[0]] + rest else rest, texts)
  {
    assert texts == [texts[0]] + texts[1..];
    assert multiset(texts) == multiset{texts[0]} + multiset(texts[1..]);
  }

  /** All heading texts, level after level. */
  function AllTexts(headings: seq<(string, seq<string>)>): seq<string>
    decreases |headings|
  {
    if |headings| == 0 then [] else headings[0].1 + AllTexts(headings[1..])
  }

  lemma {:induction false} SubsequenceConcat(a: seq<string>, b: seq<string>, c: seq<string>, d: seq<string>)
    requires IsSubsequence(a, b) && IsSubsequence(c, d)
    ensures IsSubsequence(a + c, b + d)
    decreases |b|
  {
    if |b| == 0 {
      assert a + c == c && b + d == d;
    } else {
      assert (b + d)[1..] == b[1..] + d;
      if |a| > 0 && a[0] == b[0] && IsSubsequence(a[1..], b[1..]) {
        SubsequenceConcat(a[1..], b[1..], c, d);
        assert (a + c)[1..] == a[1..] + c;
      } else {
        SubsequenceConcat(a, b[1..], c, d);
      }
    }
  }

  /** All qualifying heading texts, level after level. */
  function ValueCandidates(headings: seq<(string, seq<string>)>): (r: seq<string>)
    // in heading order, level after level
    ensures IsSubsequence(r, AllTexts(headings))
    ensures forall t :: t in r ==> HasKeyword(t, ValueKeywords)
    ensures forall i, t :: 0 <= i < |headings| && t in headings[i].1 && HasKeyword(t, ValueKeywords) ==> t in r
    decreases |headings|
  {
    if |headings| == 0 then []
    else
      var rest := ValueCandidates(headings[1..]);
      assert forall i :: 0 < i < |headings| ==> headings[1..][i - 1] == headings[i];
      SubsequenceConcat(ValueTexts(headings[0].1), headings[0].1, rest, AllTexts(headings[1..]));
      ValueTexts(headings[0].1) + rest
  }

  /** Filtering distributes over concatenation, counted per element. */
  lemma CountsOfConcat(keep: string -> bool, ka: seq<string>, a: seq<string>, kb: seq<string>, b: seq<string>)
    requires forall t :: multiset(ka)[t] == if keep(t) then multiset(a)[t] else 0
    requires forall t :: multiset(kb)[t] == if keep(t) then multiset(b)[t] else 0
    ensures forall t :: multiset(ka + kb)[t] == if keep(t) then multiset(a + b)[t] else 0
  {
    assert multiset(ka + kb) == multiset(ka) + multiset(kb);
    assert multiset(a + b) == multiset(a) + multiset(b);
  }

  /** Repeated qualifying headings are all kept: each qualifying text occurs among the
      candidates exactly as often as among all heading texts. */
  lemma {:induction false} ValueCandidatesCounts(headings: seq<(string, seq<string>)>)
    ensures KeepsValueCounts(ValueCandidates(headings), AllTexts(headings))
    decreases |headings|
  {
    if |headings| > 0 {
      ValueCandidatesCounts(headings[1..]);
      assert AllTexts(headings) == headings[0].1 + AllTexts(headings[1..]);
      CountsOfConcat(t => HasKeyword(t, ValueKeywords), ValueTexts(headings[0].1), headings[0].1,
                     ValueCandidates(headings[1..]), AllTexts(headings[1..]));
    }
  }

  /** `extract_value_propositions`: the first five qualifying heading texts. */
  function ValuePropositions(p: Page): (r: seq<string>)
    ensures |r| == if |ValueCandidates(p.headings)| < 5 then |ValueCandidates(p.headings)| else 5
    ensures IsPrefix(r, ValueCandidates(p.headings))
    ensures forall t :: t in r ==> HasKeyword(t, ValueKeywords)
    // nothing qualifying is lost while fewer than five qualify
    ensures |ValueCandidates(p.headings)| <= 5 ==>
              forall i, t :: 0 <= i < |p.headings| && t in p.headings[i].1 && HasKeyword(t, ValueKeywords) ==> t in r
  {
    Take(ValueCandidates(p.headings), 5)
  }

  // ---------------------------------------------------------------------------
  // extract_pricing_info / extract_social_proof
  // ---------------------------------------------------------------------------

  /** The shape shared by the price and review summaries: a flag, a count and a sample. */
  datatype Summary = Summary(present: bool, count: nat, sample: seq<string>)

  function Summarize(xs: seq<string>, n: nat): (r: Summary)
    ensures r.present <==> r.count > 0
    ensures r.count == |xs|
    ensures |r.sample| == (if |xs| < n then |xs| else n) && IsPrefix(r.sample, xs)
    ensures |xs| <= n ==> r.sample == xs
  {
    Summary(|xs| > 0, |xs|, Take(xs, n))
  }

  /** `extract_pricing_info`: at most the first three prices. */
  function PricingInfo(p: Page): (r: Summary)
    ensures r.present <==> |p.prices| > 0
    ensures r.count == |p.prices|
    ensures |r.sample| == (if |p.prices| < 3 then |p.prices| else 3) && IsPrefix(r.sample, p.prices)
  {
    Summarize(p.prices, 3)
  }

  /** `extract_social_proof`: at most the first two reviews. */
  function SocialProof(p: Page): (r: Summary)
    ensures r.present <==> |p.reviews| > 0
    ensures r.count == |p.reviews|
    ensures |r.sample| == (if |p.reviews| < 2 then |p.reviews| else 2) && IsPrefix(r.sample, p.reviews)
  {
    Summarize(p.reviews, 2)
  }

  // ---------------------------------------------------------------------------
  // extract_urgency_indicators
  // ---------------------------------------------------------------------------

  const UrgencyKeywords: seq<string> := ["limitado", "oferta", "desconto", "prazo", "últimas", "apenas", "hoje"]

  /** `a` can be obtained from `b` by deleting elements. */
  predicate IsSubsequence(a: seq<string>, b: seq<string>)
    decreases |b|
  {
    if |b| == 0 then |a| == 0
    else (|a| > 0 && a[0] == b[0] && IsSubsequence(a[1..], b[1..])) || IsSubsequence(a, b[1..])
  }

  lemma UrgencyKeywordsDistinct()
    ensures NoDups(UrgencyKeywords)
  {
  }

  /** The keywords of `ks` that occur in `text`, in the order of `ks`. */
  function Found(ks: seq<string>, text: string): (r: seq<string>)
    ensures IsSubsequence(r, ks)
    ensures forall k :: k in r <==> k in ks && Contains(text, k)
    ensures NoDups(ks) ==> NoDups(r)
    decreases |ks|
  {
    if |ks| == 0 then []
    else
      var rest := Found(ks[1..], text);
      assert forall k :: k in ks <==> k == ks[0] || k in ks[1..];
      if Contains(text, ks[0]) then
        var r := [ks[0]] + rest;
        assert r[1..] == rest;
        assert NoDups(ks) ==> ks[0] !in ks[1..] by {
          if NoDups(ks) {
            forall j | 0 <= j < |ks[1..]| ensures ks[1..][j] != ks[0] {
              assert ks[1..][j] == ks[j + 1];
            }
          }
        }
        r
      else rest
  }

  /** `extract_urgency_indicators`: the urgency words the lower-cased text contains, each once,
      in the order of the word list. */
  function UrgencyIndicators(p: Page): (r: seq<string>)
    ensures IsSubsequence(r, UrgencyKeywords)
    ensures NoDups(r)
    ensures forall k :: k in r <==> k in UrgencyKeywords && Contains(Lower(p.cleanText), k)
  {
    UrgencyKeywordsDistinct();
    Found(UrgencyKeywords, Lower(p.cleanText))
  }

  // ---------------------------------------------------------------------------
  // classify_page_type
  // ---------------------------------------------------------------------------

  const ProductWords: seq<string> := ["produto", "comprar", "preço"]
  const AboutWords: seq<string> := ["sobre", "empresa", "quem somos"]
  const ContactWords: seq<string> := ["contato", "fale conosco"]
  const ContentWords: seq<string> := ["blog", "artigo", "notícia"]

  /** Some keyword occurs in the lower-cased title or the lower-cased text. */
  predicate Mentions(p: Page, kws: seq<string>) {
    HasKeyword(p.title, kws) || HasKeyword(p.cleanText, kws)
  }

  function ClassifyPageType(p: Page): (r: string)
    ensures r == "product_page" <==> Mentions(p, ProductWords)
    ensures r == "about_page" <==> !Mentions(p, ProductWords) && Mentions(p, AboutWords)
    ensures r == "contact_page" <==>
              !Mentions(p, ProductWords) && !Mentions(p, AboutWords) && Mentions(p, ContactWords)
    ensures r == "content_page" <==>
              !Mentions(p, ProductWords) && !Mentions(p, AboutWords) && !Mentions(p, ContactWords)
              && Mentions(p, ContentWords)
    ensures r == "landing_page" <==>
              !Mentions(p, ProductWords) && !Mentions(p, AboutWords) && !Mentions(p, ContactWords)
              && !Mentions(p, ContentWords)
  {
    if Mentions(p, ProductWords) then "product_page"
    else if Mentions(p, AboutWords) then "about_page"
    else if Mentions(p, ContactWords) then "contact_page"
    else if Mentions(p, ContentWords) then "content_page"
    else "landing_page"
  }

  /** A product page stays a product page however much text is appended to it. */
  lemma {:induction false} ProductPageStable(p: Page, more: string)
    requires ClassifyPageType(p) == "product_page"
    ensures ClassifyPageType(p.(cleanText := p.cleanText + more)) == "product_page"
  {
    if HasKeyword(p.cleanText, ProductWords) {
      HasKeywordOfHead(p.cleanText, more, ProductWords);
    }
  }

  // ---------------------------------------------------------------------------
  // identify_conversion_elements
  // ---------------------------------------------------------------------------

  const CtaLinkWords: seq<string> := ["comprar", "adquirir", "solicitar", "contato"]

  predicate HasCtaLink(linkTexts: seq<string>) {
    exists i :: 0 <= i < |linkTexts| && HasKeyword(linkTexts[i], CtaLinkWords)
  }

  /** The element list before `set(...)`: each marker at most once, thanks to the `break`. */
  function ElementList(p: Page): (r: seq<string>)
    ensures NoDups(r) && |r| <= 4
    ensures "contact_form" in r <==> |p.forms| > 0
    ensures "cta_button" in r <==> HasCtaLink(p.linkTexts)
    ensures "pricing_info" in r <==> |p.prices| > 0
    ensures "testimonials" in r <==> |p.reviews| > 0
    ensures forall e :: e in r ==> e in {"contact_form", "cta_button", "pricing_info", "testimonials"}
  {
    (if |p.forms| > 0 then ["contact_form"] else [])
    + (if HasCtaLink(p.linkTexts) then ["cta_button"] else [])
    + (if |p.prices| > 0 then ["pricing_info"] else [])
    + (if |p.reviews| > 0 then ["testimonials"] else [])
  }

  /** `identify_conversion_elements`, whose `list(set(...))` has no fixed order: a set. */
  function ConversionElements(p: Page): (r: set<string>)
    ensures r <= {"contact_form", "cta_button", "pricing_info", "testimonials"}
    ensures "contact_form" in r <==> |p.forms| > 0
    ensures "cta_button" in r <==> HasCtaLink(p.linkTexts)
    ensures "pricing_info" in r <==> |p.prices| > 0
    ensures "testimonials" in r <==> |p.reviews| > 0
    ensures |r| == |ElementList(p)|
  {
    var es := ElementList(p);
    DistinctCard(es);
    set e | e in es
  }

  lemma {:induction false} DistinctCard(xs: seq<string>)
    requires NoDups(xs)
    ensures |set e | e in xs| == |xs|
    decreases |xs|
  {
    if |xs| > 0 {
      var tail := xs[1..];
      assert NoDups(tail) by {
        forall i, j | 0 <= i < j < |tail| ensures tail[i] != tail[j] {
          assert tail[i] == xs[i + 1] && tail[j] == xs[j + 1];
        }
      }
      DistinctCard(tail);
      assert xs[0] !in tail by {
        forall j | 0 <= j < |tail| ensures tail[j] != xs[0] {
          assert tail[j] == xs[j + 1];
        }
      }
      assert (set e | e in xs) == {xs[0]} + (set e | e in tail);
    }
  }
}

=== FILE: strategy.dfy ===
/** Persona choice, the response-strategy lookup tables and the assembly of the generation
    prompt (`_select_optimal_persona`, `_select_response_strategy`, `_determine_*`,
    `_build_dynamic_prompt`). The prompt is kept as a structured value: only which parts go
    into it, and the partiality of the stage lookup, are modelled. */
module Strategy {
  import opened PyText
  import opened ConversationModel

  datatype Persona = ConsultativeSeller | SolutionExpert | TrustedAdvisor

  function PersonaName(p: Persona): string {
    match p
    case ConsultativeSeller => "consultative_seller"
    case SolutionExpert => "solution_expert"
    case TrustedAdvisor => "trusted_advisor"
  }

  /** `personality_indicators.communication_style`, defaulting to "expressive". */
  function StyleOf(a: Analysis): string {
    a.communicationStyle.GetOr("expressive")
  }

  function SelectPersona(ctx: Context, a: Analysis): (r: Persona)
    // a low-trust profile always gets the trusted advisor
    ensures ctx.profile.trust < 0.4 ==> r == TrustedAdvisor
    ensures r == TrustedAdvisor ==> ctx.profile.trust < 0.4
    // otherwise the two early stages force the consultative seller
    ensures ctx.profile.trust >= 0.4 && ctx.stage in {Awareness, Interest} ==> r == ConsultativeSeller
    // otherwise an analytical style or the evaluation stage selects the solution expert
    ensures r == SolutionExpert <==>
              ctx.profile.trust >= 0.4 && ctx.stage !in {Awareness, Interest}
              && (StyleOf(a) == "analytical" || ctx.stage == Evaluation)
  {
    if ctx.profile.trust < 0.4 then TrustedAdvisor
    else if ctx.stage == Awareness || ctx.stage == Interest then ConsultativeSeller
    else if StyleOf(a) == "analytical" || ctx.stage == Evaluation then SolutionExpert
    else ConsultativeSeller
  }

  /** `tone_map`, keyed by emotional state; the other three states fall back to a default. */
  const ToneTable: map<Emotion, string> := map[
    Excited := "entusiasmado mas profissional",
    Skeptical := "confiante e transparente",
    Confused := "paciente e didático",
    Frustrated := "empático e solucionador",
    Urgent := "responsivo e eficiente"]

  const DefaultTone: string := "profissional e amigável"

  function Tone(e: Emotion): (r: string)
    ensures e in ToneTable ==> r == ToneTable[e]
    ensures e !in ToneTable ==> r == DefaultTone
  {
    if e in ToneTable then ToneTable[e] else DefaultTone
  }

  /** The default tone is used for exactly curious, confident and hesitant, and no keyed
      emotion shares it. */
  lemma ToneDefaultExactly(e: Emotion)
    ensures Tone(e) == DefaultTone <==> e in {Curious, Confident, Hesitant}
  {
  }

  /** Each keyed tone belongs to one emotion only, so the tone tells the emotion apart. */
  lemma ToneTellsEmotion(e1: Emotion, e2: Emotion)
    requires e1 in ToneTable && Tone(e1) == Tone(e2)
    ensures e1 == e2
  {
    ToneDefaultExactly(e2);
  }

  const FocusTable: map<Stage, string> := map[
    Awareness := "construção de rapport e identificação de necessidades",
    Interest := "demonstração de valor e criação de visão",
    Consideration := "diferenciação e redução de risco",
    Intent := "simplificação e facilitação da decisão"]

  const DefaultFocus: string := "construção de valor"

  function PersuasionFocus(s: Stage): (r: string)
    ensures s in FocusTable ==> r == FocusTable[s]
    ensures s !in FocusTable ==> r == DefaultFocus
  {
    if s in FocusTable then FocusTable[s] else DefaultFocus
  }

  lemma FocusDefaultExactly(s: Stage)
    ensures PersuasionFocus(s) == DefaultFocus <==> !HasStagePrompt(s)
  {
  }

  /** Each keyed focus belongs to one stage only. */
  lemma FocusTellsStage(s1: Stage, s2: Stage)
    requires s1 in FocusTable && PersuasionFocus(s1) == PersuasionFocus(s2)
    ensures s1 == s2
  {
    FocusDefaultExactly(s2);
  }

  function Structure(s: Stage): string {
    if s == Awareness then "pergunta-descoberta-educação"
    else if s == Interest then "validação-conceito-benefício"
    else if s == Consideration then "diferenciação-prova-urgência"
    else "confirmação-simplificação-ação"
  }

  /** The four late stages share the closing structure; the three early ones have their own. */
  lemma StructureClosingExactly(s: Stage)
    ensures Structure(s) == "confirmação-simplificação-ação" <==> s in {Intent, Evaluation, Purchase, Retention}
  {
  }

  datatype ResponseStrategy = ResponseStrategy(
    primaryObjective: string, tone: string, structure: string, persuasionFocus: string)

  function NextAction(a: Analysis): string {
    a.nextBestAction.GetOr("provide_info")
  }

  function SelectStrategy(ctx: Context, a: Analysis): (r: ResponseStrategy)
    ensures r.primaryObjective == NextAction(a)
    ensures r.tone == Tone(ctx.emotion)
    ensures r.structure == Structure(ctx.stage) && r.persuasionFocus == PersuasionFocus(ctx.stage)
  {
    ResponseStrategy(NextAction(a), Tone(ctx.emotion), Structure(ctx.stage), PersuasionFocus(ctx.stage))
  }

  /** The parts of `_build_dynamic_prompt`, in the order they are concatenated. */
  datatype PromptSpec = PromptSpec(
    persona: Persona,
    stage: Stage,
    emotion: Emotion,
    interests: seq<string>,
    painPoints: seq<string>,
    engagement: real,
    trust: real,
    readiness: real,
    style: Option<string>,
    web: Option<PageData>,
    recentHistory: seq<Interaction>,
    strategy: ResponseStrategy)

  /** `None` where the `stage_prompts` lookup raises `KeyError` (evaluation, purchase, retention). */
  function BuildPrompt(persona: Persona, strategy: ResponseStrategy, ctx: Context, a: Analysis,
                       web: Option<PageData>): (r: Option<PromptSpec>)
    ensures r.Some? <==> HasStagePrompt(ctx.stage)
    ensures r.Some? ==> r.value.persona == persona && r.value.strategy == strategy
    ensures r.Some? ==> r.value.recentHistory == LastN(ctx.history, 3)
    ensures r.Some? ==> |r.value.recentHistory| <= 3
    ensures r.Some? ==> r.value.web == web
  {
    StagePromptsDomain(ctx.stage);
    if ctx.stage !in StagePrompts then None
    else
      var p := ctx.profile;
      Some(PromptSpec(persona, ctx.stage, ctx.emotion, p.interests, p.painPoints,
                      p.engagement, p.trust, p.readiness, a.communicationStyle, web,
                      LastN(ctx.history, 3), strategy))
  }
}

=== FILE: web_extractor.dfy ===
/** The control layer of `UniversalWebExtractor`: choosing an extraction method from the
    domain, dispatching `extract_data` on a method name, the fixed escalation from one
    fetching library to the next, and the shape of the error response. Fetching and HTML
    parsing are an oracle: for each method it says whether the page was fetched and parsed,
    the fetch failed (which escalates), or the parse failed (which the parser turns into an
    error response itself, so nothing escalates). */
module WebExtractor {
  import opened PyText

  datatype Method = Requests | Cloudscraper | Selenium | Playwright

  function MethodName(m: Method): string {
    match m
    case Requests => "requests"
    case Cloudscraper => "cloudscraper"
    case Selenium => "selenium"
    case Playwright => "playwright"
  }

  function ParseMethod(name: string): (r: Option<Method>)
    ensures r.Some? ==> MethodName(r.value) == name
    ensures r.None? <==> name !in {"requests", "cloudscraper", "selenium", "playwright"}
  {
    if name == "requests" then Some(Requests)
    else if name == "cloudscraper" then Some(Cloudscraper)
    else if name == "selenium" then Some(Selenium)
    else if name == "playwright" then Some(Playwright)
    else None
  }

  lemma ParseMethodName(m: Method)
    ensures ParseMethod(MethodName(m)) == Some(m)
  {
  }

  // ---------------------------------------------------------------------------
  // _detect_best_method
  // ---------------------------------------------------------------------------

  const JsHeavySites: seq<string> := [
    "facebook.com", "instagram.com", "twitter.com", "linkedin.com",
    "youtube.com", "tiktok.com", "pinterest.com", "amazon.com"]

  const ProtectedSites: seq<string> := ["cloudflare", "shopify", "wix.com", "squarespace.com"]

  /** `domain` is the network location of the URL; the check is on its lower-cased form. */
  function DetectBestMethod(domain: string): (r: Method)
    ensures HasKeyword(domain, JsHeavySites) <==> r == Playwright
    ensures r == Cloudscraper <==> !HasKeyword(domain, JsHeavySites) && HasKeyword(domain, ProtectedSites)
    ensures r == Requests <==> !HasKeyword(domain, JsHeavySites) && !HasKeyword(domain, ProtectedSites)
    ensures r != Selenium
  {
    if HasKeyword(domain, JsHeavySites) then Playwright
    else if HasKeyword(domain, ProtectedSites) then Cloudscraper
    else Requests
  }

  /** The JavaScript-heavy site of the unit tests. */
  lemma DetectExample()
    ensures DetectBestMethod("facebook.com") == Playwright
  {
    var d := "facebook.com";
    assert Lower(d) == d by {
      forall i | 0 <= i < |d| ensures Lower(d)[i] == d[i] {
        assert !IsUpper(d[i]);
      }
    }
    ContainsAt(d, d, 0);
    assert Contains(Lower(d), JsHeavySites[0]);
  }

  // ---------------------------------------------------------------------------
  // Responses
  // ---------------------------------------------------------------------------

  /** The extracted fields are kept abstract: a dictionary of strings. */
  type PageFields = map<string, string>

  datatype Response = Response(
    url: string, methodUsed: string, timestamp: int, success: bool, error: Option<string>,
    data: PageFields)

  /** `_create_error_response` */
  function ErrorResponse(url: string, error: string, now: int): (r: Response)
    ensures !r.success && r.methodUsed == "error" && r.url == url
    ensures r.error == Some(error) && r.data == map[] && r.timestamp == now
  {
    Response(url, "error", now, false, Some(error), map[])
  }

  /** What one method's attempt produced. */
  datatype Attempt = Parsed(fields: PageFields) | FetchFailed(reason: string) | ParseFailed(reason: string)

  // ---------------------------------------------------------------------------
  // The escalation chain
  // ---------------------------------------------------------------------------

  /** Position in the escalation order requests, cloudscraper, selenium, playwright. */
  function Rank(m: Method): (n: nat)
    ensures n <= 3
  {
    match m
    case Requests => 0
    case Cloudscraper => 1
    case Selenium => 2
    case Playwright => 3
  }

  function MethodAt(n: nat): (m: Method)
    requires n <= 3
    ensures Rank(m) == n
  {
    if n == 0 then Requests else if n == 1 then Cloudscraper else if n == 2 then Selenium else Playwright
  }

  /** The method a failed fetch falls back to; playwright has none. */
  function Next(m: Method): (r: Option<Method>)
    ensures r.Some? <==> m != Playwright
    ensures r.Some? ==> Rank(r.value) == Rank(m) + 1
  {
    match m
    case Requests => Some(Cloudscraper)
    case Cloudscraper => Some(Selenium)
    case Selenium => Some(Playwright)
    case Playwright => None
  }

  /** Every method from `m` on fails to fetch. */
  predicate AllFetchesFail(m: Method, attempt: Method -> Attempt) {
    forall k :: Rank(m) <= k <= 3 ==> attempt(MethodAt(k)).FetchFailed?
  }

  /** `_extract_with_<m>` with its fallbacks, for a given outcome of every attempt. */
  function ExtractWith(m: Method, url: string, attempt: Method -> Attempt, now: int): (r: Response)
    ensures r.url == url
    // a successful response names the method that got it, never an earlier one
    ensures r.success ==> exists k :: Rank(m) <= k <= 3 && r.methodUsed == MethodName(MethodAt(k))
                                      && attempt(MethodAt(k)).Parsed?
    // the methods tried before the one that answered all failed to fetch
    ensures forall k :: Rank(m) <= k <= 3 && r.methodUsed == MethodName(MethodAt(k)) ==>
              forall j :: Rank(m) <= j < k ==> attempt(MethodAt(j)).FetchFailed?
    ensures !r.success ==> r.methodUsed == "error" && r.data == map[]
    // failing to fetch everywhere ends in the error of the last method
    ensures AllFetchesFail(m, attempt) ==>
              attempt(Playwright).FetchFailed? && r == ErrorResponse(url, attempt(Playwright).reason, now)
    decreases 3 - Rank(m)
  {
    assert MethodAt(Rank(m)) == m;
    assert MethodAt(3) == Playwright;
    match attempt(m)
    case Parsed(fields) => Response(url, MethodName(m), now, true, None, fields)
    case ParseFailed(reason) => ErrorResponse(url, reason, now)
    case FetchFailed(reason) =>
      match Next(m)
      case None => ErrorResponse(url, reason, now)
      case Some(n) =>
        var r := ExtractWith(n, url, attempt, now);
        assert MethodAt(Rank(m)) == m;
        r
  }

  /** Once a method parses the page, nothing later in the chain is tried. */
  lemma FirstParseAnswers(m: Method, url: string, attempt: Method -> Attempt, now: int)
    requires attempt(m).Parsed?
    ensures ExtractWith(m, url, attempt, now) == Response(url, MethodName(m), now, true, None, attempt(m).fields)
  {
  }

  /** The first method from `m` on whose fetch does not fail decides the response: its page
      when it parsed, its parse error otherwise. */
  lemma {:induction false} FirstFetchDecides(m: Method, url: string, attempt: Method -> Attempt, now: int, k: nat)
    requires Rank(m) <= k <= 3
    requires forall j :: Rank(m) <= j < k ==> attempt(MethodAt(j)).FetchFailed?
    requires !attempt(MethodAt(k)).FetchFailed?
    ensures attempt(MethodAt(k)).Parsed? ==>
              ExtractWith(m, url, attempt, now)
              == Response(url, MethodName(MethodAt(k)), now, true, None, attempt(MethodAt(k)).fields)
    ensures attempt(MethodAt(k)).ParseFailed? ==>
              ExtractWith(m, url, attempt, now) == ErrorResponse(url, attempt(MethodAt(k)).reason, now)
    decreases 3 - Rank(m)
  {
    assert MethodAt(Rank(m)) == m;
    if Rank(m) < k {
      assert attempt(m).FetchFailed?;
      var n := Next(m).value;
      assert forall j :: Rank(n) <= j < k ==> attempt(MethodAt(j)).FetchFailed?;
      FirstFetchDecides(n, url, attempt, now, k);
    }
  }

  // ---------------------------------------------------------------------------
  // extract_data
  // ---------------------------------------------------------------------------

  /** `extract_data(url, method)`; `domain` is `urlparse(url).netloc`. Every failure becomes
      an error response, so the call never raises. */
  function ExtractData(url: string, domain: string, requested: string, attempt: Method -> Attempt,
                       now: int): (r: Response)
    ensures r.url == url
    // "auto" always reaches one of the four methods
    ensures requested == "auto" ==> r == ExtractWith(DetectBestMethod(domain), url, attempt, now)
    ensures ParseMethod(requested).Some? ==> r == ExtractWith(ParseMethod(requested).value, url, attempt, now)
    ensures requested != "auto" && ParseMethod(requested).None? ==>
              r == ErrorResponse(url, "Método não suportado: " + requested, now)
  {
    var chosen := if requested == "auto" then MethodName(DetectBestMethod(domain)) else requested;
    ParseMethodName(DetectBestMethod(domain));
    match ParseMethod(chosen)
    case Some(m) => ExtractWith(m, url, attempt, now)
    case None => ErrorResponse(url, "Método não suportado: " + chosen, now)
  }
}
